=== FILE: README.md ===
# Deception lab: a Dafny model of the controller and its analysis scripts

The deception lab runs a Cowrie SSH honeypot next to a deception
controller. The controller polls the Cowrie JSON logs. For every new
attacker event it places a decoy "honeytoken" file on the lab hosts and
appends one audit record. Scripts around it then score and summarise what
happened.

This project models, in Dafny:

- **The deception controller** (`deception_controller/untitled.py`).
  - The log scan: `.json` files in sorted name order, one event per line
    that decodes.
  - The event identity key `session|src_ip|timestamp`.
  - The `processed` set that makes each key acted on at most once.
  - The token name and decoy text, the target group, the delivery step
    and the six-key audit record. Token names are `honey_<whole second>.txt`,
    so two actions in the same second reuse one file name
    (`DeceptionController.TokenNameSameSecond`).
  - The process is the class `DeceptionController.Controller`. It holds
    the `processed` set, the delivery calls made, the audit log and
    whether an exception has ended it. Its methods are proved against the
    functional specification `Pipeline.Run`.
- **The older controller embedded in `init.py`**
  (`LegacyController.EmbeddedController`). It is the same loop with a
  different key, a one-line token text without the decoy warning, and a
  five-key audit record. Its key raises `TypeError` on a non-text
  `session` or `src_ip`, which ends the process.
- **The scoring script embedded in `init.py`** (`Scoring`).
  - `parse_audit` and `parse_cowrie`.
  - The first-timestamp-per-address map of `compute_mttd`.
  - The selection of matched detections, and the mean over them.
- **`scripts/run_ssh_probe.py`** (`SshProbe`).
  - The credential-file parser.
  - The round-robin choice of credentials.
  - The seven-field CSV rows, and the rows left on disk when the
    script ends in a division by zero or in a `time.sleep` that raises.
- **`real_evidence/analyze_real_data.py`** (`RealData`).
  - The `.txt` honeytoken filter.
  - The filename-to-IP parser and its tally.
  - The success/failure counts, the username tally and the top five.
- **`final_assignment_evidence/gen_graphs.py`** (`Graphs`).
  - The same summary from the results file, or its fixed fallback.
  - The fallback attack timeline.

Three kinds of input are parameters instead of I/O:

- The JSON decoder is `string -> Decoded`: an object, a decode error, or
  another exception (`RecursionError`, the integer digit limit's
  `ValueError`). The controller catches only the decode error per line, so
  another exception ends that file; the scoring readers skip the line.
- The clocks are a `Clock` indexed by the number of actions taken so far.
- The delivery outcome (`Delivered`, `CopyFailed`, `Raised`) is indexed
  the same way.

Python dictionaries that the scripts update in a loop are insertion-ordered
association lists (`Tally`). `sorted(..., key=count, reverse=True)[:5]` is a
stable descending insertion sort followed by a prefix of five.

Modules:

| module | file | what |
|---|---|---|
| `Wrappers` | wrappers.dfy | `Option`, and `Result`, whose `Failed` stands for an uncaught exception |
| `Text` | text.dfy | `strip`, `split`, `join`, `replace`, decimal text, string ordering and sorting |
| `JsonValue` | json_value.dfy | decoded JSON values, Python truthiness and `str()` |
| `EventSource` | event_source.dfy | `scan_cowrie_logs` |
| `Pipeline` | pipeline.dfy | the shared loop body of both controllers and its reference definition |
| `DeceptionController` | controller.dfy | the standalone controller |
| `LegacyController` | legacy_controller.dfy | the controller embedded in `init.py` |
| `Scoring` | scoring.dfy | the scoring script embedded in `init.py` |
| `Tally` | tally.dfy | dictionary counters, the stable descending sort and the top five |
| `AttackResults` | attack_results.dfy | success and username counts over attack records |
| `RealData` | real_data.dfy | `analyze_real_data.py` |
| `Graphs` | graphs.dfy | the summary and fallback data of `gen_graphs.py` |
| `SshProbe` | ssh_probe.dfy | `run_ssh_probe.py` |

## Model

| member | source | states |
|---|---|---|
| Text.Strip | deception_controller/untitled.py:49 | `line.strip()`, over Python's `str.isspace` whitespace: the result is no longer than the line |
| Text.StripIsCore | deception_controller/untitled.py:49 | `line.strip()` leaves the piece of the line between its leading and trailing whitespace runs, with no whitespace at either end |
| Text.StripFixedIff | deception_controller/untitled.py:49 | stripping is idempotent, and a string is its own strip exactly when it has no surrounding whitespace |
| Text.Split | real_evidence/analyze_real_data.py:36 | `str.split(d)`: at least one part, no part contains `d`, and joining the parts with `d` gives the string back |
| Text.SplitJoin | real_evidence/analyze_real_data.py:36 | splitting a join of `d`-free parts gives the parts back |
| Text.SplitFirst | scripts/run_ssh_probe.py:95 | `split(":", 1)`: the text before the first `d` (free of `d`), `d`, then the rest make up the string |
| Text.RemoveAll | real_evidence/analyze_real_data.py:38 | `replace('.txt', '')` never lengthens the text |
| Text.RemoveAllKeepsPrefix | real_evidence/analyze_real_data.py:38 | removing the pattern from `x + y` keeps a prefix `x` that cannot take part in an occurrence |
| Text.RemoveAllDropsOccurrence | real_evidence/analyze_real_data.py:38 | an occurrence the left-to-right scan meets is dropped and the scan resumes right after it |
| Text.Decimal | deception_controller/untitled.py:110 | the decimal text of a number is non-empty, all digits and without a leading zero |
| Text.DecimalRoundTrip | deception_controller/untitled.py:110 | the decimal text reads back to the number |
| Text.DecimalInjective | deception_controller/untitled.py:110 | two numbers have the same decimal text exactly when they are equal |
| Text.SortStrings | deception_controller/untitled.py:41 | `sorted(os.listdir(...))` is a permutation of the listing |
| Text.SortStringsSorted | deception_controller/untitled.py:41 | the sorted names are in code-point order |
| Text.SortStringsIgnoresInputOrder | deception_controller/untitled.py:41 | two listings with the same names sort to the same sequence |
| Text.LexTotal | deception_controller/untitled.py:41 | the name order is total (with `LexReflexive`, `LexAntisymmetric` and `LexTransitive`, a total order) |
| EventSource.ScanCowrieLogs | deception_controller/untitled.py:36-54 | the events one scan yields are `Scan(dir)`; a missing directory yields none |
| EventSource.DecodeFile | deception_controller/untitled.py:46-53 | the events of one file are its decodable lines, decoded, in file order, up to the first line on which `json.loads` raises something other than a decode error |
| EventSource.FirstRaiseIsFirst | deception_controller/untitled.py:47-53 | no line before `FirstRaise` raises, and the line at `FirstRaise`, if any, raises |
| EventSource.ControllerLinesAppend | deception_controller/untitled.py:47-53 | the controller reads two runs of lines as the first run, then the second unless the first ended the file |
| EventSource.RaisingLineEndsFile | deception_controller/untitled.py:47-53 | a line on which `json.loads` raises something other than a decode error ends the file: nothing after it is read |
| EventSource.ControllerLinesWhole | deception_controller/untitled.py:47-52 | without such a line the whole file is read |
| EventSource.DecodeLinesAppend | deception_controller/untitled.py:47-52 | the events of two runs of lines are the events of each, one after the other |
| EventSource.MalformedLineSkipped | deception_controller/untitled.py:48-52 | a line that raises a decode error adds nothing and does not stop the lines after it |
| EventSource.WellFormedLinesInOrder | deception_controller/untitled.py:47-50 | when every line decodes there is one event per line, in file order |
| EventSource.ScanIgnoresListingOrder | deception_controller/untitled.py:41 | the order in which the directory lists its names does not change the scan |
| EventSource.NonEventFileIgnored | deception_controller/untitled.py:41-43 | a name not ending in `.json` adds nothing to the scan, wherever it sorts |
| EventSource.ReadFailureKeepsEarlierLines | deception_controller/untitled.py:45-54 | a file whose reading raises part-way yields the lines before the raise, and the scan goes on with the next file |
| Pipeline.Acted | deception_controller/untitled.py:100-102 | the positions of the events acted on are in range and strictly increasing, so actions follow scan order |
| Pipeline.KeysMembership | deception_controller/untitled.py:99-102 | a key is among a run's keys exactly when some event of the run has it |
| Pipeline.ActedIsFirstNew | deception_controller/untitled.py:100-102 | an event is acted on exactly when its key was not processed before and no earlier event of the run has the same key |
| Pipeline.AtMostOnePerKey | deception_controller/untitled.py:100-102 | the events acted on have pairwise different keys, none already processed |
| Pipeline.RunAppend | deception_controller/untitled.py:93-94 | running over `a + b` is running over `a`, then over `b` from where it left off |
| Pipeline.RunOnlyGrows | deception_controller/untitled.py:91-128 | `processed` only grows, and the delivery calls and the audit log are only appended to |
| Pipeline.RunProcessed | deception_controller/untitled.py:100-102 | while the process lives, `processed` is the old set plus the key of every event seen |
| Pipeline.StepAlive | deception_controller/untitled.py:100-128 | a seen key changes nothing; a new key adds exactly one delivery call and then one audit record built from the event and its clock reading |
| Pipeline.RunActionCount | deception_controller/untitled.py:117-128 | a run that stays alive adds one delivery call and one audit record per event acted on |
| Pipeline.RunPlacementAt | deception_controller/untitled.py:110-118 | the j-th event acted on, in scan order, gets the j-th new delivery call, built from the j-th clock reading |
| Pipeline.RunRecordAt | deception_controller/untitled.py:120-128 | the j-th event acted on gets the j-th new audit record, built from its event, its delivery call and its clock reading |
| Pipeline.RunPlacementsSatisfy | deception_controller/untitled.py:110-118 | whatever holds of every placement the policy builds holds of every delivery call of a live run |
| Pipeline.RunRecordsSatisfy | deception_controller/untitled.py:120-128 | whatever holds of every record the policy builds holds of every audit record of a live run, paired with its placement and event |
| Pipeline.CopyFailureSwallowed | deception_controller/untitled.py:70-73 | a copy that fails with `CalledProcessError` changes nothing: the same keys, placements and audit records as a copy that works |
| Pipeline.RunKeepsRunning | deception_controller/untitled.py:93-128 | with keys and deliveries that never raise, the process stays alive |
| Pipeline.RunStopsAtKeyError | init.py:278 | an event whose key raises ends the process there; nothing after it is processed, placed or audited |
| Pipeline.NoKeyActedTwice | deception_controller/untitled.py:91-102 | a key acted on in a later cycle was neither processed before the earlier cycle nor seen in it |
| DeceptionController.SourceIp | deception_controller/untitled.py:96 | `src_ip` is the event's value when present (even empty), else `'unknown'` |
| DeceptionController.EventKeyIsParts | deception_controller/untitled.py:96-99 | the key is session, source and timestamp text joined by `\|`, a falsy session or timestamp becoming `''` |
| DeceptionController.EventKeyParts | deception_controller/untitled.py:99 | for `\|`-free fields, splitting the key at `\|` gives the three fields back |
| DeceptionController.SameKeyIffSameFields | deception_controller/untitled.py:99-102 | two events with `\|`-free fields have the same key exactly when session, source and timestamp agree |
| DeceptionController.TokenName | deception_controller/untitled.py:110 | token names start with `honey_` and end with `.txt` |
| DeceptionController.TokenNameSameSecond | deception_controller/untitled.py:110 | two actions get the same token name exactly when they fall in the same whole second |
| DeceptionController.TokenContent | deception_controller/untitled.py:111-115 | the token text starts with the name line, holds the line `Created by deception controller at <time>Z`, and ends with the decoy warning line |
| DeceptionController.TokenContentRecordsTime | deception_controller/untitled.py:111-115 | for one token name, the text determines the creation time written into it |
| DeceptionController.Decide | deception_controller/untitled.py:110-117 | every placement goes to `lab_hosts`, is named after the clock second, and its text is the token text for that name and the creation-time reading, so it carries the decoy warning |
| DeceptionController.AuditFor | deception_controller/untitled.py:104-105 | the record is the clock text with `Z`, `place_honeytoken`, the token name, the source, `username` defaulting to `''`, and `reason` = `message` if truthy, else `eventid`, else `''` |
| DeceptionController.ControllerKeyOf | deception_controller/untitled.py:96-99 | this controller's key never raises and is `EventKey` |
| DeceptionController.Controller.constructor | deception_controller/untitled.py:91 | a new process has an empty `processed` set, no placements, no audit records and is alive |
| DeceptionController.Controller.HandleEvent | deception_controller/untitled.py:95-128 | one loop body is one `Step` of the specification, and `processed` only grows |
| DeceptionController.Controller.RunCycle | deception_controller/untitled.py:94-128 | one cycle is `Run` over the scan's events, and `processed` only grows |
| DeceptionController.Controller.MainLoop | deception_controller/untitled.py:93-129 | a bounded run of polls is `Run` over the events of every poll, in order |
| DeceptionController.ControllerStaysAlive | deception_controller/untitled.py:93-128 | within a cycle, only a delivery or an audit append that raises can end this controller |
| DeceptionController.CycleRecordsEveryKey | deception_controller/untitled.py:100-102 | after a cycle without raising deliveries, `processed` is the old set plus the key of every event scanned |
| DeceptionController.CycleActsOncePerKey | deception_controller/untitled.py:100-102 | the events acted on in a cycle have pairwise different keys, none processed before |
| DeceptionController.CycleActionCount | deception_controller/untitled.py:117-128 | each event acted on adds exactly one placement and one audit record, appended after the old ones |
| DeceptionController.DecideMakesDecoy | deception_controller/untitled.py:110-118 | every placement the controller builds is a decoy on `lab_hosts` named after its second |
| DeceptionController.AuditForRecordsAction | deception_controller/untitled.py:120-127 | every audit record names its action, its token and its event's source |
| DeceptionController.CyclePlacesDecoyTokens | deception_controller/untitled.py:110-118 | every token placed in a cycle is a decoy on `lab_hosts` named after its clock second |
| DeceptionController.CycleAuditsEachPlacement | deception_controller/untitled.py:117-128 | the j-th new audit record records the j-th new placement and the source of the j-th event acted on |
| DeceptionController.NoEventActedOnTwice | deception_controller/untitled.py:91-102 | across two cycles of one process, no key is acted on twice |
| DeceptionController.MissingDirectoryChangesNothing | deception_controller/untitled.py:38-40 | a cycle over a missing log directory leaves the state unchanged |
| DeceptionController.ScenarioListingSorted | deception_controller/untitled.py:41 | a listing `b.json, a.json` is read `a.json` first |
| DeceptionController.ScenarioFirstFile | deception_controller/untitled.py:47-52 | a file holding the event and a malformed line yields the event once |
| DeceptionController.ScenarioSecondFile | deception_controller/untitled.py:47-50 | a file holding the event twice yields it twice |
| DeceptionController.ScanOfSortedPair | deception_controller/untitled.py:41-50 | a directory whose names sort to two names scans as the first name's events, then the second's |
| DeceptionController.DuplicateScenarioScan | deception_controller/untitled.py:36-54 | the two-file scenario scans to three copies of the event |
| DeceptionController.OneActionForRepeatedEvent | deception_controller/untitled.py:100-102 | of three copies of one event only the first is acted on |
| DeceptionController.RepeatedEventPlacedOnce | deception_controller/untitled.py:100-128 | three copies of one event in a fresh process give one placement and one audit record |
| DeceptionController.DuplicateEventPlacedOnce | deception_controller/untitled.py:36-128 | one cycle over the scenario directory places one token and writes one audit record |
| LegacyController.TextField | init.py:278 | `event.get(k, '')` in the key: `''` when absent, the text when it is text, and a raise otherwise |
| LegacyController.LegacyKeyRaises | init.py:278 | building the key raises exactly when `session` or `src_ip` is present and not text |
| LegacyController.LegacyKeyParts | init.py:278 | the key is the three parts joined by `\|`, and splits back into them |
| LegacyController.ControllersAgreeOnKeys | init.py:278 | with a textual `src_ip`, a textual or absent session and a truthy or absent timestamp, both controllers build the same key |
| LegacyController.KeysDifferWithoutSource | init.py:278 | without `src_ip` the keys differ: `''` here, `'unknown'` in the standalone controller |
| LegacyController.KeysDifferOnNullTimestamp | init.py:278 | a `null` timestamp is keyed `None` here and `''` in the standalone controller |
| LegacyController.AuditSourcesAgree | init.py:284 | the audit record's source, `'unknown'` when absent, is the standalone controller's source |
| LegacyController.LegacyContentOneLine | init.py:290 | the token text is one line when the name and the clock text are |
| LegacyController.TokenNameOneLine | init.py:289 | token names are one line |
| LegacyController.LegacyContentLacksDecoyNote | init.py:290 | the older token text never carries the decoy warning |
| LegacyController.LegacyContent | init.py:290 | the one-line text starts with the name and `- created by deception controller at`, and ends with the creation time |
| LegacyController.LegacyContentRecordsTime | init.py:290 | for one token name, the text determines the creation time written into it |
| LegacyController.LegacyDecide | init.py:289-293 | every placement goes to `lab_hosts` under the clock-second name, with the one-line text for that name and the creation-time reading |
| LegacyController.LegacyRecord | init.py:294-300 | the record has exactly the five keys: the clock text without `Z`, `place_honeytoken`, the token, the source, `username` defaulting to `''` |
| LegacyController.EmbeddedController.constructor | init.py:273 | a new process starts empty and alive |
| LegacyController.EmbeddedController.HandleEvent | init.py:277-301 | one loop body is one `Step` of the older policy, and `processed` only grows |
| LegacyController.EmbeddedController.RunCycle | init.py:276-301 | one cycle is `Run` of the older policy over the scan |
| LegacyController.EmbeddedController.MainLoop | init.py:275-302 | a bounded run of polls is `Run` over every poll's events |
| LegacyController.BadKeyEndsProcess | init.py:278 | one event with a non-text `session` or `src_ip` ends the process at that event |
| LegacyController.LegacyActsOncePerKey | init.py:279-281 | with textual keys and no raising delivery the process survives, acts once per new key and adds one placement and one record each |
| LegacyController.LegacyDecideMakesBareToken | init.py:289-293 | every placement is a `lab_hosts` token without the decoy warning |
| LegacyController.LegacyRecordRecordsAction | init.py:294-300 | every record is the five-key record of its placement and source |
| LegacyController.LegacyCyclePlacesBareTokens | init.py:289-293 | every token placed in a surviving cycle lacks the decoy warning |
| LegacyController.LegacyCycleAuditsEachPlacement | init.py:293-301 | the j-th new record is the five-key record of the j-th placement and the j-th event acted on |
| Scoring.ParseAudit | init.py:332-342 | the events are `AuditEvents(f)`: none for a missing file, else every decodable line in order |
| Scoring.DecodeEveryLine | init.py:337-341 | the line loop of both readers builds `DecodeLines`: every line that gives an object, whatever the others raise |
| Scoring.AnyBadLineSkipped | init.py:352-357 | a line on which `json.loads` raises anything is skipped and the later lines still read |
| Scoring.AuditSkipsBadLine | init.py:338-341 | an audit line on which `json.loads` raises anything is skipped and the later lines still read |
| Scoring.AuditOneEventPerLine | init.py:336-339 | when every line decodes there is one event per line, in order |
| Scoring.ParseCowrie | init.py:344-359 | the events are `CowrieEvents(dir)`: none for a missing directory |
| Scoring.StrictScanFailureIsFinal | init.py:352 | once opening or reading a file raises, `parse_cowrie` raises whatever follows |
| Scoring.StrictScanAgrees | init.py:348-358 | the strict scan succeeds exactly when every `.json` file reads, and then, when no line raises anything but a decode error, gives the controller's scan |
| Scoring.ParseCowrieAgreesWithScan | init.py:344-359 | `parse_cowrie` succeeds exactly when every listed `.json` file reads, and then, when no line raises anything but a decode error, returns what the controller's scan yields |
| Scoring.ReadersDifferOnRaisingLine | init.py:352-357 | on a line where `json.loads` raises something other than a decode error, the controller stops reading the file while `parse_cowrie` skips the line and reads on |
| Scoring.BuildFirstByIp | init.py:366-371 | the `setdefault` loop builds `FirstByIp` |
| Scoring.FirstByIpHas | init.py:366-371 | an address is in the map exactly when some event of it has a truthy address and timestamp |
| Scoring.FirstByIpKeepsFirst | init.py:366-371 | the stored timestamp is the one of the first usable event of that address |
| Scoring.FirstByIpNeverOverwritten | init.py:371 | later events never overwrite a stored address |
| Scoring.DeltasFromDetections | init.py:372-382 | every delay comes from some matched detection |
| Scoring.DeltasSnoc | init.py:372-382 | the last detection adds its own delay, if it has one, and nothing else |
| Scoring.DeltasEmptyIff | init.py:372-384 | there are no delays exactly when no detection contributes one |
| Scoring.SumBounds | init.py:385 | a sum lies between count times any lower and upper bound |
| Scoring.MeanBounds | init.py:385 | the mean lies between any bounds of the values |
| Scoring.ComputeMttd | init.py:361-385 | the loops compute `Mttd` |
| Scoring.MttdNoneIff | init.py:364-384 | there is no estimate exactly when a list is empty or no detection matches with parseable timestamps |
| Scoring.MttdWithinBounds | init.py:372-385 | the estimate lies within any bounds on the delays |
| Scoring.UnmatchedDetectionIgnored | init.py:375 | a detection from an address no attacker event shows changes nothing |
| Tally.Bump | real_evidence/analyze_real_data.py:39 | `d[k] = d.get(k, 0) + 1`: the keys gain `k`, and the dictionary grows by one entry exactly when `k` is new |
| Tally.BumpAppends | real_evidence/analyze_real_data.py:39 | a new key's entry, with count 1, goes at the end |
| Tally.BumpGet | real_evidence/analyze_real_data.py:39 | the count of `k` goes up by one and every other count stays |
| Tally.BumpTotal | real_evidence/analyze_real_data.py:39 | the counts add up to one more |
| Tally.BumpShape | real_evidence/analyze_real_data.py:39 | distinct keys and positive counts stay so |
| Tally.CountAll | final_assignment_evidence/gen_graphs.py:27-30 | the counting loop builds `TallyOf(xs)` |
| Tally.TallyCounts | final_assignment_evidence/gen_graphs.py:27-30 | each key's count is its number of occurrences, and the counts add up to the number of items |
| Tally.TallyShape | final_assignment_evidence/gen_graphs.py:27-30 | distinct keys, positive counts, and a key is present exactly when it occurs |
| Tally.TallyFirstSeenOrder | final_assignment_evidence/gen_graphs.py:27-30 | the keys are listed in the order of their first occurrence |
| Tally.Top5 | final_assignment_evidence/gen_graphs.py:33 | `[:5]`: five entries, or all when there are fewer |
| Tally.SortDescSorts | final_assignment_evidence/gen_graphs.py:33 | the sort is a permutation in non-increasing count order |
| Tally.SortDescStable | final_assignment_evidence/gen_graphs.py:33 | the sort is stable: entries of equal count keep their relative order |
| Tally.Top5Properties | final_assignment_evidence/gen_graphs.py:33 | at most five entries, non-increasing, drawn from the tally, each at least every count left out |
| Tally.Top5Total | final_assignment_evidence/gen_graphs.py:33 | the top five's counts add up to no more than the tally's |
| AttackResults.CountSuccessful | final_assignment_evidence/gen_graphs.py:23 | the successful count is at most the number of records |
| AttackResults.CountSuccessfulIsPositions | final_assignment_evidence/gen_graphs.py:23 | the successful count is the number of positions whose record has a truthy `success` |
| AttackResults.FailedIsComplement | final_assignment_evidence/gen_graphs.py:23-24 | `total - successful` counts the failed records, so it is never negative; all succeed exactly when it is 0, none exactly when `successful` is 0 |
| AttackResults.Users | final_assignment_evidence/gen_graphs.py:29 | one username per record |
| AttackResults.UsernameCounts | final_assignment_evidence/gen_graphs.py:27-30 | the loop builds the tally of the records' usernames |
| AttackResults.UsernameTallyCounts | final_assignment_evidence/gen_graphs.py:27-30 | each username's count is the number of records tried with it, the counts add up to the number of records, and usernames are distinct |
| AttackResults.MissingUsernameIsUnknown | real_evidence/analyze_real_data.py:57 | a record without a username adds one to `'unknown'` |
| RealData.TxtNames | real_evidence/analyze_real_data.py:29 | the filter keeps no more names than listed |
| RealData.TxtNamesAppend | real_evidence/analyze_real_data.py:29 | the honeytokens of two runs of names are those of the first run followed by those of the second |
| RealData.TxtNamesFilter | real_evidence/analyze_real_data.py:27-29 | a name is a honeytoken exactly when it is listed and ends in `.txt`, and honeytokens keep listing order |
| RealData.ExtractIpOfParts | real_evidence/analyze_real_data.py:36-38 | a name of `_`-free parts, the last `d.txt`, yields its last four parts joined by `.` without `.txt` |
| RealData.ExtractIpOfHoneyName | real_evidence/analyze_real_data.py:35-38 | `honey_<t>_<a>_<b>_<c>_<d>.txt` yields `a.b.c.d` |
| RealData.ControllerTokenHasNoIp | real_evidence/analyze_real_data.py:37 | the controller's own token names (`deception_controller/untitled.py` line 110) have two parts and yield no address |
| RealData.Ips | real_evidence/analyze_real_data.py:34-38 | at most one address per name |
| RealData.IpsSnoc | real_evidence/analyze_real_data.py:34-38 | a further name adds its own address, if any, at the end |
| RealData.IpCounts | real_evidence/analyze_real_data.py:33-39 | the loop builds the tally of the addresses read from the names |
| RealData.IpCountsTotal | real_evidence/analyze_real_data.py:39 | the address counts add up to the number of names with at least four parts, each count being the address's occurrences |
| RealData.ShortNameNotCounted | real_evidence/analyze_real_data.py:37 | a name with fewer than four parts leaves the counts unchanged |
| RealData.ControllerTokenNotCounted | real_evidence/analyze_real_data.py:37 | a controller token leaves the address counts unchanged |
| RealData.Analyze | real_evidence/analyze_real_data.py:16-61 | the script computes `AnalysisOf`: the honeytokens, their address tally, and statistics only for a non-empty result list |
| RealData.AnalysisConsistent | real_evidence/analyze_real_data.py:44-61 | successful and failed add up and failed is never negative; username counts add up to the records; at most five usernames, largest first, from the tally |
| Graphs.LoadSummary | final_assignment_evidence/gen_graphs.py:19-40 | a missing file gives the fixed fallback, another error ends the script, and a file gives the summary of its records |
| Graphs.SummaryConsistent | final_assignment_evidence/gen_graphs.py:22-33 | successful and failed make up all attempts and neither is negative; at most five top users, largest first, from the tally, counts adding up to no more than the attempts |
| Graphs.TopUsersTiesInFirstSeenOrder | final_assignment_evidence/gen_graphs.py:27-33 | the sort keeps equal counts in tally order, the tally is in first-seen order, and the top users are the sorted tally's prefix |
| Graphs.FallbackConsistent | final_assignment_evidence/gen_graphs.py:37-40 | the fallback adds up (2 + 25 = 27) and its five users are distinct, non-increasing and total no more than 27 |
| Graphs.FallbackSeconds | final_assignment_evidence/gen_graphs.py:236 | 27 seconds values, all below 60 (so `replace` never raises), strictly increasing, the i-th `2*i` after the first |
| Graphs.FallbackTimeline | final_assignment_evidence/gen_graphs.py:236-239 | 27 flags, true exactly at 9 and 10, two in all |
| Graphs.FallbacksAgree | final_assignment_evidence/gen_graphs.py:37-38 | the fallback timeline has the fallback summary's 27 attempts and 2 successes |
| SshProbe.DefaultCreds | scripts/run_ssh_probe.py:27-35 | seven built-in pairs |
| SshProbe.ParseCreds | scripts/run_ssh_probe.py:89-96 | the line loop builds `ParseCredLines` |
| SshProbe.CredLineKeptIff | scripts/run_ssh_probe.py:92-94 | a line yields a pair exactly when it contains `:` |
| SshProbe.CredLineShape | scripts/run_ssh_probe.py:95-96 | the username has no `:` and both halves are stripped |
| SshProbe.CredLineRoundTrip | scripts/run_ssh_probe.py:95-96 | writing a pair as `user:password` and parsing it gives the pair back |
| SshProbe.PasswordKeepsColons | scripts/run_ssh_probe.py:95 | only the first `:` separates, so a password keeps its own colons |
| SshProbe.ParseCredLinesAppend | scripts/run_ssh_probe.py:91-96 | the pairs of two runs of lines are each run's pairs, in order |
| SshProbe.BadCredLineSkipped | scripts/run_ssh_probe.py:93-94 | a line without `:` is skipped and the later lines still read |
| SshProbe.CredsInFileOrder | scripts/run_ssh_probe.py:91-96 | when every line holds `:`, there is one pair per line, in file order |
| SshProbe.WriteRows | scripts/run_ssh_probe.py:105-124 | the attempt loop builds `ProbeRows`: every row when it completes, and only the rows written so far when an exception ends it |
| SshProbe.RowsRoundRobin | scripts/run_ssh_probe.py:109-110 | exactly `n` rows, attempt `i` using pair `i mod len(creds)` |
| SshProbe.RoundRobin | scripts/run_ssh_probe.py:103-124 | the loop crashes exactly when there is an attempt and `time.sleep` refuses the delay (negative, NaN, infinite, or beyond 2^63 - 1 nanoseconds), leaving row 0 on disk; otherwise it writes exactly `attempts` rows; row `i` has pair `i mod len(creds)`, the clock text with `Z`, the host, the port and the attempt's result |
| SshProbe.SamePairEveryRound | scripts/run_ssh_probe.py:110-124 | the loop completes exactly when `time.sleep` accepts the delay, and then attempts `len(creds)` apart use the same pair |
| SshProbe.EveryPairTried | scripts/run_ssh_probe.py:109-124 | the loop completes exactly when `time.sleep` accepts the delay, and then, with at least as many attempts as pairs, every pair is tried |
| SshProbe.EmptyCredsFileCrashes | scripts/run_ssh_probe.py:89-110 | a credentials file with no `:` line replaces the defaults by nothing, and the first attempt then divides by zero, leaving only the CSV header |
| SshProbe.FallbackNeverDividesByZero | scripts/run_ssh_probe.py:86-124 | with the fallback to the defaults the list is never empty; the script fails before writing exactly when reading the file does; the loop crashes exactly when a sleep raises, after one row, and otherwise writes one row per attempt; it agrees with the script whenever the file has a pair |

## Left out

- Logging, `print`, and the report text of the analysis scripts.
- The Ansible `subprocess.run` delivery and its `/tmp` staging write. Delivery is an opaque call whose outcome is a parameter.
- `ensure_directories`, the `record_audit` file append (the audit log is a sequence that only grows) and the configuration constants.
- The endless `while True` loop and `time.sleep`: `MainLoop` runs a finite sequence of polls.
- The laziness of the `scan_cowrie_logs` generator: a scan is the list of events it would yield, consumed in order by the loop.
- Filesystem access. A directory is its listing and the lines of each file; a file that fails to open or read part-way is a flag. Both analysis scripts test `os.path.exists`, and a path that exists but is not a directory is not modelled. Nor is a log directory whose `os.listdir` raises (one the process may not read): that call sits outside every `try` (deception_controller/untitled.py:41, init.py:237, init.py:348) and would end the controller or the scoring script.
- DeceptionController.ControllerStaysAlive: a raising `os.listdir` also ends the controller between cycles; the lemma covers what happens within one cycle, and the directory listing is not modelled as raising (line above).
- The JSON library. The decoder is a parameter that yields objects only, so a log line holding a JSON array or number (on which `event.get` would raise) is not modelled. Nor is a results file whose `json.load` result is not a list of objects.
- Python's cross-type key equality (`True == 1 == 1.0`) in the username tally, and unhashable usernames (lists, objects), which would raise.
- Scoring.FirstByIp: keys are compared as JSON values, so `compute_mttd`'s `setdefault` (init.py:371) and its `ip in first_by_ip` and `first_by_ip[ip]` lookups (init.py:375-377) do not merge `1`, `True` and `1.0`, and a list or object `src_ip`, on which they raise `TypeError`, is stored and looked up as an ordinary key instead of ending the script.
- SshProbe.SleepRaises: the nanosecond bound is checked on the exact product of the delay and 10^9; the floating-point rounding of that product near 2^63 is not modelled. The bound is that of CPython's 64-bit nanosecond clock type.
- `datetime` parsing and formatting and the clocks. `int(time.time())` and the `isoformat()` texts are a `Reading`, and `compute_mttd`'s `fromisoformat` subtraction is an `Elapsed` parameter.
- Scoring.Mean: `statistics.mean` is computed in exact `real` arithmetic, not floating point.
- The success-rate percentage and the detection ratio of `analyze_real_data.py` (lines 52 and 66), which are floating point.
- `try_ssh` and Paramiko: the result and latency of each attempt come from a `Prober` parameter. The CSV writer is the row sequence.
- The plotting in `gen_graphs.py`, and its timeline path that reads timestamps from the results file (lines 213-230).
- The rest of `init.py`: the README, inventory, playbook, compose and shell files it writes.
- `crawl.py` and `generate_real_attacks.py`.
- RealData.ExtractIpOfHoneyName: the filename example from the script's comment, `honey_1765344472_172_17_0_1.txt`, is covered by this general lemma over `honey_<t>_<a>_<b>_<c>_<d>.txt`, not stated as a literal.

## Findings

| source | as written | input that shows it | evidently intended | confidence | as-written member | corrected member |
|---|---|---|---|---|---|---|
| scripts/run_ssh_probe.py:89-96,110 | a credentials file that opens replaces the defaults by its pairs even when it has none, and then `i % len(creds)` divides by zero | `--creds-file` naming a file whose lines contain no `:` (an empty file, say), with `--attempts 1` | fall back to the built-in pairs when the file yields none, so the attempt loop always has a pair | not executed | SshProbe.EmptyCredsFileCrashes | SshProbe.FallbackNeverDividesByZero |

=== FILE: attack_results.dfy ===
/** The records of `real_attack_results.json` as both analysis scripts
    read them: a record succeeded when its `success` is truthy (default
    False) and was tried with its `username` (default 'unknown'). */
module AttackResults {
  import opened JsonValue
  import opened Tally

  /** `r.get('success', False)` is truthy. */
  predicate Succeeded(r: Obj) {
    Truthy(GetOr(r, "success", JBool(false)))
  }

  /** `sum(1 for r in rs if r.get('success', False))`. */
  function CountSuccessful(rs: seq<Obj>): (n: nat)
    ensures n <= |rs|
  {
    if rs == [] then 0 else (if Succeeded(rs[0]) then 1 else 0) + CountSuccessful(rs[1..])
  }

  /** The positions of the records that succeeded. */
  function SuccessPositions(rs: seq<Obj>): set<int> {
    set i | 0 <= i < |rs| && Succeeded(rs[i])
  }

  /** A further record adds one to the count exactly when it succeeded. */
  lemma {:induction false} CountSuccessfulSnoc(rs: seq<Obj>, r: Obj)
    ensures CountSuccessful(rs + [r]) == CountSuccessful(rs) + (if Succeeded(r) then 1 else 0)
  {
    if rs != [] {
      assert (rs + [r])[1..] == rs[1..] + [r];
      CountSuccessfulSnoc(rs[1..], r);
    }
  }

  /** A further record adds its own position exactly when it succeeded. */
  lemma SuccessPositionsSnoc(rs: seq<Obj>, r: Obj)
    ensures SuccessPositions(rs + [r]) == SuccessPositions(rs) + (if Succeeded(r) then {|rs|} else {})
  {
    var ext := rs + [r];
    forall i | 0 <= i < |rs| ensures ext[i] == rs[i] { }
  }

  /** The count is the number of positions holding a successful record. */
  lemma {:induction false} CountSuccessfulIsPositions(rs: seq<Obj>)
    ensures CountSuccessful(rs) == |SuccessPositions(rs)|
  {
    if rs != [] {
      var n := |rs| - 1;
      var init, last := rs[..n], rs[n];
      assert rs == init + [last];
      CountSuccessfulIsPositions(init);
      CountSuccessfulSnoc(init, last);
      SuccessPositionsSnoc(init, last);
      assert n !in SuccessPositions(init);
    }
  }

  /** The records that did not succeed, counted on their own. */
  function CountFailed(rs: seq<Obj>): nat {
    if rs == [] then 0 else (if Succeeded(rs[0]) then 0 else 1) + CountFailed(rs[1..])
  }

  /** `failed = len(rs) - successful` is the number of records that did not
      succeed, so it is never negative; all succeed exactly when `failed`
      is 0, none exactly when `successful` is 0. */
  lemma {:induction false} FailedIsComplement(rs: seq<Obj>)
    ensures |rs| - CountSuccessful(rs) == CountFailed(rs)
    ensures CountFailed(rs) == 0 <==> forall i :: 0 <= i < |rs| ==> Succeeded(rs[i])
    ensures CountSuccessful(rs) == 0 <==> forall i :: 0 <= i < |rs| ==> !Succeeded(rs[i])
  {
    if rs != [] {
      var rest := rs[1..];
      FailedIsComplement(rest);
      assert forall i :: 0 < i < |rs| ==> rs[i] == rest[i - 1];
      assert forall i :: 0 <= i < |rest| ==> rest[i] == rs[i + 1];
    }
  }

  /** `r.get('username', 'unknown')`. */
  function UserOf(r: Obj): JValue {
    GetOr(r, "username", JStr("unknown"))
  }

  /** The username of every record, in record order. */
  function Users(rs: seq<Obj>): (us: seq<JValue>)
    ensures |us| == |rs|
  {
    if rs == [] then [] else Users(rs[..|rs| - 1]) + [UserOf(rs[|rs| - 1])]
  }

  /** The number of records tried with username `u`. */
  function TriedWith(rs: seq<Obj>, u: JValue): nat {
    if rs == [] then 0 else (if UserOf(rs[0]) == u then 1 else 0) + TriedWith(rs[1..], u)
  }

  /** The loop `for r in rs: user = r.get('username', 'unknown');
      usernames[user] = usernames.get(user, 0) + 1`. */
  method UsernameCounts(rs: seq<Obj>) returns (usernames: seq<Entry<JValue>>)
    ensures usernames == TallyOf(Users(rs))
  {
    usernames := [];
    var i := 0;
    while i < |rs|
      invariant 0 <= i <= |rs|
      invariant usernames == TallyOf(Users(rs[..i]))
    {
      assert rs[..i + 1][..i] == rs[..i];
      usernames := Bump(usernames, UserOf(rs[i]));
      i := i + 1;
    }
    assert rs[..i] == rs;
  }

  lemma {:induction false} TriedWithSnoc(rs: seq<Obj>, r: Obj, u: JValue)
    ensures TriedWith(rs + [r], u) == TriedWith(rs, u) + (if UserOf(r) == u then 1 else 0)
  {
    if rs != [] {
      TriedWithSnoc(rs[1..], r, u);
      assert (rs + [r])[1..] == rs[1..] + [r];
    }
  }

  lemma {:induction false} UsersCount(rs: seq<Obj>, u: JValue)
    ensures multiset(Users(rs))[u] == TriedWith(rs, u)
  {
    if rs != [] {
      var init, r := rs[..|rs| - 1], rs[|rs| - 1];
      UsersCount(init, u);
      TriedWithSnoc(init, r, u);
      assert init + [r] == rs;
    }
  }

  /** The username tally counts each username once per record tried with
      it, a missing username as 'unknown', so its counts add up to the
      number of records; it has one entry per username tried. */
  lemma UsernameTallyCounts(rs: seq<Obj>, u: JValue)
    ensures Get(TallyOf(Users(rs)), u) == TriedWith(rs, u)
    ensures Total(TallyOf(Users(rs))) == |rs|
    ensures DistinctKeys(TallyOf(Users(rs)))
  {
    TallyCounts(Users(rs), u);
    TallyShape(Users(rs));
    UsersCount(rs, u);
  }

  /** A record without a username is counted under 'unknown'. */
  lemma MissingUsernameIsUnknown(rs: seq<Obj>, r: Obj)
    requires "username" !in r
    ensures Get(TallyOf(Users(rs + [r])), JStr("unknown")) == Get(TallyOf(Users(rs)), JStr("unknown")) + 1
  {
    UsernameTallyCounts(rs + [r], JStr("unknown"));
    UsernameTallyCounts(rs, JStr("unknown"));
    TriedWithSnoc(rs, r, JStr("unknown"));
  }
}

=== FILE: controller.dfy ===
/** The standalone deception controller (`deception_controller/untitled.py`):
    the event key, the honeytoken name and text, the target group, the audit
    record, and the polling loop that ties them to the scan. */
module DeceptionController {
  import opened Wrappers
  import opened Text
  import opened JsonValue
  import opened EventSource
  import opened Pipeline

  /** The line every token carries so that nobody mistakes it for a real
      credential. */
  const DecoyNote: string := "NOTE: This file is a decoy. Do not use as a credential.\n"

  /** `event.get('src_ip') or event.get('src_ip', 'unknown')`: the event's
      value when the key is present, even a falsy one, else `'unknown'`. */
  function SourceIp(e: Obj): (v: JValue)
    ensures "src_ip" in e ==> v == e["src_ip"]
    ensures "src_ip" !in e ==> v == JStr("unknown")
  {
    Or(GetOr(e, "src_ip", JNull), GetOr(e, "src_ip", JStr("unknown")))
  }

  /** `event.get(k) or ''`. */
  function OrEmpty(e: Obj, k: string): JValue {
    Or(GetOr(e, k, JNull), JStr(""))
  }

  /** The identity key `f"{session}|{src_ip}|{timestamp}"`. */
  function EventKey(e: Obj): string {
    Str(OrEmpty(e, "session")) + "|" + Str(SourceIp(e)) + "|" + Str(OrEmpty(e, "timestamp"))
  }

  /** The session part of the key: the session when present and truthy,
      otherwise empty. */
  function SessionPart(e: Obj): string {
    if "session" in e && Truthy(e["session"]) then Str(e["session"]) else ""
  }

  /** The source part of the key: `unknown` only when `src_ip` is absent; a
      present value is rendered as it is, an empty one as the empty text. */
  function SourcePart(e: Obj): string {
    if "src_ip" in e then Str(e["src_ip"]) else "unknown"
  }

  /** The timestamp part of the key: the timestamp when present and truthy,
      otherwise empty. */
  function TimestampPart(e: Obj): string {
    if "timestamp" in e && Truthy(e["timestamp"]) then Str(e["timestamp"]) else ""
  }

  /** The key is the three parts with `|` between them. */
  lemma EventKeyIsParts(e: Obj)
    ensures EventKey(e) == SessionPart(e) + "|" + SourcePart(e) + "|" + TimestampPart(e)
  {
    assert Str(OrEmpty(e, "session")) == SessionPart(e);
    assert Str(SourceIp(e)) == SourcePart(e);
    assert Str(OrEmpty(e, "timestamp")) == TimestampPart(e);
    assert EventKey(e) == Str(OrEmpty(e, "session")) + "|" + Str(SourceIp(e)) + "|" + Str(OrEmpty(e, "timestamp"));
  }

  /** When no field contains `|`, the key splits back into exactly its three
      parts: session, source address, timestamp. */
  lemma EventKeyParts(e: Obj)
    requires '|' !in SessionPart(e) && '|' !in SourcePart(e) && '|' !in TimestampPart(e)
    ensures Split(EventKey(e), '|') == [SessionPart(e), SourcePart(e), TimestampPart(e)]
  {
    var a, b, c := SessionPart(e), SourcePart(e), TimestampPart(e);
    EventKeyIsParts(e);
    JoinThree(a, b, c, '|');
    SplitJoin([a, b, c], '|');
  }

  /** Three parts joined with a separator. */
  lemma JoinThree(a: string, b: string, c: string, d: char)
    ensures Join([a, b, c], d) == a + [d] + b + [d] + c
  {
    assert [a, b, c][1..] == [b, c];
    assert [b, c][1..] == [c];
    assert Join([b, c], d) == b + [d] + c;
    assert Join([a, b, c], d) == a + [d] + (b + [d] + c);
    assert a + [d] + (b + [d] + c) == a + [d] + b + [d] + c;
  }

  /** Two events are the same occurrence exactly when session, source
      address and timestamp agree (fields free of `|`). */
  lemma SameKeyIffSameFields(e1: Obj, e2: Obj)
    requires '|' !in SessionPart(e1) && '|' !in SourcePart(e1) && '|' !in TimestampPart(e1)
    requires '|' !in SessionPart(e2) && '|' !in SourcePart(e2) && '|' !in TimestampPart(e2)
    ensures EventKey(e1) == EventKey(e2) <==>
              SessionPart(e1) == SessionPart(e2) && SourcePart(e1) == SourcePart(e2)
              && TimestampPart(e1) == TimestampPart(e2)
  {
    EventKeyParts(e1);
    EventKeyParts(e2);
  }

  /** `f"honey_{int(time.time())}.txt"`. */
  function TokenName(seconds: nat): (name: string)
    ensures StartsWith(name, "honey_") && EndsWith(name, ".txt")
  {
    "honey_" + Decimal(seconds) + ".txt"
  }

  /** The name depends on the whole second only: two actions get the same
      name exactly when they fall in the same second. */
  lemma TokenNameSameSecond(a: nat, b: nat)
    ensures TokenName(a) == TokenName(b) <==> a == b
  {
    if TokenName(a) == TokenName(b) {
      var da, db := Decimal(a), Decimal(b);
      assert |da| == |db|;
      assert da == TokenName(a)[6..6 + |da|];
      assert db == TokenName(b)[6..6 + |db|];
      DecimalInjective(a, b);
    }
  }

  /** The token text: the token's name on the first line, the creation
      time on the second, and the decoy warning as its last line. */
  function TokenContent(name: string, createdAt: string): (content: string)
    ensures StartsWith(content, "INSTR: Investigate file " + name + "\n")
    ensures Contains(content, "Created by deception controller at " + createdAt + "Z\n")
    ensures EndsWith(content, DecoyNote) && Contains(content, DecoyNote)
  {
    var first := "INSTR: Investigate file " + name + "\n";
    var second := "Created by deception controller at " + createdAt + "Z\n";
    var content := first + second + DecoyNote;
    assert OccursAt(content, second, |first|);
    assert OccursAt(content, DecoyNote, |content| - |DecoyNote|);
    content
  }

  /** The text records the clock: for one token name, two texts are equal
      exactly when they were written with the same creation time. */
  lemma TokenContentRecordsTime(name: string, a: string, b: string)
    ensures TokenContent(name, a) == TokenContent(name, b) <==> a == b
  {
    if TokenContent(name, a) == TokenContent(name, b) {
      var k := |"INSTR: Investigate file " + name + "\n" + "Created by deception controller at "|;
      var ca, cb := TokenContent(name, a), TokenContent(name, b);
      assert |a| == |b|;
      assert a == ca[k..k + |a|];
      assert b == cb[k..k + |b|];
    }
  }

  /** `map_srcip_to_target`: every source goes to the `lab_hosts` group. */
  function MapSrcIpToTarget(srcIp: JValue): string {
    "lab_hosts"
  }

  /** The honeytoken placed for one event. */
  function Decide(e: Obj, r: Reading): (pl: Placement)
    ensures pl.target == "lab_hosts"
    ensures pl.name == TokenName(r.seconds)
    ensures pl.content == TokenContent(pl.name, r.contentStamp)
    ensures EndsWith(pl.content, DecoyNote) && Contains(pl.content, DecoyNote)
  {
    var name := TokenName(r.seconds);
    Placement(MapSrcIpToTarget(SourceIp(e)), name, TokenContent(name, r.contentStamp))
  }

  /** The audit record written after the placement. */
  function AuditFor(e: Obj, pl: Placement, r: Reading): (rec: AuditRecord)
    ensures rec.Audit?
    ensures rec.timestamp == r.auditStamp + "Z"
    ensures rec.action == "place_honeytoken" && rec.token == pl.name
    ensures rec.srcIp == SourceIp(e)
    ensures rec.username == if "username" in e then e["username"] else JStr("")
    ensures rec.reason == if "message" in e && Truthy(e["message"]) then e["message"]
                          else if "eventid" in e then e["eventid"] else JStr("")
  {
    var username := GetOr(e, "username", JStr(""));
    var message := Or(GetOr(e, "message", JStr("")), GetOr(e, "eventid", JStr("")));
    Audit(r.auditStamp + "Z", "place_honeytoken", pl.name, SourceIp(e), username, message)
  }

  /** Building the key never raises in this controller. */
  function ControllerKey(e: Obj): Option<string> {
    Some(EventKey(e))
  }

  function ControllerPolicy(): Policy {
    Policy(ControllerKey, Decide, AuditFor)
  }

  lemma ControllerKeyOf(e: Obj)
    ensures ControllerPolicy().key(e).Some?
    ensures KeyOf(ControllerPolicy(), e) == EventKey(e)
  {
  }

  /** Every poll of a bounded run of the loop, one after the other. */
  function ScanAll(polls: seq<Directory>, decode: Decoder): seq<Obj> {
    if polls == [] then [] else ScanAll(polls[..|polls| - 1], decode) + Scan(polls[|polls| - 1], decode)
  }

  lemma ScanAllSnoc(polls: seq<Directory>, i: nat, decode: Decoder)
    requires i < |polls|
    ensures ScanAll(polls[..i + 1], decode) == ScanAll(polls[..i], decode) + Scan(polls[i], decode)
  {
    assert polls[..i + 1][..i] == polls[..i];
  }

  /** The running controller process: the `processed` set of `main_loop`,
      the delivery calls made, the audit log file's records, and whether an
      exception has ended the process. */
  class Controller {
    var processed: set<string>
    var placements: seq<Placement>
    var audit: seq<AuditRecord>
    var running: bool

    function Snapshot(): State
      reads this
    {
      State(processed, placements, audit, running)
    }

    constructor ()
      ensures processed == {} && placements == [] && audit == [] && running
    {
      processed := {};
      placements := [];
      audit := [];
      running := true;
    }

    /** One pass of `for event in scan_cowrie_logs(...)`. */
    method RunCycle(dir: Directory, decode: Decoder, clock: Clock, deliver: Deliveries)
      requires running
      modifies this
      ensures Snapshot() == Run(ControllerPolicy(), clock, deliver, old(Snapshot()), Scan(dir, decode))
      ensures old(processed) <= processed
    {
      var events := ScanCowrieLogs(dir, decode);
      ghost var p := ControllerPolicy();
      ghost var start := Snapshot();
      var i := 0;
      while i < |events|
        invariant 0 <= i <= |events|
        invariant running
        invariant Snapshot() == Run(p, clock, deliver, start, events[..i])
        invariant start.processed <= processed
      {
        RunSnoc(p, clock, deliver, start, events, i);
        HandleEvent(events[i], clock, deliver);
        if !running {
          // the exception leaves main_loop: the process ends here
          RunStoppedAt(p, clock, deliver, start, events, i);
          return;
        }
        i := i + 1;
      }
      assert events[..i] == events;
    }

    /** The loop body for one event: build its key, skip it if already
        processed, otherwise record the key, place a token and write the
        audit record. */
    method HandleEvent(event: Obj, clock: Clock, deliver: Deliveries)
      requires running
      modifies this
      ensures Snapshot() == Step(ControllerPolicy(), clock, deliver, old(Snapshot()), event)
      ensures old(processed) <= processed
    {
      var srcIp := SourceIp(event);
      var session := OrEmpty(event, "session");
      var timestamp := OrEmpty(event, "timestamp");
      var eventId := Str(session) + "|" + Str(srcIp) + "|" + Str(timestamp);
      if eventId in processed {
        return;
      }
      processed := processed + {eventId};

      var username := GetOr(event, "username", JStr(""));
      var message := Or(GetOr(event, "message", JStr("")), GetOr(event, "eventid", JStr("")));

      var n := |placements|;
      var reading := clock(n);
      var tokenName := TokenName(reading.seconds);
      var tokenContent := TokenContent(tokenName, reading.contentStamp);
      var target := MapSrcIpToTarget(srcIp);
      placements := placements + [Placement(target, tokenName, tokenContent)];
      if deliver(n) == Raised {
        running := false;
        return;
      }
      audit := audit + [Audit(reading.auditStamp + "Z", "place_honeytoken", tokenName, srcIp, username, message)];
    }

    /** A bounded run of `main_loop`: one cycle per poll, sleeping between
        them; an exception ends the run. */
    method MainLoop(polls: seq<Directory>, decode: Decoder, clock: Clock, deliver: Deliveries)
      requires running
      modifies this
      ensures Snapshot() == Run(ControllerPolicy(), clock, deliver, old(Snapshot()), ScanAll(polls, decode))
    {
      ghost var p := ControllerPolicy();
      ghost var start := Snapshot();
      var i := 0;
      while i < |polls|
        invariant 0 <= i <= |polls|
        invariant Snapshot() == Run(p, clock, deliver, start, ScanAll(polls[..i], decode))
      {
        ScanAllSnoc(polls, i, decode);
        ghost var mid := Snapshot();
        if running {
          RunCycle(polls[i], decode, clock, deliver);
        } else {
          // the process has ended: later polls change nothing
          RunStopped(p, clock, deliver, mid, Scan(polls[i], decode));
        }
        RunAppend(p, clock, deliver, start, ScanAll(polls[..i], decode), Scan(polls[i], decode));
        i := i + 1;
      }
      assert polls[..i] == polls;
    }
  }

  // ---------------------------------------------------------------------------
  // What one cycle does

  /** This controller's keys never raise, so within a cycle only a
      delivery or an audit append that raises (`Raised`) can end the
      process. */
  lemma ControllerStaysAlive(clock: Clock, deliver: Deliveries, s: State, es: seq<Obj>)
    requires s.running
    requires forall n :: deliver(n) != Raised
    ensures Run(ControllerPolicy(), clock, deliver, s, es).running
  {
    var p := ControllerPolicy();
    forall i | 0 <= i < |es| ensures p.key(es[i]).Some? {
      ControllerKeyOf(es[i]);
    }
    RunKeepsRunning(p, clock, deliver, s, es);
  }

  /** In a cycle where no delivery raises, the process stays alive and
      every key seen ends up in `processed`. */
  lemma CycleRecordsEveryKey(clock: Clock, deliver: Deliveries, s: State, es: seq<Obj>)
    requires s.running
    requires forall n :: deliver(n) != Raised
    ensures Run(ControllerPolicy(), clock, deliver, s, es).running
    ensures Run(ControllerPolicy(), clock, deliver, s, es).processed
            == s.processed + Keys(ControllerPolicy(), es)
    ensures forall x :: x in Keys(ControllerPolicy(), es) <==>
              exists i :: 0 <= i < |es| && EventKey(es[i]) == x
  {
    var p := ControllerPolicy();
    ControllerStaysAlive(clock, deliver, s, es);
    RunProcessed(p, clock, deliver, s, es);
    forall x ensures x in Keys(p, es) <==> exists i :: 0 <= i < |es| && EventKey(es[i]) == x {
      KeysMembership(p, es, x);
      forall i | 0 <= i < |es| ensures KeyOf(p, es[i]) == EventKey(es[i]) {
        ControllerKeyOf(es[i]);
      }
    }
  }

  /** The events acted on carry pairwise different keys, none of them
      processed before the cycle. */
  lemma CycleActsOncePerKey(s: State, es: seq<Obj>)
    ensures var a := Acted(ControllerPolicy(), s.processed, es);
      && (forall i, j :: 0 <= i < j < |a| ==> EventKey(es[a[i]]) != EventKey(es[a[j]]))
      && (forall j :: 0 <= j < |a| ==> EventKey(es[a[j]]) !in s.processed)
  {
    var p := ControllerPolicy();
    var a := Acted(p, s.processed, es);
    AtMostOnePerKey(p, s.processed, es);
    forall j | 0 <= j < |a| ensures KeyOf(p, es[a[j]]) == EventKey(es[a[j]]) {
      ControllerKeyOf(es[a[j]]);
    }
  }

  /** A placement as the controller makes it: on `lab_hosts`, named after
      the clock second, carrying the decoy warning. */
  predicate DecoyPlacement(pl: Placement, r: Reading) {
    && pl.target == "lab_hosts"
    && pl.name == TokenName(r.seconds)
    && Contains(pl.content, DecoyNote)
  }

  /** An audit record for a placement: a `place_honeytoken` record naming
      the token and the event's source. */
  predicate RecordsAction(rec: AuditRecord, pl: Placement, e: Obj) {
    && rec.Audit?
    && rec.action == "place_honeytoken"
    && rec.token == pl.name
    && rec.srcIp == SourceIp(e)
  }

  /** In a cycle where no delivery raises, each event acted on adds
      exactly one placement and one audit record; nothing else is added. */
  lemma CycleActionCount(clock: Clock, deliver: Deliveries, s: State, es: seq<Obj>)
    requires s.running
    requires forall n :: deliver(n) != Raised
    ensures var r := Run(ControllerPolicy(), clock, deliver, s, es);
      var a := Acted(ControllerPolicy(), s.processed, es);
      && |r.placements| == |s.placements| + |a|
      && |r.audit| == |s.audit| + |a|
      && r.placements[..|s.placements|] == s.placements
      && r.audit[..|s.audit|] == s.audit
  {
    var p := ControllerPolicy();
    ControllerStaysAlive(clock, deliver, s, es);
    RunActionCount(p, clock, deliver, s, es);
    RunOnlyGrows(p, clock, deliver, s, es);
  }

  /** Every placement the controller builds is a decoy on `lab_hosts`. */
  lemma DecideMakesDecoy(e: Obj, r: Reading)
    ensures DecoyPlacement(Decide(e, r), r)
  {
  }

  /** Every audit record the controller builds records its placement. */
  lemma AuditForRecordsAction(e: Obj, pl: Placement, r: Reading)
    ensures RecordsAction(AuditFor(e, pl, r), pl, e)
  {
  }

  /** Every token placed in a cycle where no delivery raises is a decoy on
      `lab_hosts` named after its clock second. */
  lemma CyclePlacesDecoyTokens(clock: Clock, deliver: Deliveries, s: State, es: seq<Obj>)
    requires s.running
    requires forall n :: deliver(n) != Raised
    ensures var r := Run(ControllerPolicy(), clock, deliver, s, es);
      forall j :: |s.placements| <= j < |r.placements| ==> DecoyPlacement(r.placements[j], clock(j))
  {
    ControllerStaysAlive(clock, deliver, s, es);
    forall e, r ensures DecoyPlacement(ControllerPolicy().decide(e, r), r) {
      DecideMakesDecoy(e, r);
    }
    RunPlacementsSatisfy(ControllerPolicy(), clock, deliver, s, es, DecoyPlacement);
  }

  /** In a cycle where no delivery raises, the j-th new audit record
      records the j-th new placement and the source of the j-th event acted
      on. */
  lemma CycleAuditsEachPlacement(clock: Clock, deliver: Deliveries, s: State, es: seq<Obj>)
    requires s.running
    requires forall n :: deliver(n) != Raised
    ensures var r := Run(ControllerPolicy(), clock, deliver, s, es);
      var a := Acted(ControllerPolicy(), s.processed, es);
      && |r.audit| == |s.audit| + |a|
      && |r.placements| == |s.placements| + |a|
      && forall j :: 0 <= j < |a| ==>
           RecordsAction(r.audit[|s.audit| + j], r.placements[|s.placements| + j], es[a[j]])
  {
    ControllerStaysAlive(clock, deliver, s, es);
    forall e, pl, r ensures RecordsAction(ControllerPolicy().record(e, pl, r), pl, e) {
      AuditForRecordsAction(e, pl, r);
    }
    RunRecordsSatisfy(ControllerPolicy(), clock, deliver, s, es, RecordsAction);
  }

  /** Two cycles of the same process never act twice on one key: a key acted
      on in the second cycle was neither processed before the first nor seen
      in it. */
  lemma NoEventActedOnTwice(clock: Clock, deliver: Deliveries, s: State, poll1: seq<Obj>, poll2: seq<Obj>)
    requires s.running
    requires forall n :: deliver(n) != Raised
    ensures var p := ControllerPolicy();
      var a2 := Acted(p, Run(p, clock, deliver, s, poll1).processed, poll2);
      forall j :: 0 <= j < |a2| ==>
        EventKey(poll2[a2[j]]) !in s.processed && EventKey(poll2[a2[j]]) !in Keys(p, poll1)
  {
    var p := ControllerPolicy();
    var s1 := Run(p, clock, deliver, s, poll1);
    ControllerStaysAlive(clock, deliver, s, poll1);
    ControllerStaysAlive(clock, deliver, s1, poll2);
    NoKeyActedTwice(p, clock, deliver, s, poll1, poll2);
    var a2 := Acted(p, s1.processed, poll2);
    forall j | 0 <= j < |a2| ensures KeyOf(p, poll2[a2[j]]) == EventKey(poll2[a2[j]]) {
      ControllerKeyOf(poll2[a2[j]]);
    }
  }

  /** A log directory that does not exist costs a cycle nothing. */
  lemma MissingDirectoryChangesNothing(decode: Decoder, clock: Clock, deliver: Deliveries, s: State)
    ensures Run(ControllerPolicy(), clock, deliver, s, Scan(Missing, decode)) == s
  {
  }

  /** The directory of the duplicate-delivery scenario: `a.json` holds the
      event and one malformed line, `b.json` holds the same event twice, and
      the listing names `b.json` first. */
  function ScenarioDir(good: string, bad: string): Directory {
    Dir(["b.json", "a.json"], map["a.json" := FileData([good, bad], false),
                                  "b.json" := FileData([good, good], false)])
  }

  /** `os.listdir` may list `b.json` first; the scan still reads `a.json`
      first. */
  lemma ScenarioListingSorted()
    ensures SortStrings(["b.json", "a.json"]) == ["a.json", "b.json"]
  {
    assert LexLe("a.json", "b.json");
    assert !LexLe("b.json", "a.json");
    assert ["b.json", "a.json"][..1] == ["b.json"];
    assert SortStrings(["b.json"]) == ["b.json"];
  }

  /** `a.json` yields the event once: its malformed line is skipped. */
  lemma ScenarioFirstFile(decode: Decoder, good: string, bad: string, ev: Obj)
    requires decode(Strip(good)) == Parsed(ev) && decode(Strip(bad)).Malformed?
    ensures FileEvents(ScenarioDir(good, bad).files, "a.json", decode) == [ev]
  {
    assert IsEventFile("a.json");
    assert Open(ScenarioDir(good, bad).files, "a.json") == FileData([good, bad], false);
    ControllerLinesWhole([good, bad], decode);
    assert [good, bad][..1] == [good];
    assert DecodeLines([good], decode) == [ev] by {
      assert [good][..0] == [];
    }
  }

  /** `b.json` yields the event twice. */
  lemma ScenarioSecondFile(decode: Decoder, good: string, bad: string, ev: Obj)
    requires decode(Strip(good)) == Parsed(ev)
    ensures FileEvents(ScenarioDir(good, bad).files, "b.json", decode) == [ev, ev]
  {
    assert IsEventFile("b.json");
    assert Open(ScenarioDir(good, bad).files, "b.json") == FileData([good, good], false);
    ControllerLinesWhole([good, good], decode);
    assert [good, good][..1] == [good];
    assert DecodeLines([good], decode) == [ev] by {
      assert [good][..0] == [];
    }
  }

  /** A directory whose listing sorts to two names scans as the first
      name's events followed by the second's. */
  lemma ScanOfSortedPair(listing: seq<string>, files: map<string, FileData>, decode: Decoder,
                         x: string, y: string, ex: seq<Obj>, ey: seq<Obj>)
    requires SortStrings(listing) == [x, y]
    requires FileEvents(files, x, decode) == ex && FileEvents(files, y, decode) == ey
    ensures Scan(Dir(listing, files), decode) == ex + ey
  {
    assert [x, y][..1] == [x];
    assert [x][..0] == [];
    assert ScanNames([x], files, decode) == [] + ex;
    assert [] + ex == ex;
  }

  /** The scan of the scenario: the event once from `a.json`, then twice
      from `b.json`. */
  lemma DuplicateScenarioScan(decode: Decoder, good: string, bad: string, ev: Obj)
    requires decode(Strip(good)) == Parsed(ev) && decode(Strip(bad)).Malformed?
    ensures Scan(ScenarioDir(good, bad), decode) == [ev, ev, ev]
  {
    ScenarioListingSorted();
    ScenarioFirstFile(decode, good, bad, ev);
    ScenarioSecondFile(decode, good, bad, ev);
    ScanOfSortedPair(ScenarioDir(good, bad).listing, ScenarioDir(good, bad).files, decode,
                     "a.json", "b.json", [ev], [ev, ev]);
    ThreeCopies(ev);
  }

  lemma ThreeCopies(ev: Obj)
    ensures [ev] + [ev, ev] == [ev, ev, ev]
  {
  }

  /** Three copies of one event in a fresh process: one placement, one
      audit record. */
  lemma RepeatedEventPlacedOnce(ev: Obj, clock: Clock, deliver: Deliveries)
    requires forall n :: deliver(n) != Raised
    ensures var r := Run(ControllerPolicy(), clock, deliver, State({}, [], [], true), [ev, ev, ev]);
      |r.placements| == 1 && |r.audit| == 1
  {
    OneActionForRepeatedEvent(ev);
    CycleActionCount(clock, deliver, State({}, [], [], true), [ev, ev, ev]);
  }

  /** The duplicate-delivery scenario: one cycle over `ScenarioDir` places
      one token and writes one audit record. */
  lemma DuplicateEventPlacedOnce(decode: Decoder, good: string, bad: string, ev: Obj, clock: Clock, deliver: Deliveries)
    requires decode(Strip(good)) == Parsed(ev) && decode(Strip(bad)).Malformed?
    requires forall n :: deliver(n) != Raised
    ensures var r := Run(ControllerPolicy(), clock, deliver, State({}, [], [], true), Scan(ScenarioDir(good, bad), decode));
      |r.placements| == 1 && |r.audit| == 1
  {
    DuplicateScenarioScan(decode, good, bad, ev);
    RepeatedEventPlacedOnce(ev, clock, deliver);
  }

  /** Three copies of one event: only the first is acted on. */
  lemma OneActionForRepeatedEvent(ev: Obj)
    ensures Acted(ControllerPolicy(), {}, [ev, ev, ev]) == [0]
  {
    var p := ControllerPolicy();
    var es := [ev, ev, ev];
    var k := KeyOf(p, ev);
    assert es[..1][..0] == [];
    assert Keys(p, es[..1]) == {k};
    assert Acted(p, {}, es[..1]) == [0];
    assert es[..2][..1] == es[..1];
    assert Acted(p, {}, es[..2]) == [0];
    assert Keys(p, es[..2]) == {k};
    assert es[..2] == es[..|es| - 1];
  }
}

=== FILE: event_source.dfy ===
/** The controller's `scan_cowrie_logs`: every `.json` file of the Cowrie log
    directory, in sorted name order, one decoded event per line that decodes.
    The JSON decoder is a parameter; a file is the lines it yields before
    reading stops. The embedded copy of the controller in `init.py` has the
    same scan, line for line. */
module EventSource {
  import opened Wrappers
  import opened Text
  import opened JsonValue

  /** The lines a file yields, and whether reading it raised after them
      (a failed `open` is no lines and a raise). */
  datatype FileData = FileData(lines: seq<string>, readFails: bool)

  /** The log directory: absent, or the names `os.listdir` returns, in the
      order it returns them, with the files they name. A listed name without
      an entry in `files` is a file that could not be opened. */
  datatype Directory = Missing | Dir(listing: seq<string>, files: map<string, FileData>)

  /** What `json.loads` does with one stripped line: return an object,
      raise `json.JSONDecodeError`, or raise some other exception (a
      `RecursionError` on very deep nesting, a `ValueError` on an integer
      with too many digits). */
  datatype Decoded = Parsed(obj: Obj) | Malformed | Raises

  type Decoder = string -> Decoded

  function Open(files: map<string, FileData>, name: string): FileData {
    if name in files then files[name] else FileData([], true)
  }

  /** Only names ending in `.json` are read. */
  predicate IsEventFile(name: string) {
    EndsWith(name, ".json")
  }

  /** The events of a run of lines when every exception is caught: each
      line stripped and decoded, lines that do not give an object skipped. */
  function DecodeLines(lines: seq<string>, decode: Decoder): seq<Obj> {
    if lines == [] then []
    else
      var rest := DecodeLines(lines[..|lines| - 1], decode);
      match decode(Strip(lines[|lines| - 1]))
      case Parsed(e) => rest + [e]
      case _ => rest
  }

  /** The position of the first line on which `json.loads` raises something
      other than a decode error, or the number of lines when there is none. */
  function FirstRaise(lines: seq<string>, decode: Decoder): (n: nat)
    ensures n <= |lines|
  {
    if lines == [] || decode(Strip(lines[0])).Raises? then 0
    else 1 + FirstRaise(lines[1..], decode)
  }

  /** `FirstRaise` is the first raising line: none before it raises, and
      it raises unless it is the end of the file. */
  lemma {:induction false} FirstRaiseIsFirst(lines: seq<string>, decode: Decoder)
    ensures forall k :: 0 <= k < FirstRaise(lines, decode) ==> !decode(Strip(lines[k])).Raises?
    ensures FirstRaise(lines, decode) < |lines| ==> decode(Strip(lines[FirstRaise(lines, decode)])).Raises?
  {
    if lines != [] && !decode(Strip(lines[0])).Raises? {
      FirstRaiseIsFirst(lines[1..], decode);
      assert forall k :: 1 <= k < |lines| ==> lines[k] == lines[1..][k - 1];
    }
  }

  /** The events the controller takes from one file: only `JSONDecodeError`
      is caught per line, so any other exception leaves the file's `with`
      block and the reading of that file ends there. */
  function ControllerLines(lines: seq<string>, decode: Decoder): seq<Obj> {
    if lines == [] then []
    else
      match decode(Strip(lines[0]))
      case Raises => []
      case Parsed(e) => [e] + ControllerLines(lines[1..], decode)
      case Malformed => ControllerLines(lines[1..], decode)
  }

  /** The events one directory entry contributes. */
  function FileEvents(files: map<string, FileData>, name: string, decode: Decoder): seq<Obj> {
    if IsEventFile(name) then ControllerLines(Open(files, name).lines, decode) else []
  }

  /** The events of the named entries, taken in the given order. */
  function ScanNames(names: seq<string>, files: map<string, FileData>, decode: Decoder): seq<Obj> {
    if names == [] then []
    else ScanNames(names[..|names| - 1], files, decode) + FileEvents(files, names[|names| - 1], decode)
  }

  /** What one call of the scan yields, in order. */
  function Scan(dir: Directory, decode: Decoder): seq<Obj> {
    match dir
    case Missing => []
    case Dir(listing, files) => ScanNames(SortStrings(listing), files, decode)
  }

  /** The generator, run to exhaustion: a loop over the sorted names that
      reads each `.json` file with `DecodeFile`. */
  method ScanCowrieLogs(dir: Directory, decode: Decoder) returns (events: seq<Obj>)
    ensures events == Scan(dir, decode)
    ensures dir.Missing? ==> events == []
  {
    events := [];
    if dir.Missing? {
      return;
    }
    var names := SortStrings(dir.listing);
    var files := dir.files;
    var i := 0;
    while i < |names|
      invariant 0 <= i <= |names|
      invariant events == ScanNames(names[..i], files, decode)
    {
      var fname := names[i];
      assert names[..i + 1][..i] == names[..i];
      if EndsWith(fname, ".json") {
        var fromFile := DecodeFile(Open(files, fname).lines, decode);
        events := events + fromFile;
      }
      i := i + 1;
    }
    assert names[..i] == names;
  }

  /** The inner loop over the lines of one file: strip, decode, and yield
      the event or move on to the next line; an exception other than a
      decode error ends the file. */
  method DecodeFile(lines: seq<string>, decode: Decoder) returns (events: seq<Obj>)
    ensures events == ControllerLines(lines, decode)
  {
    events := [];
    var j := 0;
    while j < |lines|
      invariant 0 <= j <= |lines|
      invariant ControllerLines(lines, decode) == events + ControllerLines(lines[j..], decode)
    {
      assert lines[j..][1..] == lines[j + 1..];
      var decoded := decode(Strip(lines[j]));
      if decoded.Raises? {
        return;
      }
      if decoded.Parsed? {
        events := events + [decoded.obj];
      }
      j := j + 1;
    }
  }

  // ---------------------------------------------------------------------------
  // Properties of the scan

  lemma {:induction false} DecodeLinesAppend(a: seq<string>, b: seq<string>, decode: Decoder)
    ensures DecodeLines(a + b, decode) == DecodeLines(a, decode) + DecodeLines(b, decode)
    decreases |b|
  {
    if b == [] {
      assert a + b == a;
    } else {
      var b' := b[..|b| - 1];
      assert (a + b)[..|a + b| - 1] == a + b';
      DecodeLinesAppend(a, b', decode);
    }
  }

  /** The controller reads two runs of lines as the first run, then the
      second run unless the first one ended the file. */
  lemma {:induction false} ControllerLinesAppend(a: seq<string>, b: seq<string>, decode: Decoder)
    ensures ControllerLines(a + b, decode) ==
              ControllerLines(a, decode) + (if FirstRaise(a, decode) < |a| then [] else ControllerLines(b, decode))
  {
    if a == [] {
      assert a + b == b;
    } else {
      assert (a + b)[0] == a[0];
      if !decode(Strip(a[0])).Raises? {
        assert (a + b)[1..] == a[1..] + b;
        ControllerLinesAppend(a[1..], b, decode);
      }
    }
  }

  /** A line that fails to decode yields nothing and does not stop the lines
      after it. */
  lemma MalformedLineSkipped(xs: seq<string>, bad: string, ys: seq<string>, decode: Decoder)
    requires decode(Strip(bad)).Malformed?
    ensures ControllerLines(xs + [bad] + ys, decode) == ControllerLines(xs + ys, decode)
  {
    ControllerLinesAppend(xs, [bad] + ys, decode);
    ControllerLinesAppend(xs, ys, decode);
    assert xs + [bad] + ys == xs + ([bad] + ys);
    assert ([bad] + ys)[1..] == ys;
  }

  /** A line on which `json.loads` raises anything but a decode error ends
      the file: none of the lines after it is read. */
  lemma RaisingLineEndsFile(xs: seq<string>, bad: string, ys: seq<string>, decode: Decoder)
    requires decode(Strip(bad)).Raises?
    ensures ControllerLines(xs + [bad] + ys, decode) == ControllerLines(xs, decode)
  {
    ControllerLinesAppend(xs, [bad] + ys, decode);
    assert xs + [bad] + ys == xs + ([bad] + ys);
  }

  /** Without a raising line, the controller reads the whole file. */
  lemma {:induction false} ControllerLinesWhole(lines: seq<string>, decode: Decoder)
    requires forall k :: 0 <= k < |lines| ==> !decode(Strip(lines[k])).Raises?
    ensures ControllerLines(lines, decode) == DecodeLines(lines, decode)
  {
    if lines != [] {
      var rest := lines[1..];
      assert forall k :: 0 <= k < |rest| ==> rest[k] == lines[k + 1];
      ControllerLinesWhole(rest, decode);
      assert lines == [lines[0]] + rest;
      DecodeLinesCons(lines[0], rest, decode);
    }
  }

  /** The lenient reader takes a first line and then the rest in order. */
  lemma DecodeLinesCons(x: string, rest: seq<string>, decode: Decoder)
    ensures DecodeLines([x] + rest, decode) ==
              (if decode(Strip(x)).Parsed? then [decode(Strip(x)).obj] else []) + DecodeLines(rest, decode)
  {
    DecodeLinesAppend([x], rest, decode);
    assert [x][..0] == [];
  }

  /** When every line gives an object, the events are exactly the decoded
      lines, in file order. */
  lemma {:induction false} DecodeLinesAllParsed(lines: seq<string>, decode: Decoder)
    requires forall k :: 0 <= k < |lines| ==> decode(Strip(lines[k])).Parsed?
    ensures |DecodeLines(lines, decode)| == |lines|
    ensures forall k :: 0 <= k < |lines| ==>
              DecodeLines(lines, decode)[k] == decode(Strip(lines[k])).obj
  {
    if lines != [] {
      DecodeLinesAllParsed(lines[..|lines| - 1], decode);
    }
  }

  /** When every line decodes, the controller's events are exactly the
      decoded lines, in file order. */
  lemma WellFormedLinesInOrder(lines: seq<string>, decode: Decoder)
    requires forall k :: 0 <= k < |lines| ==> decode(Strip(lines[k])).Parsed?
    ensures |ControllerLines(lines, decode)| == |lines|
    ensures forall k :: 0 <= k < |lines| ==>
              ControllerLines(lines, decode)[k] == decode(Strip(lines[k])).obj
  {
    ControllerLinesWhole(lines, decode);
    DecodeLinesAllParsed(lines, decode);
  }

  /** The order in which `os.listdir` returns the names does not matter. */
  lemma ScanIgnoresListingOrder(l1: seq<string>, l2: seq<string>, files: map<string, FileData>, decode: Decoder)
    requires multiset(l1) == multiset(l2)
    ensures Scan(Dir(l1, files), decode) == Scan(Dir(l2, files), decode)
  {
    SortStringsIgnoresInputOrder(l1, l2);
  }

  lemma {:induction false} ScanNamesInsert(names: seq<string>, x: string, files: map<string, FileData>, decode: Decoder)
    requires FileEvents(files, x, decode) == []
    ensures ScanNames(InsertSorted(names, x), files, decode) == ScanNames(names, files, decode)
    decreases |names|
  {
    if names == [] || LexLe(names[|names| - 1], x) {
      var r := names + [x];
      assert r[..|r| - 1] == names;
    } else {
      var init := names[..|names| - 1];
      var last := names[|names| - 1];
      var r := InsertSorted(init, x) + [last];
      assert r[..|r| - 1] == InsertSorted(init, x);
      ScanNamesInsert(init, x, files, decode);
    }
  }

  /** A directory entry whose name does not end in `.json` adds nothing,
      whatever it holds and wherever it sorts. */
  lemma NonEventFileIgnored(listing: seq<string>, x: string, files: map<string, FileData>, decode: Decoder)
    requires !IsEventFile(x)
    ensures Scan(Dir(listing + [x], files), decode) == Scan(Dir(listing, files), decode)
  {
    var l := listing + [x];
    assert l[..|l| - 1] == listing;
    ScanNamesInsert(SortStrings(listing), x, files, decode);
  }

  /** A file whose reading raises part-way contributes the lines read
      before the raise, and the scan goes on with the next file. */
  lemma {:induction false} ReadFailureKeepsEarlierLines(names: seq<string>, files: map<string, FileData>, name: string, lines: seq<string>, decode: Decoder)
    requires name in files && files[name].lines == lines
    ensures ScanNames(names, files[name := FileData(lines, true)], decode) == ScanNames(names, files, decode)
  {
    if names != [] {
      ReadFailureKeepsEarlierLines(names[..|names| - 1], files, name, lines, decode);
    }
  }
}

=== FILE: graphs.dfy ===
/** `final_assignment_evidence/gen_graphs.py`: the attack summary behind
    the figures, and the timeline it falls back on. */
module Graphs {
  import opened Wrappers
  import opened JsonValue
  import opened Tally
  import opened AttackResults

  /** What `open` and `json.load` make of `real_attack_results.json`.
      `Undecodable` stands for any exception other than
      `FileNotFoundError`, which the script does not catch. */
  datatype ResultsFile = NotFound | Undecodable | Loaded(records: seq<Obj>)

  datatype Summary = Summary(totalAttacks: nat, successfulLogins: nat, failedLogins: int, topUsers: seq<Entry<JValue>>)

  /** The five users the script shows when there is no results file. */
  function FallbackTopUsers(): seq<Entry<JValue>> {
    [Entry(JStr("root"), 4), Entry(JStr("admin"), 3), Entry(JStr("test"), 3),
     Entry(JStr("ubuntu"), 2), Entry(JStr("osboxes"), 2)]
  }

  function FallbackSummary(): Summary {
    Summary(27, 2, 25, FallbackTopUsers())
  }

  /** The summary of the results read from the file. */
  function SummaryOf(rs: seq<Obj>): Summary {
    Summary(|rs|, CountSuccessful(rs), |rs| - CountSuccessful(rs), Top5(TallyOf(Users(rs))))
  }

  /** The `try` block of `create_real_data_analysis` and its
      `except FileNotFoundError`. */
  method LoadSummary(f: ResultsFile) returns (r: Result<Summary>)
    ensures r == match f
      case NotFound => Ok(FallbackSummary())
      case Undecodable => Failed
      case Loaded(rs) => Ok(SummaryOf(rs))
  {
    match f
    case NotFound =>
      r := Ok(Summary(27, 2, 25, FallbackTopUsers()));
    case Undecodable =>
      r := Failed;
    case Loaded(attackData) =>
      var totalAttacks := |attackData|;
      var successfulLogins := CountSuccessful(attackData);
      var failedLogins := totalAttacks - successfulLogins;
      var usernames := UsernameCounts(attackData);
      var topUsers := Top5(usernames);
      r := Ok(Summary(totalAttacks, successfulLogins, failedLogins, topUsers));
  }

  /** A summary read from the file adds up: successful and failed logins
      make up all attempts and neither is negative; at most five users are
      shown, drawn from the username tally, largest counts first, with
      counts adding up to no more than the attempts. */
  lemma SummaryConsistent(rs: seq<Obj>)
    ensures var s := SummaryOf(rs);
      s.failedLogins >= 0 && s.successfulLogins + s.failedLogins == s.totalAttacks
      && s.failedLogins == CountFailed(rs)
    ensures var s := SummaryOf(rs);
      |s.topUsers| <= 5 && NonIncreasing(s.topUsers)
      && multiset(s.topUsers) <= multiset(TallyOf(Users(rs)))
      && Total(s.topUsers) <= s.totalAttacks
  {
    FailedIsComplement(rs);
    UsernameTallyCounts(rs, JStr("unknown"));
    Top5Properties(TallyOf(Users(rs)));
    Top5Total(TallyOf(Users(rs)));
  }

  /** Ties among the top users keep the order in which the usernames were
      first tried: the sort keeps the tally's order among equal counts, and
      the tally lists usernames in first-seen order. */
  lemma TopUsersTiesInFirstSeenOrder(rs: seq<Obj>, c: nat)
    ensures WithCount(SortDesc(TallyOf(Users(rs))), c) == WithCount(TallyOf(Users(rs)), c)
    ensures FirstSeenOrder(TallyOf(Users(rs)), Users(rs))
    ensures SummaryOf(rs).topUsers == SortDesc(TallyOf(Users(rs)))[..|SummaryOf(rs).topUsers|]
  {
    SortDescStable(TallyOf(Users(rs)), c);
    TallyFirstSeenOrder(Users(rs));
  }

  /** The fallback has the shape of a real summary: 2 + 25 make 27, and its
      five users are distinct, in non-increasing count order, with counts
      adding up to no more than 27. */
  lemma FallbackConsistent()
    ensures var s := FallbackSummary();
      s.successfulLogins + s.failedLogins == s.totalAttacks
      && |s.topUsers| == 5 && NonIncreasing(s.topUsers) && DistinctKeys(s.topUsers)
      && Total(s.topUsers) <= s.totalAttacks
  {
    var t := FallbackTopUsers();
    assert Total(t) == 14 by {
      assert t[1..][1..][1..][1..][1..] == [];
    }
    assert DistinctKeys(t) by {
      assert t[1..][1..][1..][1..][1..] == [];
    }
  }

  // ---------------------------------------------------------------------------
  // The timeline of create_attack_timeline when there is no usable file

  /** Number of true flags. */
  function CountTrue(s: seq<bool>): nat {
    if s == [] then 0 else CountTrue(s[..|s| - 1]) + (if s[|s| - 1] then 1 else 0)
  }

  lemma {:induction false} CountTrueNone(s: seq<bool>)
    requires forall i :: 0 <= i < |s| ==> !s[i]
    ensures CountTrue(s) == 0
  {
    if s != [] {
      CountTrueNone(s[..|s| - 1]);
    }
  }

  lemma {:induction false} CountTrueSet(s: seq<bool>, k: nat)
    requires k < |s| && !s[k]
    ensures CountTrue(s[k := true]) == CountTrue(s) + 1
  {
    var n := |s| - 1;
    if k == n {
      assert s[k := true][..n] == s[..n];
    } else {
      CountTrueSet(s[..n], k);
      assert s[k := true][..n] == s[..n][k := true];
    }
  }

  /** The seconds `i*2` given to `base_time.replace(second=...)`: each is a
      valid seconds value, so `replace` never raises, and they strictly
      increase, so the first timestamp is the earliest and each lies `2*i`
      seconds after it. */
  function FallbackSeconds(): (secs: seq<nat>)
    ensures |secs| == 27
    ensures forall i :: 0 <= i < 27 ==> secs[i] < 60
    ensures forall i, j :: 0 <= i < j < 27 ==> secs[i] < secs[j]
    ensures forall i :: 0 <= i < 27 ==> secs[i] - secs[0] == 2 * i
  {
    seq(27, i => 2 * i)
  }

  /** `successes = [False] * 27; successes[9] = True; successes[10] = True`,
      with the seconds of the 27 timestamps. */
  method FallbackTimeline() returns (seconds: seq<nat>, successes: seq<bool>)
    ensures seconds == FallbackSeconds()
    ensures |successes| == 27 && forall i :: 0 <= i < 27 ==> (successes[i] <==> i == 9 || i == 10)
    ensures CountTrue(successes) == 2
  {
    seconds := seq(27, i => 2 * i);
    successes := seq(27, _ => false);
    CountTrueNone(successes);
    CountTrueSet(successes, 9);
    successes := successes[9 := true];
    CountTrueSet(successes, 10);
    successes := successes[10 := true];
  }

  /** The fallback timeline agrees with the fallback summary: 27 attempts,
      2 of them successful. */
  lemma FallbacksAgree(successes: seq<bool>)
    requires |successes| == 27 && forall i :: 0 <= i < 27 ==> (successes[i] <==> i == 9 || i == 10)
    ensures |successes| == FallbackSummary().totalAttacks
    ensures CountTrue(successes) == FallbackSummary().successfulLogins
  {
    var s := seq(27, _ => false);
    CountTrueNone(s);
    CountTrueSet(s, 9);
    CountTrueSet(s[9 := true], 10);
    assert successes == s[9 := true][10 := true];
  }
}

=== FILE: json_value.dfy ===
/** Decoded JSON as the Python scripts see it: only each value's
    truthiness and what `str()` makes of it matter to them. */
module JsonValue {
  import opened Text

  /** A decoded JSON value. `JOther` stands for a float, an array or an
      object, kept as its `str()` rendering and its truthiness. */
  datatype JValue =
    | JNull
    | JBool(b: bool)
    | JInt(i: int)
    | JStr(s: string)
    | JOther(repr: string, truthy: bool)

  /** A decoded JSON object (a Python `dict` with string keys). */
  type Obj = map<string, JValue>

  /** Python truthiness: `None`, `False`, `0` and `''` are false. */
  predicate Truthy(v: JValue) {
    match v
    case JNull => false
    case JBool(b) => b
    case JInt(i) => i != 0
    case JStr(s) => s != []
    case JOther(_, t) => t
  }

  /** What `str(v)` (and an f-string) renders. */
  function Str(v: JValue): string {
    match v
    case JNull => "None"
    case JBool(b) => if b then "True" else "False"
    case JInt(i) => IntToString(i)
    case JStr(s) => s
    case JOther(repr, _) => repr
  }

  /** `o.get(k, default)`; plain `o.get(k)` is `GetOr(o, k, JNull)`. */
  function GetOr(o: Obj, k: string, default: JValue): JValue {
    if k in o then o[k] else default
  }

  /** Python's `a or b`. */
  function Or(a: JValue, b: JValue): JValue {
    if Truthy(a) then a else b
  }
}

=== FILE: legacy_controller.dfy ===
/** The older copy of the controller that `init.py` writes out as
    `deception_controller/deception_controller.py`. It scans exactly as the
    standalone controller does, but builds its key by string concatenation
    with `''` defaults (so a non-text `session` or `src_ip` raises
    `TypeError` and ends the process), writes a one-line token text without
    the decoy warning, and writes a five-key audit record without `reason`
    and without the `Z` suffix. */
module LegacyController {
  import opened Wrappers
  import opened Text
  import opened JsonValue
  import opened EventSource
  import opened Pipeline
  import opened DeceptionController

  /** `event.get(k, '')` used as the left operand of `+ '|'`: the text, or
      None when the value is not a string and the concatenation raises. */
  function TextField(e: Obj, k: string): (r: Option<string>)
    ensures k !in e ==> r == Some("")
    ensures k in e ==> (r.Some? <==> e[k].JStr?)
    ensures k in e && e[k].JStr? ==> r == Some(e[k].s)
  {
    if k !in e then Some("")
    else match e[k]
      case JStr(s) => Some(s)
      case _ => None
  }

  /** `event.get('session', '') + '|' + event.get('src_ip', '') + '|' +
      str(event.get('timestamp', ''))`, None when it raises. */
  function LegacyKey(e: Obj): Option<string> {
    match (TextField(e, "session"), TextField(e, "src_ip"))
    case (Some(session), Some(src)) => Some(session + "|" + src + "|" + Str(GetOr(e, "timestamp", JStr(""))))
    case _ => None
  }

  /** The three parts of the key when it can be built. */
  function LegacySessionPart(e: Obj): string {
    if "session" in e && e["session"].JStr? then e["session"].s else ""
  }

  function LegacySourcePart(e: Obj): string {
    if "src_ip" in e && e["src_ip"].JStr? then e["src_ip"].s else ""
  }

  function LegacyTimestampPart(e: Obj): string {
    Str(GetOr(e, "timestamp", JStr("")))
  }

  /** Building the key raises exactly when `session` or `src_ip` is present
      and not a string. */
  lemma LegacyKeyRaises(e: Obj)
    ensures LegacyKey(e).None? <==>
              ("session" in e && !e["session"].JStr?) || ("src_ip" in e && !e["src_ip"].JStr?)
  {
  }

  /** When it can be built, the key is the three parts with `|` between them,
      and splits back into them when no part contains `|`. */
  lemma LegacyKeyParts(e: Obj)
    requires LegacyKey(e).Some?
    requires '|' !in LegacySessionPart(e) && '|' !in LegacySourcePart(e) && '|' !in LegacyTimestampPart(e)
    ensures LegacyKey(e).value == LegacySessionPart(e) + "|" + LegacySourcePart(e) + "|" + LegacyTimestampPart(e)
    ensures Split(LegacyKey(e).value, '|') == [LegacySessionPart(e), LegacySourcePart(e), LegacyTimestampPart(e)]
  {
    var a, b, c := LegacySessionPart(e), LegacySourcePart(e), LegacyTimestampPart(e);
    assert LegacyKey(e).value == a + "|" + b + "|" + c;
    JoinThree(a, b, c, '|');
    SplitJoin([a, b, c], '|');
  }

  /** The two controllers build the same key for an event with a textual
      source address, a textual or absent session and a truthy or absent
      timestamp. */
  lemma ControllersAgreeOnKeys(e: Obj)
    requires "src_ip" in e && e["src_ip"].JStr?
    requires "session" !in e || e["session"].JStr?
    requires "timestamp" !in e || Truthy(e["timestamp"])
    ensures LegacyKey(e) == Some(EventKey(e))
  {
    EventKeyIsParts(e);
  }

  /** Without `src_ip` the keys differ: the older controller keys the event
      with an empty source where the standalone one writes `unknown`. */
  lemma KeysDifferWithoutSource(e: Obj)
    requires "src_ip" !in e
    requires LegacyKey(e).Some?
    requires '|' !in LegacySessionPart(e) && '|' !in LegacyTimestampPart(e)
    requires '|' !in SessionPart(e) && '|' !in TimestampPart(e)
    ensures LegacyKey(e).value != EventKey(e)
  {
    LegacyKeyParts(e);
    EventKeyParts(e);
  }

  /** A `null` timestamp is keyed as `None` by the older controller and as
      the empty text by the standalone one. */
  lemma KeysDifferOnNullTimestamp(e: Obj)
    requires "timestamp" in e && e["timestamp"] == JNull
    requires LegacyKey(e).Some?
    requires '|' !in LegacySessionPart(e) && '|' !in LegacySourcePart(e)
    requires '|' !in SessionPart(e) && '|' !in SourcePart(e)
    ensures LegacyKey(e).value != EventKey(e)
  {
    assert LegacyTimestampPart(e) == "None";
    assert TimestampPart(e) == "";
    LegacyKeyParts(e);
    EventKeyParts(e);
  }

  /** The audit record's `event.get('src_ip', 'unknown')` names the same
      source as the standalone controller's
      `event.get('src_ip') or event.get('src_ip', 'unknown')`. */
  lemma AuditSourcesAgree(e: Obj)
    ensures GetOr(e, "src_ip", JStr("unknown")) == SourceIp(e)
  {
  }

  /** The one-line token text of the older controller: the token's name,
      then the creation time as the text's end. */
  function LegacyContent(name: string, createdAt: string): (content: string)
    ensures StartsWith(content, "INSTR: Investigate file " + name + " - created by deception controller at ")
    ensures EndsWith(content, createdAt)
  {
    "INSTR: Investigate file " + name + " - created by deception controller at " + createdAt
  }

  /** The text records the clock: for one token name, two texts are equal
      exactly when they were written with the same creation time. */
  lemma LegacyContentRecordsTime(name: string, a: string, b: string)
    ensures LegacyContent(name, a) == LegacyContent(name, b) <==> a == b
  {
    if LegacyContent(name, a) == LegacyContent(name, b) {
      var ca, cb := LegacyContent(name, a), LegacyContent(name, b);
      assert |a| == |b|;
      assert a == ca[|ca| - |a|..];
      assert b == cb[|cb| - |b|..];
    }
  }

  /** The text is one line when the name and the clock text are. */
  lemma LegacyContentOneLine(name: string, createdAt: string)
    requires '\n' !in name && '\n' !in createdAt
    ensures '\n' !in LegacyContent(name, createdAt)
  {
    var head := "INSTR: Investigate file ";
    var mid := " - created by deception controller at ";
    forall k | 0 <= k < |head| ensures head[k] != '\n' { }
    forall k | 0 <= k < |mid| ensures mid[k] != '\n' { }
    var x := head + name;
    var y := x + mid;
    assert '\n' !in x;
    assert '\n' !in y;
    assert LegacyContent(name, createdAt) == y + createdAt;
  }

  /** Token names are a single line. */
  lemma TokenNameOneLine(seconds: nat)
    ensures '\n' !in TokenName(seconds)
  {
    var d := Decimal(seconds);
    var name := TokenName(seconds);
    assert name == "honey_" + d + ".txt";
    forall k | 0 <= k < |name| ensures name[k] != '\n' {
      if 6 <= k < 6 + |d| {
        assert name[k] == d[k - 6];
        assert IsDigit(d[k - 6]);
      }
    }
  }

  /** The older text never carries the decoy warning (the clock text being
      one line, as an ISO-8601 rendering is). */
  lemma LegacyContentLacksDecoyNote(seconds: nat, createdAt: string)
    requires '\n' !in createdAt
    ensures !Contains(LegacyContent(TokenName(seconds), createdAt), DecoyNote)
  {
    var name := TokenName(seconds);
    TokenNameOneLine(seconds);
    LegacyContentOneLine(name, createdAt);
    assert DecoyNote[|DecoyNote| - 1] == '\n';
    MissingCharNotContained(LegacyContent(name, createdAt), DecoyNote, '\n');
  }

  /** The honeytoken the older controller places for one event. */
  function LegacyDecide(e: Obj, r: Reading): (pl: Placement)
    ensures pl.target == "lab_hosts"
    ensures pl.name == TokenName(r.seconds)
    ensures pl.content == LegacyContent(pl.name, r.contentStamp)
  {
    var name := TokenName(r.seconds);
    Placement("lab_hosts", name, LegacyContent(name, r.contentStamp))
  }

  /** The five-key audit record: the clock text as it is, no `reason`. */
  function LegacyRecord(e: Obj, pl: Placement, r: Reading): (rec: AuditRecord)
    ensures rec.LegacyAudit?
    ensures rec.timestamp == r.auditStamp
    ensures rec.action == "place_honeytoken" && rec.token == pl.name
    ensures rec.srcIp == SourceIp(e)
    ensures rec.username == if "username" in e then e["username"] else JStr("")
  {
    LegacyAudit(r.auditStamp, "place_honeytoken", pl.name,
                GetOr(e, "src_ip", JStr("unknown")), GetOr(e, "username", JStr("")))
  }

  function LegacyPolicy(): Policy {
    Policy(LegacyKey, LegacyDecide, LegacyRecord)
  }

  /** The running process of the older controller. */
  class EmbeddedController {
    var processed: set<string>
    var placements: seq<Placement>
    var audit: seq<AuditRecord>
    var running: bool

    function Snapshot(): State
      reads this
    {
      State(processed, placements, audit, running)
    }

    constructor ()
      ensures processed == {} && placements == [] && audit == [] && running
    {
      processed := {};
      placements := [];
      audit := [];
      running := true;
    }

    /** One pass of `for event in scan_cowrie_logs(...)`. */
    method RunCycle(dir: Directory, decode: Decoder, clock: Clock, deliver: Deliveries)
      requires running
      modifies this
      ensures Snapshot() == Run(LegacyPolicy(), clock, deliver, old(Snapshot()), Scan(dir, decode))
      ensures old(processed) <= processed
    {
      var events := ScanCowrieLogs(dir, decode);
      ghost var p := LegacyPolicy();
      ghost var start := Snapshot();
      var i := 0;
      while i < |events|
        invariant 0 <= i <= |events|
        invariant running
        invariant Snapshot() == Run(p, clock, deliver, start, events[..i])
        invariant start.processed <= processed
      {
        RunSnoc(p, clock, deliver, start, events, i);
        HandleEvent(events[i], clock, deliver);
        if !running {
          // a TypeError or a failed delivery leaves main_loop
          RunStoppedAt(p, clock, deliver, start, events, i);
          return;
        }
        i := i + 1;
      }
      assert events[..i] == events;
    }

    /** The loop body for one event. */
    method HandleEvent(event: Obj, clock: Clock, deliver: Deliveries)
      requires running
      modifies this
      ensures Snapshot() == Step(LegacyPolicy(), clock, deliver, old(Snapshot()), event)
      ensures old(processed) <= processed
    {
      var session := GetOr(event, "session", JStr(""));
      var src := GetOr(event, "src_ip", JStr(""));
      if !session.JStr? || !src.JStr? {
        // `+` between a string and anything else raises TypeError
        running := false;
        return;
      }
      var eventId := session.s + "|" + src.s + "|" + Str(GetOr(event, "timestamp", JStr("")));
      if eventId in processed {
        return;
      }
      processed := processed + {eventId};

      var srcIp := GetOr(event, "src_ip", JStr("unknown"));
      var username := GetOr(event, "username", JStr(""));

      var n := |placements|;
      var reading := clock(n);
      var tokenName := TokenName(reading.seconds);
      var tokenContent := LegacyContent(tokenName, reading.contentStamp);
      placements := placements + [Placement("lab_hosts", tokenName, tokenContent)];
      if deliver(n) == Raised {
        running := false;
        return;
      }
      audit := audit + [LegacyAudit(reading.auditStamp, "place_honeytoken", tokenName, srcIp, username)];
    }

    /** A bounded run of the older `main_loop`. */
    method MainLoop(polls: seq<Directory>, decode: Decoder, clock: Clock, deliver: Deliveries)
      requires running
      modifies this
      ensures Snapshot() == Run(LegacyPolicy(), clock, deliver, old(Snapshot()), ScanAll(polls, decode))
    {
      ghost var p := LegacyPolicy();
      ghost var start := Snapshot();
      var i := 0;
      while i < |polls|
        invariant 0 <= i <= |polls|
        invariant Snapshot() == Run(p, clock, deliver, start, ScanAll(polls[..i], decode))
      {
        ScanAllSnoc(polls, i, decode);
        ghost var mid := Snapshot();
        if running {
          RunCycle(polls[i], decode, clock, deliver);
        } else {
          RunStopped(p, clock, deliver, mid, Scan(polls[i], decode));
        }
        RunAppend(p, clock, deliver, start, ScanAll(polls[..i], decode), Scan(polls[i], decode));
        i := i + 1;
      }
      assert polls[..i] == polls;
    }
  }

  // ---------------------------------------------------------------------------
  // What one cycle does

  /** Events whose key can be built: `session` and `src_ip` absent or text. */
  predicate TextualKeys(es: seq<Obj>) {
    forall i :: 0 <= i < |es| ==> LegacyKey(es[i]).Some?
  }

  /** One event with a non-text `session` or `src_ip` ends the process: the
      state is what the events before it left, stopped, and neither it nor
      any later event is acted on. */
  lemma BadKeyEndsProcess(clock: Clock, deliver: Deliveries, s: State, es: seq<Obj>, i: nat)
    requires i < |es|
    requires ("session" in es[i] && !es[i]["session"].JStr?) || ("src_ip" in es[i] && !es[i]["src_ip"].JStr?)
    ensures Run(LegacyPolicy(), clock, deliver, s, es)
            == Run(LegacyPolicy(), clock, deliver, s, es[..i]).(running := false)
  {
    LegacyKeyRaises(es[i]);
    RunStopsAtKeyError(LegacyPolicy(), clock, deliver, s, es, i);
  }

  /** With textual keys and no delivery that raises, the process survives
      the cycle, and the events acted on carry pairwise different keys none
      of which was processed before. */
  lemma LegacyActsOncePerKey(clock: Clock, deliver: Deliveries, s: State, es: seq<Obj>)
    requires s.running && TextualKeys(es)
    requires forall n :: deliver(n) != Raised
    ensures Run(LegacyPolicy(), clock, deliver, s, es).running
    ensures var a := Acted(LegacyPolicy(), s.processed, es);
      && (forall i, j :: 0 <= i < j < |a| ==> LegacyKey(es[a[i]]) != LegacyKey(es[a[j]]))
      && (forall j :: 0 <= j < |a| ==> LegacyKey(es[a[j]]).value !in s.processed)
  {
    var p := LegacyPolicy();
    RunKeepsRunning(p, clock, deliver, s, es);
    AtMostOnePerKey(p, s.processed, es);
  }

  /** A placement as the older controller makes it: on `lab_hosts`, named
      after the clock second, and without the decoy warning. */
  predicate BareTokenPlacement(pl: Placement, r: Reading) {
    && pl.target == "lab_hosts"
    && pl.name == TokenName(r.seconds)
    && ('\n' !in r.contentStamp ==> !Contains(pl.content, DecoyNote))
  }

  /** A five-key record for a placement, naming the token and the source. */
  predicate RecordsLegacyAction(rec: AuditRecord, pl: Placement, e: Obj) {
    && rec.LegacyAudit?
    && rec.action == "place_honeytoken"
    && rec.token == pl.name
    && rec.srcIp == SourceIp(e)
  }

  lemma LegacyDecideMakesBareToken(e: Obj, r: Reading)
    ensures BareTokenPlacement(LegacyDecide(e, r), r)
  {
    if '\n' !in r.contentStamp {
      LegacyContentLacksDecoyNote(r.seconds, r.contentStamp);
    }
  }

  lemma LegacyRecordRecordsAction(e: Obj, pl: Placement, r: Reading)
    ensures RecordsLegacyAction(LegacyRecord(e, pl, r), pl, e)
  {
  }

  /** Every token the older controller places in a surviving cycle lacks
      the decoy warning. */
  lemma LegacyCyclePlacesBareTokens(clock: Clock, deliver: Deliveries, s: State, es: seq<Obj>)
    requires Run(LegacyPolicy(), clock, deliver, s, es).running
    ensures var r := Run(LegacyPolicy(), clock, deliver, s, es);
      forall j :: |s.placements| <= j < |r.placements| ==> BareTokenPlacement(r.placements[j], clock(j))
  {
    forall e, r ensures BareTokenPlacement(LegacyPolicy().decide(e, r), r) {
      LegacyDecideMakesBareToken(e, r);
    }
    RunPlacementsSatisfy(LegacyPolicy(), clock, deliver, s, es, BareTokenPlacement);
  }

  /** In a surviving cycle the j-th new audit record is the five-key record
      of the j-th new placement and of the j-th event acted on. */
  lemma LegacyCycleAuditsEachPlacement(clock: Clock, deliver: Deliveries, s: State, es: seq<Obj>)
    requires Run(LegacyPolicy(), clock, deliver, s, es).running
    ensures var r := Run(LegacyPolicy(), clock, deliver, s, es);
      var a := Acted(LegacyPolicy(), s.processed, es);
      && |r.audit| == |s.audit| + |a|
      && |r.placements| == |s.placements| + |a|
      && forall j :: 0 <= j < |a| ==>
           RecordsLegacyAction(r.audit[|s.audit| + j], r.placements[|s.placements| + j], es[a[j]])
  {
    forall e, pl, r ensures RecordsLegacyAction(LegacyPolicy().record(e, pl, r), pl, e) {
      LegacyRecordRecordsAction(e, pl, r);
    }
    RunRecordsSatisfy(LegacyPolicy(), clock, deliver, s, es, RecordsLegacyAction);
  }
}

=== FILE: pipeline.dfy ===
/** The body of the controller's `main_loop`, shared by the standalone
    controller and the copy embedded in `init.py`: for each scanned event,
    compute its identity key, skip it if the key is in `processed`, otherwise
    add the key, build a honeytoken, hand it to delivery and append one audit
    record. The two controllers differ only in the policy: how the key is
    built, what the token holds and what the audit record looks like.

    The process's clocks and the delivery step are parameters indexed by the
    number of placements made so far in the process lifetime. */
module Pipeline {
  import opened Wrappers
  import opened JsonValue

  /** The clock readings one action makes: `int(time.time())` for the token
      name, then the `datetime.utcnow().isoformat()` text for the token
      content, then the one for the audit record. */
  datatype Reading = Reading(seconds: nat, contentStamp: string, auditStamp: string)

  type Clock = nat -> Reading

  /** How the placement and its audit append ended: the copy worked, it
      failed with `CalledProcessError` (swallowed), or an exception escaped
      and ended the process. `Raised` stands both for a delivery that
      raises anything else (the `/tmp` write failing, `ansible` missing)
      and for a `record_audit` append that raises: either way `processed`
      and the placement are already updated and no record is written. */
  datatype Delivery = Delivered | CopyFailed | Raised

  type Deliveries = nat -> Delivery

  /** One call of `place_honeytoken`: target group, token name, token text. */
  datatype Placement = Placement(target: string, name: string, content: string)

  /** One line of the audit log. The standalone controller writes six keys,
      the embedded one five (no `reason`). */
  datatype AuditRecord =
    | Audit(timestamp: string, action: string, token: string, srcIp: JValue, username: JValue, reason: JValue)
    | LegacyAudit(timestamp: string, action: string, token: string, srcIp: JValue, username: JValue)

  /** What distinguishes one controller from the other. `key` is None when
      building the key raises. */
  datatype Policy = Policy(
    key: Obj -> Option<string>,
    decide: (Obj, Reading) -> Placement,
    record: (Obj, Placement, Reading) -> AuditRecord)

  /** The controller's state: the `processed` set, the delivery calls made,
      the audit log, and whether the process is still alive. */
  datatype State = State(processed: set<string>, placements: seq<Placement>, audit: seq<AuditRecord>, running: bool)

  /** One iteration of the `for event in ...` body. */
  function Step(p: Policy, clock: Clock, deliver: Deliveries, s: State, e: Obj): State {
    if !s.running then s
    else
      match p.key(e)
      case None => s.(running := false)
      case Some(k) =>
        if k in s.processed then s
        else
          var n := |s.placements|;
          var r := clock(n);
          var pl := p.decide(e, r);
          var s1 := s.(processed := s.processed + {k}, placements := s.placements + [pl]);
          if deliver(n) == Raised then s1.(running := false)
          else s1.(audit := s.audit + [p.record(e, pl, r)])
  }

  /** The body run over a sequence of events, in order. */
  function Run(p: Policy, clock: Clock, deliver: Deliveries, s: State, es: seq<Obj>): State {
    if es == [] then s
    else Step(p, clock, deliver, Run(p, clock, deliver, s, es[..|es| - 1]), es[|es| - 1])
  }

  // ---------------------------------------------------------------------------
  // Reference definition of which events are acted on

  /** The key of an event, `""` standing in when building it raises. */
  function KeyOf(p: Policy, e: Obj): string {
    p.key(e).GetOr("")
  }

  /** The keys of a sequence of events. */
  function Keys(p: Policy, es: seq<Obj>): set<string> {
    if es == [] then {} else Keys(p, es[..|es| - 1]) + {KeyOf(p, es[|es| - 1])}
  }

  /** Event `k` is acted on: its key is not in `seen` and no earlier event
      has the same key. */
  ghost predicate FirstNew(p: Policy, seen: set<string>, es: seq<Obj>, k: int) {
    && 0 <= k < |es|
    && KeyOf(p, es[k]) !in seen
    && forall j :: 0 <= j < k ==> KeyOf(p, es[j]) != KeyOf(p, es[k])
  }

  /** The positions of the events acted on, in scan order. */
  function Acted(p: Policy, seen: set<string>, es: seq<Obj>): (a: seq<nat>)
    ensures forall j :: 0 <= j < |a| ==> a[j] < |es|
    ensures forall i, j :: 0 <= i < j < |a| ==> a[i] < a[j]
  {
    if es == [] then []
    else
      var init := es[..|es| - 1];
      if KeyOf(p, es[|es| - 1]) in seen + Keys(p, init) then Acted(p, seen, init)
      else Acted(p, seen, init) + [|es| - 1]
  }

  lemma {:induction false} KeysMembership(p: Policy, es: seq<Obj>, x: string)
    ensures x in Keys(p, es) <==> exists i :: 0 <= i < |es| && KeyOf(p, es[i]) == x
  {
    if es != [] {
      var init := es[..|es| - 1];
      KeysMembership(p, init, x);
      if x in Keys(p, init) {
        var i :| 0 <= i < |init| && KeyOf(p, init[i]) == x;
        assert es[i] == init[i];
      }
      if exists i :: 0 <= i < |es| && KeyOf(p, es[i]) == x {
        var i :| 0 <= i < |es| && KeyOf(p, es[i]) == x;
        if i < |init| {
          assert init[i] == es[i];
        }
      }
    }
  }

  /** The positions acted on are exactly those whose key is new, each key
      at its first occurrence. */
  lemma {:induction false} ActedIsFirstNew(p: Policy, seen: set<string>, es: seq<Obj>)
    ensures forall k :: k in Acted(p, seen, es) <==> FirstNew(p, seen, es, k)
  {
    if es != [] {
      var init := es[..|es| - 1];
      var last := |es| - 1;
      ActedIsFirstNew(p, seen, init);
      KeysMembership(p, init, KeyOf(p, es[last]));
      forall k | 0 <= k < |init| ensures FirstNew(p, seen, init, k) <==> FirstNew(p, seen, es, k) {
        assert forall j :: 0 <= j <= k ==> init[j] == es[j];
      }
    }
  }

  /** At most one action per key: two actions never share a key, and no
      action's key was already in `processed`. */
  lemma AtMostOnePerKey(p: Policy, seen: set<string>, es: seq<Obj>)
    ensures forall i, j :: 0 <= i < j < |Acted(p, seen, es)| ==>
              KeyOf(p, es[Acted(p, seen, es)[i]]) != KeyOf(p, es[Acted(p, seen, es)[j]])
    ensures forall i :: 0 <= i < |Acted(p, seen, es)| ==> KeyOf(p, es[Acted(p, seen, es)[i]]) !in seen
  {
    var a := Acted(p, seen, es);
    ActedIsFirstNew(p, seen, es);
    forall i, j | 0 <= i < j < |a| ensures KeyOf(p, es[a[i]]) != KeyOf(p, es[a[j]]) {
      assert a[j] in a;
      assert FirstNew(p, seen, es, a[j]);
    }
    forall i | 0 <= i < |a| ensures KeyOf(p, es[a[i]]) !in seen {
      assert a[i] in a;
    }
  }

  // ---------------------------------------------------------------------------
  // Facts about Run

  lemma {:induction false} RunAppend(p: Policy, clock: Clock, deliver: Deliveries, s: State, a: seq<Obj>, b: seq<Obj>)
    ensures Run(p, clock, deliver, s, a + b) == Run(p, clock, deliver, Run(p, clock, deliver, s, a), b)
    decreases |b|
  {
    if b == [] {
      assert a + b == a;
    } else {
      assert (a + b)[..|a + b| - 1] == a + b[..|b| - 1];
      RunAppend(p, clock, deliver, s, a, b[..|b| - 1]);
    }
  }

  /** Once the process has died nothing more happens. */
  lemma {:induction false} RunStopped(p: Policy, clock: Clock, deliver: Deliveries, s: State, es: seq<Obj>)
    requires !s.running
    ensures Run(p, clock, deliver, s, es) == s
  {
    if es != [] {
      RunStopped(p, clock, deliver, s, es[..|es| - 1]);
    }
  }

  /** One more event is one more `Step`. */
  lemma RunSnoc(p: Policy, clock: Clock, deliver: Deliveries, s: State, es: seq<Obj>, i: nat)
    requires i < |es|
    ensures Run(p, clock, deliver, s, es[..i + 1])
            == Step(p, clock, deliver, Run(p, clock, deliver, s, es[..i]), es[i])
  {
    assert es[..i + 1][..i] == es[..i];
  }

  /** When the process dies on event `i`, the events after it change nothing. */
  lemma RunStoppedAt(p: Policy, clock: Clock, deliver: Deliveries, s: State, es: seq<Obj>, i: nat)
    requires i < |es|
    requires !Run(p, clock, deliver, s, es[..i + 1]).running
    ensures Run(p, clock, deliver, s, es) == Run(p, clock, deliver, s, es[..i + 1])
  {
    var a, rest := es[..i + 1], es[i + 1..];
    var q := Run(p, clock, deliver, s, a);
    RunStopped(p, clock, deliver, q, rest);
    RunAppend(p, clock, deliver, s, a, rest);
    assert a + rest == es;
  }

  /** The state only grows: `processed` keeps every key, and the delivery
      calls and the audit log are only appended to. */
  lemma {:induction false} RunOnlyGrows(p: Policy, clock: Clock, deliver: Deliveries, s: State, es: seq<Obj>)
    ensures var r := Run(p, clock, deliver, s, es);
      && s.processed <= r.processed
      && |s.placements| <= |r.placements| && r.placements[..|s.placements|] == s.placements
      && |s.audit| <= |r.audit| && r.audit[..|s.audit|] == s.audit
  {
    if es != [] {
      RunOnlyGrows(p, clock, deliver, s, es[..|es| - 1]);
      var q := Run(p, clock, deliver, s, es[..|es| - 1]);
      var r := Run(p, clock, deliver, s, es);
      assert r.placements == q.placements || r.placements == q.placements + [r.placements[|r.placements| - 1]];
      assert r.audit == q.audit || r.audit == q.audit + [r.audit[|r.audit| - 1]];
    }
  }

  /** While the process lives, `processed` is the old set plus the key of
      every event seen, and no key construction raised. */
  lemma {:induction false} RunProcessed(p: Policy, clock: Clock, deliver: Deliveries, s: State, es: seq<Obj>)
    requires Run(p, clock, deliver, s, es).running
    ensures s.running
    ensures forall i :: 0 <= i < |es| ==> p.key(es[i]).Some?
    ensures Run(p, clock, deliver, s, es).processed == s.processed + Keys(p, es)
  {
    if es != [] {
      var init := es[..|es| - 1];
      RunProcessed(p, clock, deliver, s, init);
      assert forall i :: 0 <= i < |init| ==> es[i] == init[i];
    }
  }

  /** One step that leaves the process alive: the process was alive and
      the key did not raise; a seen key changes nothing; a new key adds one
      delivery call and one audit record, built from the event and the clock
      reading for this action. */
  lemma StepAlive(p: Policy, clock: Clock, deliver: Deliveries, q: State, e: Obj)
    requires Step(p, clock, deliver, q, e).running
    ensures q.running && p.key(e).Some?
    ensures KeyOf(p, e) in q.processed ==> Step(p, clock, deliver, q, e) == q
    ensures KeyOf(p, e) !in q.processed ==>
              var pl := p.decide(e, clock(|q.placements|));
              && Step(p, clock, deliver, q, e).placements == q.placements + [pl]
              && Step(p, clock, deliver, q, e).audit == q.audit + [p.record(e, pl, clock(|q.placements|))]
  {
  }

  /** How many delivery calls and audit records a run that stays alive
      adds: one of each per event acted on. */
  lemma {:induction false} RunActionCount(p: Policy, clock: Clock, deliver: Deliveries, s: State, es: seq<Obj>)
    requires Run(p, clock, deliver, s, es).running
    ensures |Run(p, clock, deliver, s, es).placements| == |s.placements| + |Acted(p, s.processed, es)|
    ensures |Run(p, clock, deliver, s, es).audit| == |s.audit| + |Acted(p, s.processed, es)|
  {
    if es != [] {
      var init := es[..|es| - 1];
      var q := Run(p, clock, deliver, s, init);
      StepAlive(p, clock, deliver, q, es[|es| - 1]);
      RunActionCount(p, clock, deliver, s, init);
      RunProcessed(p, clock, deliver, s, init);
    }
  }

  /** While the process lives, the j-th event acted on (in scan order) gets
      the j-th new delivery call, built from that event and the j-th new
      clock reading. */
  lemma {:induction false} RunPlacementAt(p: Policy, clock: Clock, deliver: Deliveries, s: State, es: seq<Obj>, j: nat)
    requires Run(p, clock, deliver, s, es).running
    requires j < |Acted(p, s.processed, es)|
    ensures |s.placements| + j < |Run(p, clock, deliver, s, es).placements|
    ensures Run(p, clock, deliver, s, es).placements[|s.placements| + j]
            == p.decide(es[Acted(p, s.processed, es)[j]], clock(|s.placements| + j))
  {
    assert es != [];
    var init := es[..|es| - 1];
    var q := Run(p, clock, deliver, s, init);
    var ai := Acted(p, s.processed, init);
    var a := Acted(p, s.processed, es);
    StepAlive(p, clock, deliver, q, es[|es| - 1]);
    RunProcessed(p, clock, deliver, s, init);
    RunActionCount(p, clock, deliver, s, es);
    RunActionCount(p, clock, deliver, s, init);
    if j < |ai| {
      RunPlacementAt(p, clock, deliver, s, init, j);
      assert a[j] == ai[j];
      assert es[ai[j]] == init[ai[j]];
    } else {
      assert a == ai + [|es| - 1];
    }
  }

  /** While the process lives, the j-th event acted on gets the j-th new
      audit record, built from that event, its delivery call and its clock
      reading. */
  lemma {:induction false} RunRecordAt(p: Policy, clock: Clock, deliver: Deliveries, s: State, es: seq<Obj>, j: nat)
    requires Run(p, clock, deliver, s, es).running
    requires j < |Acted(p, s.processed, es)|
    ensures |s.audit| + j < |Run(p, clock, deliver, s, es).audit|
    ensures |s.placements| + j < |Run(p, clock, deliver, s, es).placements|
    ensures Run(p, clock, deliver, s, es).audit[|s.audit| + j]
            == p.record(es[Acted(p, s.processed, es)[j]],
                        Run(p, clock, deliver, s, es).placements[|s.placements| + j],
                        clock(|s.placements| + j))
  {
    assert es != [];
    var init := es[..|es| - 1];
    var q := Run(p, clock, deliver, s, init);
    var ai := Acted(p, s.processed, init);
    var a := Acted(p, s.processed, es);
    StepAlive(p, clock, deliver, q, es[|es| - 1]);
    RunProcessed(p, clock, deliver, s, init);
    RunActionCount(p, clock, deliver, s, es);
    RunActionCount(p, clock, deliver, s, init);
    if j < |ai| {
      RunRecordAt(p, clock, deliver, s, init, j);
      assert a[j] == ai[j];
      assert es[ai[j]] == init[ai[j]];
    } else {
      assert a == ai + [|es| - 1];
    }
  }

  /** Whatever holds of every placement `decide` can build holds of every
      delivery call a run that stays alive makes, with the clock reading it
      was built from. */
  lemma RunPlacementsSatisfy(p: Policy, clock: Clock, deliver: Deliveries, s: State, es: seq<Obj>,
                             ok: (Placement, Reading) -> bool)
    requires Run(p, clock, deliver, s, es).running
    requires forall e, r :: ok(p.decide(e, r), r)
    ensures forall j :: |s.placements| <= j < |Run(p, clock, deliver, s, es).placements| ==>
              ok(Run(p, clock, deliver, s, es).placements[j], clock(j))
  {
    var r := Run(p, clock, deliver, s, es);
    RunActionCount(p, clock, deliver, s, es);
    forall j | |s.placements| <= j < |r.placements| ensures ok(r.placements[j], clock(j)) {
      var m := j - |s.placements|;
      RunPlacementAt(p, clock, deliver, s, es, m);
      assert |s.placements| + m == j;
    }
  }

  /** Whatever holds of every record `record` builds, for the event and the
      placement it is given, holds of every audit record a run that stays
      alive writes, for the event acted on and the placement made for it. */
  lemma RunRecordsSatisfy(p: Policy, clock: Clock, deliver: Deliveries, s: State, es: seq<Obj>,
                          ok: (AuditRecord, Placement, Obj) -> bool)
    requires Run(p, clock, deliver, s, es).running
    requires forall e, pl, r :: ok(p.record(e, pl, r), pl, e)
    ensures |Run(p, clock, deliver, s, es).audit| == |s.audit| + |Acted(p, s.processed, es)|
    ensures |Run(p, clock, deliver, s, es).placements| == |s.placements| + |Acted(p, s.processed, es)|
    ensures forall j :: 0 <= j < |Acted(p, s.processed, es)| ==>
              ok(Run(p, clock, deliver, s, es).audit[|s.audit| + j],
                 Run(p, clock, deliver, s, es).placements[|s.placements| + j],
                 es[Acted(p, s.processed, es)[j]])
  {
    RunActionCount(p, clock, deliver, s, es);
    forall j | 0 <= j < |Acted(p, s.processed, es)|
      ensures ok(Run(p, clock, deliver, s, es).audit[|s.audit| + j],
                 Run(p, clock, deliver, s, es).placements[|s.placements| + j],
                 es[Acted(p, s.processed, es)[j]])
    {
      RunRecordAt(p, clock, deliver, s, es, j);
    }
  }

  /** Whether the copy worked or failed with `CalledProcessError` changes
      nothing: the same tokens are placed and the same audit records
      written. */
  lemma {:induction false} CopyFailureSwallowed(p: Policy, clock: Clock, d1: Deliveries, d2: Deliveries, s: State, es: seq<Obj>)
    requires forall n :: (d1(n) == Raised) == (d2(n) == Raised)
    ensures Run(p, clock, d1, s, es) == Run(p, clock, d2, s, es)
  {
    if es != [] {
      CopyFailureSwallowed(p, clock, d1, d2, s, es[..|es| - 1]);
    }
  }

  /** With keys that never raise and deliveries that never raise, the
      process stays alive. */
  lemma {:induction false} RunKeepsRunning(p: Policy, clock: Clock, deliver: Deliveries, s: State, es: seq<Obj>)
    requires s.running
    requires forall i :: 0 <= i < |es| ==> p.key(es[i]).Some?
    requires forall n :: deliver(n) != Raised
    ensures Run(p, clock, deliver, s, es).running
  {
    if es != [] {
      var init := es[..|es| - 1];
      assert forall i :: 0 <= i < |init| ==> init[i] == es[i];
      RunKeepsRunning(p, clock, deliver, s, init);
    }
  }

  /** An event whose key raises ends the process there: nothing after it
      is processed, placed or audited. */
  lemma RunStopsAtKeyError(p: Policy, clock: Clock, deliver: Deliveries, s: State, es: seq<Obj>, i: nat)
    requires i < |es| && p.key(es[i]).None?
    ensures Run(p, clock, deliver, s, es) == Run(p, clock, deliver, s, es[..i]).(running := false)
  {
    var upTo := es[..i + 1];
    assert upTo[..|upTo| - 1] == es[..i];
    RunAppend(p, clock, deliver, s, upTo, es[i + 1..]);
    assert upTo + es[i + 1..] == es;
    RunStopped(p, clock, deliver, Run(p, clock, deliver, s, upTo), es[i + 1..]);
  }

  /** Across two cycles of the loop, no key of the first cycle is acted on
      again in the second: the dedup holds for the process lifetime. */
  lemma NoKeyActedTwice(p: Policy, clock: Clock, deliver: Deliveries, s: State, es1: seq<Obj>, es2: seq<Obj>)
    requires Run(p, clock, deliver, Run(p, clock, deliver, s, es1), es2).running
    ensures var a2 := Acted(p, Run(p, clock, deliver, s, es1).processed, es2);
      forall j :: 0 <= j < |a2| ==> KeyOf(p, es2[a2[j]]) !in s.processed + Keys(p, es1)
  {
    var s1 := Run(p, clock, deliver, s, es1);
    RunProcessed(p, clock, deliver, s1, es2);
    RunProcessed(p, clock, deliver, s, es1);
    AtMostOnePerKey(p, s1.processed, es2);
  }
}

=== FILE: real_data.dfy ===
/** `real_evidence/analyze_real_data.py`: counts the honeytoken files,
    reads a source IP out of each name, and summarises the attack
    results. */
module RealData {
  import opened Wrappers
  import opened Text
  import opened JsonValue
  import opened EventSource
  import opened Tally
  import opened AttackResults
  import DeceptionController

  /** `[f for f in os.listdir(d) if f.endswith('.txt')]`, in listing order. */
  function TxtNames(listing: seq<string>): (names: seq<string>)
    ensures |names| <= |listing|
  {
    if listing == [] then []
    else
      var last := listing[|listing| - 1];
      TxtNames(listing[..|listing| - 1]) + (if EndsWith(last, ".txt") then [last] else [])
  }

  /** The honeytoken names: none when the directory does not exist. */
  function Honeytokens(dir: Directory): seq<string> {
    match dir
    case Missing => []
    case Dir(listing, _) => TxtNames(listing)
  }

  /** The filter keeps listing order: the honeytokens of two runs of
      names are those of the first run, then those of the second. */
  lemma {:induction false} TxtNamesAppend(a: seq<string>, b: seq<string>)
    ensures TxtNames(a + b) == TxtNames(a) + TxtNames(b)
  {
    if b != [] {
      var init := b[..|b| - 1];
      TxtNamesAppend(a, init);
      assert (a + b)[..|a + b| - 1] == a + init;
      assert (a + b)[|a + b| - 1] == b[|b| - 1];
    } else {
      assert a + b == a;
    }
  }

  /** A listed name is a honeytoken exactly when it ends in `.txt`, and
      honeytokens keep their listing order. */
  lemma {:induction false} TxtNamesFilter(listing: seq<string>, x: string, y: string)
    ensures x in TxtNames(listing) <==> x in listing && EndsWith(x, ".txt")
    ensures EndsWith(x, ".txt") && EndsWith(y, ".txt") ==>
      TxtNames(listing + [x, y]) == TxtNames(listing) + [x, y]
  {
    if listing != [] {
      var init, last := listing[..|listing| - 1], listing[|listing| - 1];
      TxtNamesFilter(init, x, y);
      assert listing == init + [last];
    }
    var l1 := listing + [x];
    assert l1[..|l1| - 1] == listing;
    assert (l1 + [y])[..|l1|] == l1;
    assert listing + [x, y] == l1 + [y];
  }

  // ---------------------------------------------------------------------------
  // The IP in a honeytoken name

  /** `parts = name.split('_')`; with at least four parts, the last four
      joined by '.', `.txt` removed from the last. */
  function ExtractIp(name: string): Option<string> {
    var parts := Split(name, '_');
    var n := |parts|;
    if n < 4 then None
    else Some(parts[n - 4] + "." + parts[n - 3] + "." + parts[n - 2] + "." + RemoveAll(parts[n - 1], ".txt"))
  }

  /** A name made of `_`-free parts, the last being `d.txt` with no '.' in
      `d`, yields its last four parts joined by '.', without the `.txt`. */
  lemma ExtractIpOfParts(parts: seq<string>, d: string)
    requires |parts| >= 4 && forall k :: 0 <= k < |parts| ==> '_' !in parts[k]
    requires parts[|parts| - 1] == d + ".txt" && '.' !in d
    ensures ExtractIp(Join(parts, '_')) ==
      Some(parts[|parts| - 4] + "." + parts[|parts| - 3] + "." + parts[|parts| - 2] + "." + d)
  {
    SplitJoin(parts, '_');
    assert RemoveAll(parts[|parts| - 1], ".txt") == d by {
      RemoveAllKeepsPrefix(d, ".txt", ".txt");
      RemoveAllOfPattern(".txt");
      assert d + [] == d;
    }
  }

  /** `honey_<t>_<a>_<b>_<c>_<d>.txt`, the naming pattern the script
      expects, with a source address `a.b.c.d`. */
  function HoneyName(t: nat, a: nat, b: nat, c: nat, d: nat): string {
    Join(["honey", Decimal(t), Decimal(a), Decimal(b), Decimal(c), Decimal(d) + ".txt"], '_')
  }

  lemma DigitsFree(s: string, c: char)
    requires AllDigits(s) && !IsDigit(c)
    ensures c !in s
  {
  }

  /** A name of that pattern yields its address. */
  lemma ExtractIpOfHoneyName(t: nat, a: nat, b: nat, c: nat, d: nat)
    ensures ExtractIp(HoneyName(t, a, b, c, d)) ==
      Some(Decimal(a) + "." + Decimal(b) + "." + Decimal(c) + "." + Decimal(d))
  {
    var dd := Decimal(d);
    var last := dd + ".txt";
    var parts := ["honey", Decimal(t), Decimal(a), Decimal(b), Decimal(c), last];
    DigitsFree(Decimal(t), '_');
    DigitsFree(Decimal(a), '_');
    DigitsFree(Decimal(b), '_');
    DigitsFree(Decimal(c), '_');
    DigitsFree(dd, '_');
    DigitsFree(dd, '.');
    forall k | 0 <= k < |last| ensures last[k] != '_' {
      if k < |dd| {
        assert last[k] == dd[k];
      }
    }
    assert forall k :: 0 <= k < |parts| ==> '_' !in parts[k];
    ExtractIpOfParts(parts, dd);
  }

  /** The controller's own token names, `honey_<seconds>.txt`, have only two
      `_`-separated parts, so no IP is read from them. */
  lemma ControllerTokenHasNoIp(seconds: nat)
    ensures ExtractIp(DeceptionController.TokenName(seconds)) == None
  {
    var d := Decimal(seconds);
    var rest := d + ".txt";
    assert DeceptionController.TokenName(seconds) == "honey" + ['_'] + rest;
    forall k | 0 <= k < |rest| ensures rest[k] != '_' {
      if k < |d| {
        assert rest[k] == d[k];
      }
    }
    SplitCons("honey", rest, '_');
  }

  /** The IP of every name that has one, in order. */
  function Ips(names: seq<string>): (ips: seq<string>)
    ensures |ips| <= |names|
  {
    if names == [] then [] else Ips(names[..|names| - 1]) + IpOf(names[|names| - 1])
  }

  /** The IP read from one name, if any. */
  function IpOf(name: string): seq<string> {
    match ExtractIp(name)
    case Some(ip) => [ip]
    case None => []
  }

  lemma IpsSnoc(names: seq<string>, x: string)
    ensures Ips(names + [x]) == Ips(names) + IpOf(x)
  {
    assert (names + [x])[..|names|] == names;
  }

  /** The number of names with at least four `_`-separated parts. */
  function CountLongNames(names: seq<string>): nat {
    if names == [] then 0
    else CountLongNames(names[..|names| - 1]) + (if |Split(names[|names| - 1], '_')| >= 4 then 1 else 0)
  }

  /** The loop `for token in honeytokens: ... ip_counts[ip] = ip_counts.get(ip, 0) + 1`. */
  method IpCounts(tokens: seq<string>) returns (ipCounts: seq<Entry<string>>)
    ensures ipCounts == TallyOf(Ips(tokens))
  {
    ipCounts := [];
    var i := 0;
    while i < |tokens|
      invariant 0 <= i <= |tokens|
      invariant ipCounts == TallyOf(Ips(tokens[..i]))
    {
      assert tokens[..i + 1] == tokens[..i] + [tokens[i]];
      IpsSnoc(tokens[..i], tokens[i]);
      var parts := Split(tokens[i], '_');
      if |parts| >= 4 {
        var n := |parts|;
        var ip := parts[n - 4] + "." + parts[n - 3] + "." + parts[n - 2] + "." + RemoveAll(parts[n - 1], ".txt");
        assert IpOf(tokens[i]) == [ip];
        ipCounts := Bump(ipCounts, ip);
      } else {
        assert Ips(tokens[..i]) + IpOf(tokens[i]) == Ips(tokens[..i]);
      }
      i := i + 1;
    }
    assert tokens[..i] == tokens;
  }

  lemma {:induction false} IpsCountLongNames(names: seq<string>)
    ensures |Ips(names)| == CountLongNames(names)
  {
    if names != [] {
      IpsCountLongNames(names[..|names| - 1]);
    }
  }

  /** Each IP is counted once per name it was read from, so the counts add
      up to the number of names with at least four parts. */
  lemma IpCountsTotal(names: seq<string>, ip: string)
    ensures Total(TallyOf(Ips(names))) == CountLongNames(names)
    ensures Get(TallyOf(Ips(names)), ip) == multiset(Ips(names))[ip]
  {
    TallyCounts(Ips(names), ip);
    IpsCountLongNames(names);
  }

  /** A name with fewer than four parts leaves the IP counts as they were;
      in particular a controller token does. */
  lemma ShortNameNotCounted(names: seq<string>, x: string)
    requires |Split(x, '_')| < 4
    ensures TallyOf(Ips(names + [x])) == TallyOf(Ips(names))
  {
    IpsSnoc(names, x);
    assert IpOf(x) == [];
    assert Ips(names) + [] == Ips(names);
  }

  lemma ControllerTokenNotCounted(names: seq<string>, seconds: nat)
    ensures TallyOf(Ips(names + [DeceptionController.TokenName(seconds)])) == TallyOf(Ips(names))
  {
    var x := DeceptionController.TokenName(seconds);
    ControllerTokenHasNoIp(seconds);
    IpsSnoc(names, x);
    assert Ips(names) + [] == Ips(names);
  }

  // ---------------------------------------------------------------------------
  // The whole script

  /** What `if attack_results:` computes. */
  datatype Stats = Stats(successful: nat, failed: int, usernames: seq<Entry<JValue>>, top: seq<Entry<JValue>>)

  /** The statistics of a non-empty list of results. */
  function StatsOf(rs: seq<Obj>): Stats {
    var usernames := TallyOf(Users(rs));
    Stats(CountSuccessful(rs), |rs| - CountSuccessful(rs), usernames, Top5(usernames))
  }

  datatype Analysis = Analysis(honeytokens: seq<string>, ipCounts: seq<Entry<string>>, stats: Option<Stats>)

  /** What the script computes from the results and the token directory. */
  function AnalysisOf(loaded: Option<seq<Obj>>, dir: Directory): Analysis {
    var rs := loaded.GetOr([]);
    Analysis(Honeytokens(dir), TallyOf(Ips(Honeytokens(dir))), if rs == [] then None else Some(StatsOf(rs)))
  }

  /** The script from loading the results to the top five usernames.
      `loaded` is what `json.load` produced, `None` when opening or decoding
      raised (the bare `except:` then leaves the list empty). */
  method Analyze(loaded: Option<seq<Obj>>, dir: Directory) returns (a: Analysis)
    ensures a == AnalysisOf(loaded, dir)
  {
    var attackResults := loaded.GetOr([]);
    var honeytokens := Honeytokens(dir);
    var ipCounts := IpCounts(honeytokens);
    var stats: Option<Stats> := None;
    if attackResults != [] {
      var successful := CountSuccessful(attackResults);
      var failed := |attackResults| - successful;
      var usernames := UsernameCounts(attackResults);
      stats := Some(Stats(successful, failed, usernames, Top5(usernames)));
    }
    a := Analysis(honeytokens, ipCounts, stats);
  }

  /** The summary is consistent: successful and failed add up to the
      number of results and neither is negative, the username counts add up
      to the number of results, and at most five usernames are listed, from
      the tally, largest counts first. */
  lemma AnalysisConsistent(rs: seq<Obj>)
    ensures var s := StatsOf(rs);
      s.failed >= 0 && s.successful + s.failed == |rs| && s.failed == CountFailed(rs)
    ensures var s := StatsOf(rs);
      Total(s.usernames) == |rs| && DistinctKeys(s.usernames)
    ensures var s := StatsOf(rs);
      |s.top| <= 5 && NonIncreasing(s.top) && multiset(s.top) <= multiset(s.usernames)
  {
    FailedIsComplement(rs);
    UsernameTallyCounts(rs, JStr("unknown"));
    Top5Properties(TallyOf(Users(rs)));
  }
}

=== FILE: scoring.dfy ===
/** The scoring script that `init.py` writes out as `scoring/scoring.py`:
    it reads the controller's audit log and the Cowrie logs back, and
    estimates the mean time to detect as the mean, over audit records whose
    source address was seen attacking, of the time between the attacker's
    first event and the audit record.

    Unlike the controller's scan, neither reader guards the file reads: a
    file that cannot be opened or read ends the script. Parsing timestamps
    and subtracting them is a parameter, `Elapsed`. */
module Scoring {
  import opened Wrappers
  import opened Text
  import opened JsonValue
  import opened EventSource

  // ---------------------------------------------------------------------------
  // parse_audit

  /** The audit log path: no file there, or a file. */
  datatype AuditSource = NoAuditFile | AuditFile(data: FileData)

  /** What `parse_audit` returns: nothing for a missing file, every line
      that decodes otherwise, or a failure when reading raises. */
  function AuditEvents(f: AuditSource, decode: Decoder): Result<seq<Obj>> {
    match f
    case NoAuditFile => Ok([])
    case AuditFile(d) => if d.readFails then Failed else Ok(DecodeLines(d.lines, decode))
  }

  method ParseAudit(f: AuditSource, decode: Decoder) returns (r: Result<seq<Obj>>)
    ensures r == AuditEvents(f, decode)
    ensures f.NoAuditFile? ==> r == Ok([])
  {
    if f.NoAuditFile? {
      return Ok([]);
    }
    var events := DecodeEveryLine(f.data.lines, decode);
    if f.data.readFails {
      return Failed;
    }
    return Ok(events);
  }

  /** The line loop of both readers: `except Exception: continue` skips
      every line on which `json.loads` raises, whatever it raises. */
  method DecodeEveryLine(lines: seq<string>, decode: Decoder) returns (events: seq<Obj>)
    ensures events == DecodeLines(lines, decode)
  {
    events := [];
    var j := 0;
    while j < |lines|
      invariant 0 <= j <= |lines|
      invariant events == DecodeLines(lines[..j], decode)
    {
      assert lines[..j + 1][..j] == lines[..j];
      var decoded := decode(Strip(lines[j]));
      if decoded.Parsed? {
        events := events + [decoded.obj];
      }
      j := j + 1;
    }
    assert lines[..j] == lines;
  }

  /** A line on which `json.loads` raises anything is skipped and the
      lines after it are still read. */
  lemma AnyBadLineSkipped(xs: seq<string>, bad: string, ys: seq<string>, decode: Decoder)
    requires !decode(Strip(bad)).Parsed?
    ensures DecodeLines(xs + [bad] + ys, decode) == DecodeLines(xs + ys, decode)
  {
    DecodeLinesAppend(xs + [bad], ys, decode);
    DecodeLinesAppend(xs, [bad], decode);
    DecodeLinesAppend(xs, ys, decode);
    assert [bad][..0] == [];
  }

  /** A line of the audit log that does not decode, or on which decoding
      raises anything else, is skipped and the lines after it are still
      read. */
  lemma AuditSkipsBadLine(xs: seq<string>, bad: string, ys: seq<string>, decode: Decoder)
    requires !decode(Strip(bad)).Parsed?
    ensures AuditEvents(AuditFile(FileData(xs + [bad] + ys, false)), decode)
            == AuditEvents(AuditFile(FileData(xs + ys, false)), decode)
  {
    AnyBadLineSkipped(xs, bad, ys, decode);
  }

  /** An audit log whose every line decodes (one record per line, as the
      controller writes it) gives one event per line, in order. */
  lemma AuditOneEventPerLine(lines: seq<string>, decode: Decoder)
    requires forall k :: 0 <= k < |lines| ==> decode(Strip(lines[k])).Parsed?
    ensures var r := AuditEvents(AuditFile(FileData(lines, false)), decode);
      && r.Ok? && |r.value| == |lines|
      && forall k :: 0 <= k < |lines| ==> r.value[k] == decode(Strip(lines[k])).obj
  {
    DecodeLinesAllParsed(lines, decode);
  }

  // ---------------------------------------------------------------------------
  // parse_cowrie

  /** The `.json` files among `names`, read in that order, any file that
      cannot be opened or read ending the script. */
  function StrictScanNames(names: seq<string>, files: map<string, FileData>, decode: Decoder): Result<seq<Obj>> {
    if names == [] then Ok([])
    else
      var name := names[|names| - 1];
      match StrictScanNames(names[..|names| - 1], files, decode)
      case Failed => Failed
      case Ok(events) =>
        if !IsEventFile(name) then Ok(events)
        else if Open(files, name).readFails then Failed
        else Ok(events + DecodeLines(Open(files, name).lines, decode))
  }

  /** What `parse_cowrie` returns. */
  function CowrieEvents(dir: Directory, decode: Decoder): Result<seq<Obj>> {
    match dir
    case Missing => Ok([])
    case Dir(listing, files) => StrictScanNames(SortStrings(listing), files, decode)
  }

  method ParseCowrie(dir: Directory, decode: Decoder) returns (r: Result<seq<Obj>>)
    ensures r == CowrieEvents(dir, decode)
    ensures dir.Missing? ==> r == Ok([])
  {
    if dir.Missing? {
      return Ok([]);
    }
    var names := SortStrings(dir.listing);
    var files := dir.files;
    var events := [];
    var i := 0;
    while i < |names|
      invariant 0 <= i <= |names|
      invariant StrictScanNames(names[..i], files, decode) == Ok(events)
    {
      assert names[..i + 1][..i] == names[..i];
      var fname := names[i];
      if EndsWith(fname, ".json") {
        var f := Open(files, fname);
        var fromFile := DecodeEveryLine(f.lines, decode);
        if f.readFails {
          StrictScanFailureIsFinal(names, files, decode, i + 1);
          return Failed;
        }
        events := events + fromFile;
      }
      i := i + 1;
    }
    assert names[..i] == names;
    return Ok(events);
  }

  /** Once a file has failed, the later files do not matter. */
  lemma {:induction false} StrictScanFailureIsFinal(names: seq<string>, files: map<string, FileData>, decode: Decoder, i: nat)
    requires i <= |names|
    requires StrictScanNames(names[..i], files, decode) == Failed
    ensures StrictScanNames(names, files, decode) == Failed
    decreases |names| - i
  {
    if i < |names| {
      assert names[..i + 1][..i] == names[..i];
      StrictScanFailureIsFinal(names, files, decode, i + 1);
    } else {
      assert names[..i] == names;
    }
  }

  /** Every `.json` file among the names opens and reads to the end. */
  predicate EventFilesReadable(names: seq<string>, files: map<string, FileData>) {
    forall n :: n in names && IsEventFile(n) ==> !Open(files, n).readFails
  }

  /** No line of a `.json` file among the names makes `json.loads` raise
      anything but a decode error. */
  predicate NoRaisingLine(names: seq<string>, files: map<string, FileData>, decode: Decoder) {
    forall n :: n in names && IsEventFile(n) ==> FirstRaise(Open(files, n).lines, decode) == |Open(files, n).lines|
  }

  lemma {:induction false} StrictScanAgrees(names: seq<string>, files: map<string, FileData>, decode: Decoder)
    ensures StrictScanNames(names, files, decode).Ok? <==> EventFilesReadable(names, files)
    ensures EventFilesReadable(names, files) && NoRaisingLine(names, files, decode) ==>
              StrictScanNames(names, files, decode) == Ok(ScanNames(names, files, decode))
  {
    if names != [] {
      var init := names[..|names| - 1];
      var last := names[|names| - 1];
      StrictScanAgrees(init, files, decode);
      assert names == init + [last];
      var lastOk := IsEventFile(last) ==> !Open(files, last).readFails;
      var lastWhole := IsEventFile(last) ==> FirstRaise(Open(files, last).lines, decode) == |Open(files, last).lines|;
      assert forall n :: n in names <==> n in init || n == last;
      assert EventFilesReadable(names, files) <==> EventFilesReadable(init, files) && lastOk;
      assert NoRaisingLine(names, files, decode) <==> NoRaisingLine(init, files, decode) && lastWhole;
      if EventFilesReadable(names, files) && NoRaisingLine(names, files, decode) {
        var ev := ScanNames(init, files, decode);
        assert ScanNames(names, files, decode) == ev + FileEvents(files, last, decode);
        if !IsEventFile(last) {
          assert ev + FileEvents(files, last, decode) == ev;
        } else {
          var lines := Open(files, last).lines;
          FirstRaiseIsFirst(lines, decode);
          ControllerLinesWhole(lines, decode);
          assert FileEvents(files, last, decode) == DecodeLines(lines, decode);
        }
      }
    }
  }

  /** `parse_cowrie` succeeds exactly when every listed `.json` file can be
      read, and then, when no line makes `json.loads` raise anything but a
      decode error, returns what the controller's scan yields. */
  lemma ParseCowrieAgreesWithScan(listing: seq<string>, files: map<string, FileData>, decode: Decoder)
    ensures CowrieEvents(Dir(listing, files), decode).Ok? <==> EventFilesReadable(listing, files)
    ensures EventFilesReadable(listing, files) && NoRaisingLine(listing, files, decode) ==>
              CowrieEvents(Dir(listing, files), decode) == Ok(Scan(Dir(listing, files), decode))
  {
    var names := SortStrings(listing);
    StrictScanAgrees(names, files, decode);
    assert forall n :: n in names <==> n in listing by {
      assert multiset(names) == multiset(listing);
      forall n ensures n in names <==> n in listing {
        assert n in names <==> n in multiset(names);
        assert n in listing <==> n in multiset(listing);
      }
    }
  }

  /** Where the two readers part: on a line for which `json.loads` raises
      something other than a decode error, the controller stops reading
      the file, while `parse_cowrie` skips the line and reads on. */
  lemma ReadersDifferOnRaisingLine(xs: seq<string>, bad: string, ys: seq<string>, decode: Decoder)
    requires decode(Strip(bad)).Raises?
    ensures ControllerLines(xs + [bad] + ys, decode) == ControllerLines(xs, decode)
    ensures DecodeLines(xs + [bad] + ys, decode) == DecodeLines(xs + ys, decode)
  {
    RaisingLineEndsFile(xs, bad, ys, decode);
    AnyBadLineSkipped(xs, bad, ys, decode);
  }

  // ---------------------------------------------------------------------------
  // compute_mttd

  function IpOf(e: Obj): JValue {
    GetOr(e, "src_ip", JNull)
  }

  function TsOf(e: Obj): JValue {
    GetOr(e, "timestamp", JNull)
  }

  /** `ip and ts`: both fields present and truthy. */
  predicate Usable(e: Obj) {
    Truthy(IpOf(e)) && Truthy(TsOf(e))
  }

  /** An event of the given source with both fields usable. */
  predicate FromIp(e: Obj, ip: JValue) {
    Usable(e) && IpOf(e) == ip
  }

  /** `first_by_ip` after the `setdefault` loop over the attacker events. */
  function FirstByIp(es: seq<Obj>): map<JValue, JValue> {
    if es == [] then map[]
    else
      var m := FirstByIp(es[..|es| - 1]);
      var e := es[|es| - 1];
      if Usable(e) && IpOf(e) !in m then m[IpOf(e) := TsOf(e)] else m
  }

  method BuildFirstByIp(es: seq<Obj>) returns (m: map<JValue, JValue>)
    ensures m == FirstByIp(es)
  {
    m := map[];
    var i := 0;
    while i < |es|
      invariant 0 <= i <= |es|
      invariant m == FirstByIp(es[..i])
    {
      assert es[..i + 1][..i] == es[..i];
      var ip := IpOf(es[i]);
      var ts := TsOf(es[i]);
      if Truthy(ip) && Truthy(ts) && ip !in m {
        m := m[ip := ts];
      }
      i := i + 1;
    }
    assert es[..i] == es;
  }

  /** A source address is in the map exactly when some event of it has both
      fields truthy. */
  lemma {:induction false} FirstByIpHas(es: seq<Obj>, ip: JValue)
    ensures ip in FirstByIp(es) <==> exists i :: 0 <= i < |es| && FromIp(es[i], ip)
  {
    if es != [] {
      var init := es[..|es| - 1];
      FirstByIpHas(init, ip);
      if exists i :: 0 <= i < |init| && FromIp(init[i], ip) {
        var i :| 0 <= i < |init| && FromIp(init[i], ip);
        assert es[i] == init[i];
      }
      if exists i :: 0 <= i < |es| && FromIp(es[i], ip) {
        var i :| 0 <= i < |es| && FromIp(es[i], ip);
        if i < |init| {
          assert init[i] == es[i];
        }
      }
    }
  }

  /** The stored timestamp is the one of the first usable event of that
      address, in list order. */
  lemma {:induction false} FirstByIpKeepsFirst(es: seq<Obj>, ip: JValue, i: nat)
    requires i < |es| && FromIp(es[i], ip)
    requires forall j :: 0 <= j < i ==> !FromIp(es[j], ip)
    ensures ip in FirstByIp(es) && FirstByIp(es)[ip] == TsOf(es[i])
  {
    var init := es[..|es| - 1];
    if i == |es| - 1 {
      forall j | 0 <= j < |init| ensures !FromIp(init[j], ip) {
        assert init[j] == es[j];
      }
      FirstByIpHas(init, ip);
    } else {
      FirstByIpKeepsFirst(init, ip, i);
    }
  }

  /** Later events never overwrite an address already stored. */
  lemma {:induction false} FirstByIpNeverOverwritten(a: seq<Obj>, b: seq<Obj>, ip: JValue)
    requires ip in FirstByIp(a)
    ensures ip in FirstByIp(a + b) && FirstByIp(a + b)[ip] == FirstByIp(a)[ip]
    decreases |b|
  {
    if b == [] {
      assert a + b == a;
    } else {
      var b' := b[..|b| - 1];
      assert (a + b)[..|a + b| - 1] == a + b';
      FirstByIpNeverOverwritten(a, b', ip);
    }
  }

  /** Parsing two timestamps and taking the seconds between them, None when
      either does not parse. */
  type Elapsed = (JValue, JValue) -> Option<real>

  /** The detection record is matched: both fields truthy and its address
      seen among the attacker events. */
  predicate Detects(d: Obj, first: map<JValue, JValue>) {
    Usable(d) && IpOf(d) in first
  }

  /** The `times` list: one delay per matched detection whose timestamps
      parse, in detection order. */
  function Deltas(ds: seq<Obj>, first: map<JValue, JValue>, elapsed: Elapsed): seq<real> {
    if ds == [] then []
    else
      var rest := Deltas(ds[..|ds| - 1], first, elapsed);
      var d := ds[|ds| - 1];
      if Detects(d, first) then
        match elapsed(first[IpOf(d)], TsOf(d))
        case Some(x) => rest + [x]
        case None => rest
      else rest
  }

  /** The delay a detection contributes, if any. */
  function DelayOf(d: Obj, first: map<JValue, JValue>, elapsed: Elapsed): Option<real> {
    if Detects(d, first) then elapsed(first[IpOf(d)], TsOf(d)) else None
  }

  /** Every delay comes from a matched detection. */
  lemma {:induction false} DeltasFromDetections(ds: seq<Obj>, first: map<JValue, JValue>, elapsed: Elapsed)
    ensures forall k :: 0 <= k < |Deltas(ds, first, elapsed)| ==>
              exists i :: 0 <= i < |ds| && DelayOf(ds[i], first, elapsed) == Some(Deltas(ds, first, elapsed)[k])
  {
    if ds != [] {
      var init := ds[..|ds| - 1];
      DeltasFromDetections(init, first, elapsed);
      var rest := Deltas(init, first, elapsed);
      var t := Deltas(ds, first, elapsed);
      DeltasSnoc(ds, first, elapsed);
      forall k | 0 <= k < |t|
        ensures exists i :: 0 <= i < |ds| && DelayOf(ds[i], first, elapsed) == Some(t[k])
      {
        if k < |rest| {
          var i :| 0 <= i < |init| && DelayOf(init[i], first, elapsed) == Some(rest[k]);
          assert ds[i] == init[i] && t[k] == rest[k];
          assert DelayOf(ds[i], first, elapsed) == Some(t[k]);
        } else {
          assert DelayOf(ds[|ds| - 1], first, elapsed) == Some(t[k]);
        }
      }
      assert forall k :: 0 <= k < |t| ==> exists i :: 0 <= i < |ds| && DelayOf(ds[i], first, elapsed) == Some(t[k]);
    } else {
      assert Deltas(ds, first, elapsed) == [];
    }
  }

  /** The last detection adds its delay, if it has one, and nothing else. */
  lemma DeltasSnoc(ds: seq<Obj>, first: map<JValue, JValue>, elapsed: Elapsed)
    requires ds != []
    ensures var rest := Deltas(ds[..|ds| - 1], first, elapsed);
      var dl := DelayOf(ds[|ds| - 1], first, elapsed);
      Deltas(ds, first, elapsed) == if dl.Some? then rest + [dl.value] else rest
  {
  }

  /** No delay exactly when no detection contributes one. */
  lemma {:induction false} DeltasEmptyIff(ds: seq<Obj>, first: map<JValue, JValue>, elapsed: Elapsed)
    ensures Deltas(ds, first, elapsed) == [] <==> forall i :: 0 <= i < |ds| ==> DelayOf(ds[i], first, elapsed).None?
  {
    if ds != [] {
      var init := ds[..|ds| - 1];
      DeltasEmptyIff(init, first, elapsed);
      DeltasSnoc(ds, first, elapsed);
      if forall i :: 0 <= i < |ds| ==> DelayOf(ds[i], first, elapsed).None? {
        forall i | 0 <= i < |init| ensures DelayOf(init[i], first, elapsed).None? {
          assert init[i] == ds[i];
        }
      }
      if Deltas(ds, first, elapsed) == [] {
        forall i | 0 <= i < |ds| ensures DelayOf(ds[i], first, elapsed).None? {
          if i < |init| {
            assert init[i] == ds[i];
          }
        }
      }
    }
  }

  function Sum(xs: seq<real>): real {
    if xs == [] then 0.0 else Sum(xs[..|xs| - 1]) + xs[|xs| - 1]
  }

  /** `statistics.mean`, in exact arithmetic. */
  function Mean(xs: seq<real>): real
    requires xs != []
  {
    Sum(xs) / (|xs| as real)
  }

  lemma {:induction false} SumBounds(xs: seq<real>, lo: real, hi: real)
    requires forall k :: 0 <= k < |xs| ==> lo <= xs[k] <= hi
    ensures (|xs| as real) * lo <= Sum(xs) <= (|xs| as real) * hi
  {
    if xs != [] {
      SumBounds(xs[..|xs| - 1], lo, hi);
    }
  }

  /** The mean lies between any lower and upper bound of the values. */
  lemma MeanBounds(xs: seq<real>, lo: real, hi: real)
    requires xs != []
    requires forall k :: 0 <= k < |xs| ==> lo <= xs[k] <= hi
    ensures lo <= Mean(xs) <= hi
  {
    SumBounds(xs, lo, hi);
    var n := |xs| as real;
    assert Mean(xs) * n == Sum(xs);
  }

  /** What `compute_mttd` returns: None when either list is empty or no
      detection contributes a delay, otherwise the mean delay. */
  function Mttd(cowrie: seq<Obj>, detections: seq<Obj>, elapsed: Elapsed): Option<real> {
    if cowrie == [] || detections == [] then None
    else
      var times := Deltas(detections, FirstByIp(cowrie), elapsed);
      if times == [] then None else Some(Mean(times))
  }

  method ComputeMttd(cowrie: seq<Obj>, detections: seq<Obj>, elapsed: Elapsed) returns (r: Option<real>)
    ensures r == Mttd(cowrie, detections, elapsed)
  {
    if |cowrie| == 0 || |detections| == 0 {
      return None;
    }
    var first := BuildFirstByIp(cowrie);
    var times: seq<real> := [];
    var i := 0;
    while i < |detections|
      invariant 0 <= i <= |detections|
      invariant times == Deltas(detections[..i], first, elapsed)
    {
      assert detections[..i + 1][..i] == detections[..i];
      var d := detections[i];
      var ip := IpOf(d);
      var ts := TsOf(d);
      if Truthy(ip) && Truthy(ts) && ip in first {
        var delta := elapsed(first[ip], ts);
        if delta.Some? {
          times := times + [delta.value];
        }
      }
      i := i + 1;
    }
    assert detections[..i] == detections;
    if times == [] {
      return None;
    }
    return Some(Mean(times));
  }

  /** There is no estimate exactly when a list is empty or no detection
      record is matched to an attacker address with parseable timestamps. */
  lemma MttdNoneIff(cowrie: seq<Obj>, detections: seq<Obj>, elapsed: Elapsed)
    ensures Mttd(cowrie, detections, elapsed).None? <==>
              || cowrie == [] || detections == []
              || forall i :: 0 <= i < |detections| ==> DelayOf(detections[i], FirstByIp(cowrie), elapsed).None?
  {
    DeltasEmptyIff(detections, FirstByIp(cowrie), elapsed);
  }

  /** The estimate lies within any bounds that hold for every delay the
      timestamp parser can produce: non-negative delays give a non-negative
      estimate. */
  lemma MttdWithinBounds(cowrie: seq<Obj>, detections: seq<Obj>, elapsed: Elapsed, lo: real, hi: real)
    requires forall a, b :: elapsed(a, b).Some? ==> lo <= elapsed(a, b).value <= hi
    ensures Mttd(cowrie, detections, elapsed).Some? ==>
              lo <= Mttd(cowrie, detections, elapsed).value <= hi
  {
    if Mttd(cowrie, detections, elapsed).Some? {
      var first := FirstByIp(cowrie);
      var times := Deltas(detections, first, elapsed);
      DeltasFromDetections(detections, first, elapsed);
      forall k | 0 <= k < |times| ensures lo <= times[k] <= hi {
        var i :| 0 <= i < |detections| && DelayOf(detections[i], first, elapsed) == Some(times[k]);
        var d := detections[i];
        assert elapsed(first[IpOf(d)], TsOf(d)) == Some(times[k]);
      }
      MeanBounds(times, lo, hi);
    }
  }

  /** A detection record from an address the attacker events never show
      with a timestamp changes nothing. */
  lemma UnmatchedDetectionIgnored(cowrie: seq<Obj>, detections: seq<Obj>, d: Obj, elapsed: Elapsed)
    requires forall i :: 0 <= i < |cowrie| ==> !FromIp(cowrie[i], IpOf(d))
    ensures Mttd(cowrie, detections + [d], elapsed) == Mttd(cowrie, detections, elapsed)
  {
    FirstByIpHas(cowrie, IpOf(d));
    var ds := detections + [d];
    assert ds[..|ds| - 1] == detections;
    assert Deltas(ds, FirstByIp(cowrie), elapsed) == Deltas(detections, FirstByIp(cowrie), elapsed);
  }
}

=== FILE: ssh_probe.dfy ===
/** `scripts/run_ssh_probe.py`: the credential list (built-in, or read
    from a `username:password` file) and the CSV rows of the probe, one per
    attempt, taking the credentials round-robin. The SSH attempt itself
    (Paramiko) and the clock are parameters. */
module SshProbe {
  import opened Wrappers
  import opened Text
  import opened EventSource

  /** One `(username, password)` pair. */
  datatype Cred = Cred(user: string, password: string)

  /** `DEFAULT_CREDS`. */
  function DefaultCreds(): (creds: seq<Cred>)
    ensures |creds| == 7
  {
    [ Cred("root", "toor"), Cred("admin", "admin"), Cred("guest", "guest"),
      Cred("ubuntu", "ubuntu"), Cred("test", "test123"), Cred("oracle", "oracle"),
      Cred("svcacct", "P@ssw0rd!") ]
  }

  /** The `--creds-file` option: not given (or empty), naming a file that
      does not exist, or naming a file that opens. Reading that file may
      still raise, which nothing catches. */
  datatype CredsSource = NoCredsOption | CredsNotFound | CredsFile(data: FileData)

  // ---------------------------------------------------------------------------
  // Parsing the credentials file

  /** One line: stripped; skipped when empty or without `:`; otherwise cut
      at the first `:` and both halves stripped. */
  function ParseCredLine(line: string): Option<Cred> {
    var t := Strip(line);
    if t == [] || ':' !in t then None
    else
      var (u, p) := SplitFirst(t, ':');
      Some(Cred(Strip(u), Strip(p)))
  }

  /** The pairs of all lines, in file order. */
  function ParseCredLines(lines: seq<string>): seq<Cred> {
    if lines == [] then []
    else
      var rest := ParseCredLines(lines[..|lines| - 1]);
      match ParseCredLine(lines[|lines| - 1])
      case Some(c) => rest + [c]
      case None => rest
  }

  /** The loop of the `with open(...)` block. */
  method ParseCreds(lines: seq<string>) returns (creds: seq<Cred>)
    ensures creds == ParseCredLines(lines)
  {
    creds := [];
    var j := 0;
    while j < |lines|
      invariant 0 <= j <= |lines|
      invariant creds == ParseCredLines(lines[..j])
    {
      assert lines[..j + 1][..j] == lines[..j];
      var line := Strip(lines[j]);
      if line != [] && ':' in line {
        var (u, p) := SplitFirst(line, ':');
        creds := creds + [Cred(Strip(u), Strip(p))];
      }
      j := j + 1;
    }
    assert lines[..j] == lines;
  }

  /** A line yields a pair exactly when it contains a `:`. */
  lemma CredLineKeptIff(line: string)
    ensures ParseCredLine(line).Some? <==> ':' in line
  {
    StripKeepsNonSpace(line, ':');
  }

  /** The username never contains `:` (the password may), and neither half
      has whitespace at its ends. */
  lemma CredLineShape(line: string)
    requires ParseCredLine(line).Some?
    ensures ':' !in ParseCredLine(line).value.user
    ensures Stripped(ParseCredLine(line).value.user) && Stripped(ParseCredLine(line).value.password)
  {
    var t := Strip(line);
    var (u, p) := SplitFirst(t, ':');
    StripKeepsNonSpace(u, ':');
    StripEnds(u);
    StripEnds(p);
  }

  /** Writing a pair as `user:password` and parsing it gives the pair back,
      for a username without `:` and halves without surrounding whitespace. */
  lemma CredLineRoundTrip(c: Cred)
    requires ':' !in c.user && Stripped(c.user) && Stripped(c.password)
    ensures ParseCredLine(c.user + ":" + c.password) == Some(c)
  {
    var u, p := c.user, c.password;
    var line := u + ":" + p;
    assert line == u + [':'] + p;
    assert Stripped(line) by {
      assert line[0] == if u == [] then ':' else u[0];
      assert line[|line| - 1] == if p == [] then ':' else p[|p| - 1];
    }
    StripFixedIff(line);
    SplitFirstOfJoin(u, p, ':');
    StripFixedIff(u);
    StripFixedIff(p);
  }

  /** A password may itself contain `:`: only the first `:` separates. */
  lemma PasswordKeepsColons(u: string, p: string)
    requires ':' !in u && Stripped(u) && Stripped(p)
    ensures ParseCredLine(u + ":" + p) == Some(Cred(u, p))
  {
    CredLineRoundTrip(Cred(u, p));
  }

  /** A line without `:` is skipped and the lines after it are still read. */
  lemma {:induction false} ParseCredLinesAppend(a: seq<string>, b: seq<string>)
    ensures ParseCredLines(a + b) == ParseCredLines(a) + ParseCredLines(b)
    decreases |b|
  {
    if b == [] {
      assert a + b == a;
    } else {
      var b' := b[..|b| - 1];
      assert (a + b)[..|a + b| - 1] == a + b';
      ParseCredLinesAppend(a, b');
    }
  }

  lemma BadCredLineSkipped(xs: seq<string>, bad: string, ys: seq<string>)
    requires ':' !in bad
    ensures ParseCredLines(xs + [bad] + ys) == ParseCredLines(xs + ys)
  {
    CredLineKeptIff(bad);
    ParseCredLinesAppend(xs + [bad], ys);
    ParseCredLinesAppend(xs, [bad]);
    ParseCredLinesAppend(xs, ys);
    assert [bad][..0] == [];
  }

  /** When every line holds a `:`, the pairs are the lines' pairs, one per
      line, in file order. */
  lemma {:induction false} CredsInFileOrder(lines: seq<string>)
    requires forall k :: 0 <= k < |lines| ==> ':' in lines[k]
    ensures |ParseCredLines(lines)| == |lines|
    ensures forall k :: 0 <= k < |lines| ==> ParseCredLine(lines[k]) == Some(ParseCredLines(lines)[k])
  {
    if lines != [] {
      var init := lines[..|lines| - 1];
      CredsInFileOrder(init);
      CredLineKeptIff(lines[|lines| - 1]);
      var r := ParseCredLines(lines);
      assert r == ParseCredLines(init) + [ParseCredLine(lines[|lines| - 1]).value];
      forall k | 0 <= k < |lines| ensures ParseCredLine(lines[k]) == Some(r[k]) {
        if k < |init| {
          assert lines[k] == init[k];
        }
      }
    }
  }

  /** The credentials the attempts use: the defaults unless a file opened,
      in which case the file's pairs replace them, even when there are
      none; a read that raises ends the script. */
  function LoadCreds(src: CredsSource): Result<seq<Cred>> {
    match src
    case NoCredsOption => Ok(DefaultCreds())
    case CredsNotFound => Ok(DefaultCreds())
    case CredsFile(d) => if d.readFails then Failed else Ok(ParseCredLines(d.lines))
  }

  // ---------------------------------------------------------------------------
  // The attempts

  /** One CSV row; the seven fields of `fieldnames`, in order. */
  datatype Row = Row(
    timestampIso: string, targetHost: string, targetPort: int,
    username: string, password: string, result: string, latencyMs: int)

  /** `try_ssh` for attempt `i` with the given pair: the result text and
      the latency in milliseconds. */
  type Prober = (nat, Cred) -> (string, int)

  /** `datetime.utcnow().isoformat()` at attempt `i`. */
  type Stamps = nat -> string

  function MakeRow(i: nat, c: Cred, host: string, port: int, stamp: Stamps, probe: Prober): Row {
    var (result, latency) := probe(i, c);
    Row(stamp(i) + "Z", host, port, c.user, c.password, result, latency)
  }

  /** The rows of the first `n` attempts, taking the pairs round-robin. */
  function Rows(creds: seq<Cred>, n: nat, host: string, port: int, stamp: Stamps, probe: Prober): seq<Row>
    requires creds != []
  {
    if n == 0 then []
    else Rows(creds, n - 1, host, port, stamp, probe) + [MakeRow(n - 1, creds[(n - 1) % |creds|], host, port, stamp, probe)]
  }

  /** The `--delay` value as `argparse`'s `float` gives it: a finite
      number of seconds, an infinity, or NaN. */
  datatype Delay = Finite(seconds: real) | Infinity(negative: bool) | NotANumber

  /** The largest nanosecond count `time.sleep` accepts: 2^63 - 1. */
  const MaxSleepNanos: int := 0x7FFF_FFFF_FFFF_FFFF

  /** `time.sleep(delay)` raises: `ValueError` for NaN and for a negative
      length, `OverflowError` for an infinity and for a length whose
      nanosecond count, rounded away from zero, leaves the signed 64-bit
      range. */
  predicate SleepRaises(delay: Delay) {
    match delay
    case Finite(s) => s < 0.0 || s * 1_000_000_000.0 > MaxSleepNanos as real
    case Infinity(_) => true
    case NotANumber => true
  }

  /** What the CSV holds under its header once the attempt loop is over:
      every row, or the rows written before an exception ended the script
      (the `with` block closes the file on the way out). */
  datatype Outcome = Completed(rows: seq<Row>) | Crashed(rows: seq<Row>)

  /** The attempt loop for `attempts` attempts. With no pairs at all, the
      first attempt divides by zero before any row is written; when the
      delay makes `time.sleep` raise, that happens after the first row. */
  function ProbeRows(creds: seq<Cred>, attempts: int, delay: Delay, host: string, port: int, stamp: Stamps, probe: Prober): Outcome {
    if attempts <= 0 then Completed([])
    else if creds == [] then Crashed([])
    else if SleepRaises(delay) then Crashed(Rows(creds, 1, host, port, stamp, probe))
    else Completed(Rows(creds, attempts, host, port, stamp, probe))
  }

  /** The attempt loop of `main`. */
  method WriteRows(creds: seq<Cred>, attempts: int, delay: Delay, host: string, port: int, stamp: Stamps, probe: Prober)
    returns (r: Outcome)
    ensures r == ProbeRows(creds, attempts, delay, host, port, stamp, probe)
  {
    var rows: seq<Row> := [];
    var i := 0;
    while i < attempts
      invariant 0 <= i <= if attempts > 0 then attempts else 0
      invariant i > 0 ==> creds != [] && !SleepRaises(delay) && rows == Rows(creds, i, host, port, stamp, probe)
      invariant i == 0 ==> rows == []
    {
      if |creds| == 0 {
        return Crashed(rows);
      }
      var c := creds[i % |creds|];
      var (result, latency) := probe(i, c);
      rows := rows + [Row(stamp(i) + "Z", host, port, c.user, c.password, result, latency)];
      assert rows == Rows(creds, i + 1, host, port, stamp, probe);
      if SleepRaises(delay) {
        assert i == 0;
        return Crashed(rows);
      }
      i := i + 1;
    }
    return Completed(rows);
  }

  /** Exactly `n` rows, and attempt `i` uses pair `i mod |creds|`: the list
      is walked round-robin. */
  lemma {:induction false} RowsRoundRobin(creds: seq<Cred>, n: nat, host: string, port: int, stamp: Stamps, probe: Prober)
    requires creds != []
    ensures var rows := Rows(creds, n, host, port, stamp, probe);
      && |rows| == n
      && forall i :: 0 <= i < n ==> rows[i] == MakeRow(i, creds[i % |creds|], host, port, stamp, probe)
  {
    if n > 0 {
      RowsRoundRobin(creds, n - 1, host, port, stamp, probe);
    }
  }

  /** The attempts end normally unless a sleep raises, that is unless
      there is an attempt and the delay is one `time.sleep` refuses; then
      only the first row is on disk. Otherwise there are exactly
      `attempts` rows (none for a non-positive count). Either way row `i`
      holds pair `i mod |creds|`, the clock text with a `Z`, the host and
      port, and what `try_ssh` returned for that attempt. */
  lemma RoundRobin(creds: seq<Cred>, attempts: int, delay: Delay, host: string, port: int, stamp: Stamps, probe: Prober)
    requires creds != []
    ensures var r := ProbeRows(creds, attempts, delay, host, port, stamp, probe);
      r.Crashed? <==> attempts > 0 && SleepRaises(delay)
    ensures var r := ProbeRows(creds, attempts, delay, host, port, stamp, probe);
      && |r.rows| == (if attempts <= 0 then 0 else if r.Crashed? then 1 else attempts)
      && forall i :: 0 <= i < |r.rows| ==>
           && r.rows[i].username == creds[i % |creds|].user
           && r.rows[i].password == creds[i % |creds|].password
           && r.rows[i].timestampIso == stamp(i) + "Z"
           && r.rows[i].targetHost == host && r.rows[i].targetPort == port
           && (r.rows[i].result, r.rows[i].latencyMs) == probe(i, creds[i % |creds|])
  {
    if attempts > 0 {
      RowsRoundRobin(creds, attempts, host, port, stamp, probe);
      RowsRoundRobin(creds, 1, host, port, stamp, probe);
    }
  }

  /** Attempts `n` apart use the same pair. */
  lemma SamePairEveryRound(creds: seq<Cred>, attempts: int, delay: Delay, host: string, port: int, stamp: Stamps, probe: Prober, i: nat)
    requires creds != [] && i + |creds| < attempts
    ensures ProbeRows(creds, attempts, delay, host, port, stamp, probe).Completed? <==> !SleepRaises(delay)
    ensures var r := ProbeRows(creds, attempts, delay, host, port, stamp, probe);
      r.Completed? ==>
      && |r.rows| == attempts
      && r.rows[i].username == r.rows[i + |creds|].username
      && r.rows[i].password == r.rows[i + |creds|].password
  {
    RoundRobin(creds, attempts, delay, host, port, stamp, probe);
    ModShift(i, |creds|);
  }

  lemma ModShift(i: nat, n: nat)
    requires n > 0
    ensures (i + n) % n == i % n
  {
    var q, r := i / n, i % n;
    assert i + n == (q + 1) * n + r;
    ModUnique(i + n, n, q + 1, r);
  }

  /** Division with remainder has one answer. */
  lemma ModUnique(a: int, n: int, q: int, r: int)
    requires n > 0 && 0 <= r < n && a == q * n + r
    ensures a % n == r
  {
    var q0, r0 := a / n, a % n;
    assert (q - q0) * n == r0 - r;
    MulAtLeast(q - q0, n);
    MulAtLeast(q0 - q, n);
  }

  lemma {:induction false} MulAtLeast(k: int, n: int)
    ensures k >= 1 && n > 0 ==> k * n >= n
  {
    if k > 1 && n > 0 {
      MulAtLeast(k - 1, n);
      assert k * n == (k - 1) * n + n;
    }
  }

  /** With at least as many attempts as pairs, every pair is tried. */
  lemma EveryPairTried(creds: seq<Cred>, attempts: int, delay: Delay, host: string, port: int, stamp: Stamps, probe: Prober, k: nat)
    requires k < |creds| <= attempts
    ensures ProbeRows(creds, attempts, delay, host, port, stamp, probe).Completed? <==> !SleepRaises(delay)
    ensures var r := ProbeRows(creds, attempts, delay, host, port, stamp, probe);
      r.Completed? ==>
      && |r.rows| == attempts
      && r.rows[k].username == creds[k].user && r.rows[k].password == creds[k].password
  {
    RoundRobin(creds, attempts, delay, host, port, stamp, probe);
    ModUnique(k, |creds|, 0, k);
  }

  /** The whole script as written: load the pairs, then make the attempts.
      A credentials read that raises ends the script before the CSV is
      opened. */
  function ProbeRun(src: CredsSource, attempts: int, delay: Delay, host: string, port: int, stamp: Stamps, probe: Prober): Result<Outcome> {
    match LoadCreds(src)
    case Failed => Failed
    case Ok(creds) => Ok(ProbeRows(creds, attempts, delay, host, port, stamp, probe))
  }

  /** As written, a credentials file that opens but holds no `:` line
      leaves the list empty, and the first attempt then fails with a
      division by zero, leaving only the CSV header. */
  lemma EmptyCredsFileCrashes(lines: seq<string>, attempts: int, delay: Delay, host: string, port: int, stamp: Stamps, probe: Prober)
    requires forall k :: 0 <= k < |lines| ==> ':' !in lines[k]
    requires attempts > 0
    ensures LoadCreds(CredsFile(FileData(lines, false))) == Ok([])
    ensures ProbeRun(CredsFile(FileData(lines, false)), attempts, delay, host, port, stamp, probe) == Ok(Crashed([]))
  {
    NoColonNoCreds(lines);
  }

  lemma {:induction false} NoColonNoCreds(lines: seq<string>)
    requires forall k :: 0 <= k < |lines| ==> ':' !in lines[k]
    ensures ParseCredLines(lines) == []
  {
    if lines != [] {
      NoColonNoCreds(lines[..|lines| - 1]);
      CredLineKeptIff(lines[|lines| - 1]);
    }
  }

  /** The evidently intended behaviour: a file without usable pairs falls
      back to the defaults, like a missing one. */
  function LoadCredsWithFallback(src: CredsSource): Result<seq<Cred>> {
    match LoadCreds(src)
    case Failed => Failed
    case Ok(creds) => if creds == [] then Ok(DefaultCreds()) else Ok(creds)
  }

  function ProbeRunWithFallback(src: CredsSource, attempts: int, delay: Delay, host: string, port: int, stamp: Stamps, probe: Prober): Result<Outcome> {
    match LoadCredsWithFallback(src)
    case Failed => Failed
    case Ok(creds) => Ok(ProbeRows(creds, attempts, delay, host, port, stamp, probe))
  }

  /** With the fallback the list is never empty, so the script fails
      before writing only when reading the file does; the attempt loop
      crashes only when a sleep raises, and then after writing the first
      row; otherwise it writes one row per attempt. A file with usable
      pairs is used exactly as before. */
  lemma FallbackNeverDividesByZero(src: CredsSource, attempts: int, delay: Delay, host: string, port: int, stamp: Stamps, probe: Prober)
    ensures LoadCredsWithFallback(src).Ok? ==> LoadCredsWithFallback(src).value != []
    ensures ProbeRunWithFallback(src, attempts, delay, host, port, stamp, probe).Failed? <==> LoadCreds(src).Failed?
    ensures var r := ProbeRunWithFallback(src, attempts, delay, host, port, stamp, probe);
      r.Ok? ==>
      && (r.value.Crashed? <==> attempts > 0 && SleepRaises(delay))
      && |r.value.rows| == (if attempts <= 0 then 0 else if r.value.Crashed? then 1 else attempts)
    ensures LoadCreds(src).Ok? && LoadCreds(src).value != [] ==>
              ProbeRunWithFallback(src, attempts, delay, host, port, stamp, probe) == ProbeRun(src, attempts, delay, host, port, stamp, probe)
  {
    var r := LoadCredsWithFallback(src);
    if r.Ok? {
      RoundRobin(r.value, attempts, delay, host, port, stamp, probe);
    }
  }
}

=== FILE: tally.dfy ===
/** Per-key counts as the analysis scripts keep them,
    `d[k] = d.get(k, 0) + 1` on a dictionary, and the top five of
    `sorted(d.items(), key=lambda x: x[1], reverse=True)[:5]`.

    A dictionary is kept as its entries in insertion order (Python
    dictionaries iterate in that order, which `sorted` then sees). */
module Tally {

  datatype Entry<K> = Entry(key: K, count: nat)

  /** `d.get(k, 0)`. */
  function Get<K(==)>(t: seq<Entry<K>>, k: K): nat {
    if t == [] then 0 else if t[0].key == k then t[0].count else Get(t[1..], k)
  }

  /** The keys of the dictionary. */
  function Keys<K(==)>(t: seq<Entry<K>>): set<K> {
    if t == [] then {} else {t[0].key} + Keys(t[1..])
  }

  /** `d[k] = d.get(k, 0) + 1`: the entry of `k` goes up by one in place, or
      a new entry with count 1 goes at the end. */
  function Bump<K(==)>(t: seq<Entry<K>>, k: K): (r: seq<Entry<K>>)
    ensures |r| == if k in Keys(t) then |t| else |t| + 1
    ensures Keys(r) == Keys(t) + {k}
  {
    if t == [] then [Entry(k, 1)]
    else if t[0].key == k then [Entry(k, t[0].count + 1)] + t[1..]
    else [t[0]] + Bump(t[1..], k)
  }

  /** The counts of `xs`, one `Bump` per element in order. */
  function TallyOf<K(==)>(xs: seq<K>): seq<Entry<K>> {
    if xs == [] then [] else Bump(TallyOf(xs[..|xs| - 1]), xs[|xs| - 1])
  }

  /** The loop `for x in xs: d[x] = d.get(x, 0) + 1`. */
  method CountAll<K(==)>(xs: seq<K>) returns (t: seq<Entry<K>>)
    ensures t == TallyOf(xs)
  {
    t := [];
    var i := 0;
    while i < |xs|
      invariant 0 <= i <= |xs|
      invariant t == TallyOf(xs[..i])
    {
      assert xs[..i + 1][..i] == xs[..i];
      t := Bump(t, xs[i]);
      i := i + 1;
    }
    assert xs[..i] == xs;
  }

  /** The sum of the counts. */
  function Total<K>(t: seq<Entry<K>>): nat {
    if t == [] then 0 else t[0].count + Total(t[1..])
  }

  /** No key has two entries. */
  predicate DistinctKeys<K(==)>(t: seq<Entry<K>>) {
    t == [] || (t[0].key !in Keys(t[1..]) && DistinctKeys(t[1..]))
  }

  predicate PositiveCounts<K>(t: seq<Entry<K>>) {
    forall i :: 0 <= i < |t| ==> t[i].count >= 1
  }

  // ---------------------------------------------------------------------------
  // What a tally counts

  lemma {:induction false} BumpGet<K>(t: seq<Entry<K>>, k: K, q: K)
    ensures Get(Bump(t, k), q) == Get(t, q) + (if k == q then 1 else 0)
  {
    if t != [] && t[0].key != k {
      BumpGet(t[1..], k, q);
      assert Bump(t, k)[1..] == Bump(t[1..], k);
    }
  }

  lemma {:induction false} BumpTotal<K>(t: seq<Entry<K>>, k: K)
    ensures Total(Bump(t, k)) == Total(t) + 1
  {
    if t != [] && t[0].key != k {
      BumpTotal(t[1..], k);
      assert Bump(t, k)[1..] == Bump(t[1..], k);
    } else if t != [] {
      assert Bump(t, k)[1..] == t[1..];
    }
  }

  /** Bumping keeps the keys distinct and every count positive. */
  lemma {:induction false} BumpShape<K>(t: seq<Entry<K>>, k: K)
    requires DistinctKeys(t) && PositiveCounts(t)
    ensures DistinctKeys(Bump(t, k)) && PositiveCounts(Bump(t, k))
  {
    if t != [] && t[0].key != k {
      BumpShape(t[1..], k);
      var r := Bump(t, k);
      assert r[1..] == Bump(t[1..], k);
      forall i | 0 <= i < |r| ensures r[i].count >= 1 {
        if i > 0 {
          assert r[i] == r[1..][i - 1];
        }
      }
    } else if t != [] {
      var r := Bump(t, k);
      assert r[1..] == t[1..];
      forall i | 0 <= i < |r| ensures r[i].count >= 1 {
        if i > 0 {
          assert r[i] == t[i];
        }
      }
    }
  }

  /** A tally counts: each value's count is its number of occurrences, and
      the counts add up to the number of values counted. */
  lemma {:induction false} TallyCounts<K>(xs: seq<K>, k: K)
    ensures Get(TallyOf(xs), k) == multiset(xs)[k]
    ensures Total(TallyOf(xs)) == |xs|
  {
    if xs != [] {
      var init := xs[..|xs| - 1];
      TallyCounts(init, k);
      BumpGet(TallyOf(init), xs[|xs| - 1], k);
      BumpTotal(TallyOf(init), xs[|xs| - 1]);
      assert xs == init + [xs[|xs| - 1]];
      assert multiset(xs) == multiset(init) + multiset{xs[|xs| - 1]};
    }
  }

  /** A tally is a dictionary of the values counted: one entry per distinct
      value, none for anything else, no entry with count 0. */
  lemma {:induction false} TallyShape<K>(xs: seq<K>)
    ensures DistinctKeys(TallyOf(xs)) && PositiveCounts(TallyOf(xs))
    ensures forall q :: q in Keys(TallyOf(xs)) <==> q in xs
  {
    if xs != [] {
      var init := xs[..|xs| - 1];
      TallyShape(init);
      BumpShape(TallyOf(init), xs[|xs| - 1]);
      assert xs == init + [xs[|xs| - 1]];
      forall q ensures q in xs <==> q in init || q == xs[|xs| - 1] {
      }
    }
  }

  /** Position of the first occurrence of `k`. */
  function FirstIndex<K(==)>(xs: seq<K>, k: K): (i: nat)
    requires k in xs
    ensures i < |xs| && xs[i] == k && k !in xs[..i]
  {
    if xs[0] == k then 0 else 1 + FirstIndex(xs[1..], k)
  }

  lemma FirstIndexSnoc<K>(xs: seq<K>, x: K, k: K)
    requires k in xs
    ensures FirstIndex(xs + [x], k) == FirstIndex(xs, k)
  {
    var i := FirstIndex(xs, k);
    var ys := xs + [x];
    assert ys[i] == k && ys[..i] == xs[..i];
    var j := FirstIndex(ys, k);
  }

  lemma FirstIndexOfNew<K>(xs: seq<K>, x: K)
    requires x !in xs
    ensures FirstIndex(xs + [x], x) == |xs|
  {
    var ys := xs + [x];
    var j := FirstIndex(ys, x);
  }

  /** Bumping a key already present moves no entry. */
  lemma {:induction false} BumpKeepsKeys<K>(t: seq<Entry<K>>, k: K)
    requires k in Keys(t)
    ensures |Bump(t, k)| == |t| && forall i :: 0 <= i < |t| ==> Bump(t, k)[i].key == t[i].key
  {
    if t[0].key != k {
      BumpKeepsKeys(t[1..], k);
      var r := Bump(t, k);
      assert r[1..] == Bump(t[1..], k);
      forall i | 0 < i < |t| ensures r[i].key == t[i].key {
        assert r[i] == r[1..][i - 1] && t[i] == t[1..][i - 1];
      }
    }
  }

  /** Bumping a new key appends its entry. */
  lemma {:induction false} BumpAppends<K>(t: seq<Entry<K>>, k: K)
    requires k !in Keys(t)
    ensures Bump(t, k) == t + [Entry(k, 1)]
  {
    if t != [] {
      BumpAppends(t[1..], k);
      assert t == [t[0]] + t[1..];
    }
  }

  /** The order in which the keys of `t` were first seen in `xs`. */
  predicate FirstSeenOrder<K(==)>(t: seq<Entry<K>>, xs: seq<K>) {
    forall i, j :: 0 <= i < j < |t| ==>
      t[i].key in xs && t[j].key in xs && FirstIndex(xs, t[i].key) < FirstIndex(xs, t[j].key)
  }

  /** The tally lists its keys in the order they were first seen. */
  lemma {:induction false} TallyFirstSeenOrder<K>(xs: seq<K>)
    ensures FirstSeenOrder(TallyOf(xs), xs)
  {
    if xs != [] {
      var init, x := xs[..|xs| - 1], xs[|xs| - 1];
      TallyFirstSeenOrder(init);
      TallyShape(init);
      assert xs == init + [x];
      FirstSeenStep(TallyOf(init), init, x);
    }
  }

  lemma FirstSeenStep<K>(t: seq<Entry<K>>, init: seq<K>, x: K)
    requires FirstSeenOrder(t, init)
    requires forall q :: q in Keys(t) <==> q in init
    ensures FirstSeenOrder(Bump(t, x), init + [x])
  {
    forall i | 0 <= i < |t| ensures t[i].key in init {
      KeyAt(t, i);
    }
    if x in Keys(t) {
      FirstSeenOld(t, init, x);
    } else {
      FirstSeenNew(t, init, x);
    }
  }

  lemma FirstSeenOld<K>(t: seq<Entry<K>>, init: seq<K>, x: K)
    requires FirstSeenOrder(t, init) && x in Keys(t)
    requires forall i :: 0 <= i < |t| ==> t[i].key in init
    ensures FirstSeenOrder(Bump(t, x), init + [x])
  {
    var r, xs := Bump(t, x), init + [x];
    BumpKeepsKeys(t, x);
    forall i, j | 0 <= i < j < |r|
      ensures r[i].key in xs && r[j].key in xs && FirstIndex(xs, r[i].key) < FirstIndex(xs, r[j].key)
    {
      FirstIndexSnoc(init, x, t[i].key);
      FirstIndexSnoc(init, x, t[j].key);
    }
  }

  lemma FirstSeenNew<K>(t: seq<Entry<K>>, init: seq<K>, x: K)
    requires FirstSeenOrder(t, init) && x !in Keys(t) && x !in init
    requires forall i :: 0 <= i < |t| ==> t[i].key in init
    ensures FirstSeenOrder(Bump(t, x), init + [x])
  {
    BumpAppends(t, x);
    forall i, j | 0 <= i < j < |t| + 1
      ensures var r, xs := t + [Entry(x, 1)], init + [x];
        r[i].key in xs && r[j].key in xs && FirstIndex(xs, r[i].key) < FirstIndex(xs, r[j].key)
    {
      FirstSeenNewPair(t, init, x, i, j);
    }
  }

  lemma FirstSeenNewPair<K>(t: seq<Entry<K>>, init: seq<K>, x: K, i: nat, j: nat)
    requires FirstSeenOrder(t, init) && x !in init
    requires forall i :: 0 <= i < |t| ==> t[i].key in init
    requires i < j <= |t|
    ensures var r, xs := t + [Entry(x, 1)], init + [x];
      r[i].key in xs && r[j].key in xs && FirstIndex(xs, r[i].key) < FirstIndex(xs, r[j].key)
  {
    var r, xs := t + [Entry(x, 1)], init + [x];
    var a := t[i].key;
    assert r[i].key == a && a in init;
    FirstIndexSnoc(init, x, a);
    if j < |t| {
      var b := t[j].key;
      assert r[j].key == b && b in init;
      FirstIndexSnoc(init, x, b);
    } else {
      assert r[j].key == x;
      FirstIndexOfNew(init, x);
    }
  }

  lemma {:induction false} KeyAt<K>(t: seq<Entry<K>>, i: nat)
    requires i < |t|
    ensures t[i].key in Keys(t)
  {
    if i > 0 {
      KeyAt(t[1..], i - 1);
    }
  }

  // ---------------------------------------------------------------------------
  // sorted(..., key=count, reverse=True)[:5]

  /** Counts never go up along the sequence. */
  predicate NonIncreasing<K>(s: seq<Entry<K>>) {
    forall i, j :: 0 <= i < j < |s| ==> s[i].count >= s[j].count
  }

  /** Puts `e` after every entry whose count is at least its own: the step
      of a stable sort by count, largest first. */
  function InsertDesc<K>(s: seq<Entry<K>>, e: Entry<K>): (r: seq<Entry<K>>)
    ensures |r| == |s| + 1
  {
    if s == [] then [e]
    else if s[0].count < e.count then [e] + s
    else [s[0]] + InsertDesc(s[1..], e)
  }

  /** Python's stable sort of the entries by count, largest first. */
  function SortDesc<K>(t: seq<Entry<K>>): (r: seq<Entry<K>>)
    ensures |r| == |t|
  {
    if t == [] then [] else InsertDesc(SortDesc(t[..|t| - 1]), t[|t| - 1])
  }

  /** The first five entries of the sorted list. */
  function Top5<K>(t: seq<Entry<K>>): (r: seq<Entry<K>>)
    ensures |r| == if |t| < 5 then |t| else 5
  {
    var s := SortDesc(t);
    if |s| <= 5 then s else s[..5]
  }

  lemma {:induction false} InsertDescOrdered<K>(s: seq<Entry<K>>, e: Entry<K>)
    requires NonIncreasing(s)
    ensures NonIncreasing(InsertDesc(s, e))
    ensures InsertDesc(s, e)[0] == if s == [] || s[0].count < e.count then e else s[0]
  {
    if s != [] && s[0].count >= e.count {
      var rest := s[1..];
      InsertDescOrdered(rest, e);
      var r := InsertDesc(s, e);
      var ir := InsertDesc(rest, e);
      assert r == [s[0]] + ir;
      forall i, j | 0 <= i < j < |r| ensures r[i].count >= r[j].count {
        if i == 0 {
          assert r[j] == ir[j - 1];
          assert ir[0].count >= ir[j - 1].count;
          assert ir[0] == e || ir[0] == rest[0];
        } else {
          assert r[i] == ir[i - 1] && r[j] == ir[j - 1];
        }
      }
    }
  }

  lemma {:induction false} InsertDescPermutes<K>(s: seq<Entry<K>>, e: Entry<K>)
    ensures multiset(InsertDesc(s, e)) == multiset(s) + multiset{e}
  {
    if s != [] && s[0].count >= e.count {
      InsertDescPermutes(s[1..], e);
      assert s == [s[0]] + s[1..];
    }
  }

  lemma {:induction false} SortDescOrdered<K>(t: seq<Entry<K>>)
    ensures NonIncreasing(SortDesc(t))
  {
    if t != [] {
      var init := t[..|t| - 1];
      SortDescOrdered(init);
      InsertDescOrdered(SortDesc(init), t[|t| - 1]);
    }
  }

  lemma {:induction false} SortDescPermutes<K>(t: seq<Entry<K>>)
    ensures multiset(SortDesc(t)) == multiset(t)
  {
    if t != [] {
      var init, e := t[..|t| - 1], t[|t| - 1];
      SortDescPermutes(init);
      InsertDescPermutes(SortDesc(init), e);
      calc {
        multiset(t);
        { assert t == init + [e]; }
        multiset(init) + multiset{e};
      }
    }
  }

  /** The sorted list holds exactly the entries, ordered by count, largest
      first. */
  lemma SortDescSorts<K>(t: seq<Entry<K>>)
    ensures NonIncreasing(SortDesc(t))
    ensures multiset(SortDesc(t)) == multiset(t)
  {
    SortDescOrdered(t);
    SortDescPermutes(t);
  }

  /** The entries with count `c`, in order. */
  function WithCount<K>(s: seq<Entry<K>>, c: nat): seq<Entry<K>> {
    if s == [] then []
    else (if s[0].count == c then [s[0]] else []) + WithCount(s[1..], c)
  }

  lemma {:induction false} WithCountAppend<K>(a: seq<Entry<K>>, b: seq<Entry<K>>, c: nat)
    ensures WithCount(a + b, c) == WithCount(a, c) + WithCount(b, c)
  {
    if a != [] {
      WithCountAppend(a[1..], b, c);
      assert (a + b)[1..] == a[1..] + b;
    } else {
      assert a + b == b;
    }
  }

  lemma {:induction false} WithCountNone<K>(s: seq<Entry<K>>, c: nat)
    requires forall i :: 0 <= i < |s| ==> s[i].count < c
    ensures WithCount(s, c) == []
  {
    if s != [] {
      WithCountNone(s[1..], c);
    }
  }

  /** Inserting `e` into a sorted list puts it last among the entries with
      its count. */
  lemma {:induction false} InsertDescStable<K>(s: seq<Entry<K>>, e: Entry<K>, c: nat)
    requires NonIncreasing(s)
    ensures WithCount(InsertDesc(s, e), c) == WithCount(s, c) + (if e.count == c then [e] else [])
  {
    if s == [] {
    } else if s[0].count < e.count {
      if e.count == c {
        WithCountNone(s, c);
      }
      assert InsertDesc(s, e)[1..] == s;
      if e.count != c {
        assert WithCount(InsertDesc(s, e), c) == WithCount(s, c);
      }
    } else {
      InsertDescStable(s[1..], e, c);
      assert InsertDesc(s, e)[1..] == InsertDesc(s[1..], e);
    }
  }

  /** The sort is stable: the entries of any one count keep their order. */
  lemma {:induction false} SortDescStable<K>(t: seq<Entry<K>>, c: nat)
    ensures WithCount(SortDesc(t), c) == WithCount(t, c)
  {
    if t != [] {
      var init := t[..|t| - 1];
      var e := t[|t| - 1];
      SortDescStable(init, c);
      SortDescOrdered(init);
      InsertDescStable(SortDesc(init), e, c);
      assert t == init + [e];
      WithCountAppend(init, [e], c);
    }
  }

  /** The top five: at most five entries, all from the tally, largest
      counts first, and no entry left out has a larger count than one kept. */
  lemma Top5Properties<K>(t: seq<Entry<K>>)
    ensures |Top5(t)| <= 5
    ensures NonIncreasing(Top5(t))
    ensures multiset(Top5(t)) <= multiset(t)
    ensures forall i, j :: 0 <= i < |Top5(t)| <= j < |t| ==> Top5(t)[i].count >= SortDesc(t)[j].count
  {
    var s, top := SortDesc(t), Top5(t);
    SortDescSorts(t);
    if |s| > 5 {
      assert top == s[..5];
      calc {
        multiset(s);
        { assert s == top + s[5..]; }
        multiset(top) + multiset(s[5..]);
      }
      forall i, j | 0 <= i < j < |top| ensures top[i].count >= top[j].count {
        assert top[i] == s[i] && top[j] == s[j];
      }
      forall i, j | 0 <= i < |top| <= j < |t| ensures top[i].count >= s[j].count {
        assert top[i] == s[i];
      }
    }
  }

  lemma {:induction false} TotalAppend<K>(a: seq<Entry<K>>, b: seq<Entry<K>>)
    ensures Total(a + b) == Total(a) + Total(b)
  {
    if a != [] {
      TotalAppend(a[1..], b);
      assert (a + b)[1..] == a[1..] + b;
    } else {
      assert a + b == b;
    }
  }

  lemma {:induction false} InsertDescTotal<K>(s: seq<Entry<K>>, e: Entry<K>)
    ensures Total(InsertDesc(s, e)) == Total(s) + e.count
  {
    if s != [] && s[0].count >= e.count {
      InsertDescTotal(s[1..], e);
    }
  }

  lemma {:induction false} SortDescTotal<K>(t: seq<Entry<K>>)
    ensures Total(SortDesc(t)) == Total(t)
  {
    if t != [] {
      var init, e := t[..|t| - 1], t[|t| - 1];
      SortDescTotal(init);
      InsertDescTotal(SortDesc(init), e);
      TotalAppend(init, [e]);
      assert t == init + [e];
    }
  }

  /** The top five counts add up to no more than all the counts. */
  lemma Top5Total<K>(t: seq<Entry<K>>)
    ensures Total(Top5(t)) <= Total(t)
  {
    var s := SortDesc(t);
    SortDescTotal(t);
    if |s| > 5 {
      TotalAppend(s[..5], s[5..]);
      assert s == s[..5] + s[5..];
    }
  }
}

=== FILE: text.dfy ===
/** The few pieces of Python string behaviour the scripts rely on:
    `strip`, `endswith`, `split`, `str.replace(pat, '')`, `str(int)` and
    the code-point ordering that `sorted` uses on file names. */
module Text {

  // ---------------------------------------------------------------------------
  // Whitespace and strip

  /** Whitespace as Python's `str.strip()` sees it (`str.isspace`): tab,
      newline, vertical tab, form feed, carriage return, the separators
      U+001C to U+001F, space, U+0085, the no-break space U+00A0, and the
      Unicode spaces U+1680, U+2000 to U+200A, U+2028, U+2029, U+202F,
      U+205F and U+3000. */
  predicate IsSpace(c: char) {
    var n := c as int;
    || 9 <= n <= 13
    || 0x1C <= n <= 0x20
    || n == 0x85 || n == 0xA0 || n == 0x1680
    || 0x2000 <= n <= 0x200A
    || n == 0x2028 || n == 0x2029 || n == 0x202F || n == 0x205F || n == 0x3000
  }

  /** Drops leading whitespace. */
  function TrimStart(s: string): (r: string)
    ensures |r| <= |s|
  {
    if s != [] && IsSpace(s[0]) then TrimStart(s[1..]) else s
  }

  /** What `TrimStart` leaves: a suffix of `s` that does not start with
      whitespace, everything before it being whitespace. */
  lemma {:induction false} TrimStartSuffix(s: string)
    ensures TrimStart(s) == s[|s| - |TrimStart(s)|..]
    ensures TrimStart(s) == [] || !IsSpace(TrimStart(s)[0])
    ensures forall i :: 0 <= i < |s| - |TrimStart(s)| ==> IsSpace(s[i])
  {
    if s != [] && IsSpace(s[0]) {
      TrimStartSuffix(s[1..]);
    }
  }

  /** Drops trailing whitespace. */
  function TrimEnd(s: string): (r: string)
    ensures |r| <= |s|
  {
    if s != [] && IsSpace(s[|s| - 1]) then TrimEnd(s[..|s| - 1]) else s
  }

  /** What `TrimEnd` leaves: a prefix of `s` that does not end with
      whitespace, everything after it being whitespace. */
  lemma {:induction false} TrimEndPrefix(s: string)
    ensures TrimEnd(s) == s[..|TrimEnd(s)|]
    ensures TrimEnd(s) == [] || !IsSpace(TrimEnd(s)[|TrimEnd(s)| - 1])
    ensures forall i :: |TrimEnd(s)| <= i < |s| ==> IsSpace(s[i])
  {
    if s != [] && IsSpace(s[|s| - 1]) {
      TrimEndPrefix(s[..|s| - 1]);
    }
  }

  /** Python's `s.strip()`: whitespace dropped at both ends. */
  function Strip(s: string): (r: string)
    ensures |r| <= |s|
  {
    TrimEnd(TrimStart(s))
  }

  /** Text with no whitespace at either end. */
  predicate Stripped(s: string) {
    s == [] || (!IsSpace(s[0]) && !IsSpace(s[|s| - 1]))
  }

  /** Stripped text neither starts nor ends with whitespace. */
  lemma StripEnds(s: string)
    ensures Stripped(Strip(s))
  {
    var t := TrimStart(s);
    TrimStartSuffix(s);
    TrimEndPrefix(t);
    var r := Strip(s);
    if r != [] {
      assert r[0] == t[0];
    }
  }

  /** Text made of whitespace only. */
  predicate AllSpace(s: string) {
    forall k :: 0 <= k < |s| ==> IsSpace(s[k])
  }

  /** What `strip` means: the result is the piece of the text left once
      the whitespace runs at both ends are cut off, and it has none left
      at either end. */
  lemma StripIsCore(s: string)
    ensures Stripped(Strip(s))
    ensures exists i :: 0 <= i <= |s| - |Strip(s)| && OccursAt(s, Strip(s), i)
                        && AllSpace(s[..i]) && AllSpace(s[i + |Strip(s)|..])
  {
    StripEnds(s);
    var t := TrimStart(s);
    TrimStartSuffix(s);
    TrimEndPrefix(t);
    var r := Strip(s);
    var i := |s| - |t|;
    assert s[i..i + |r|] == t[..|r|];
    assert OccursAt(s, r, i);
    assert AllSpace(s[..i]);
    assert forall k :: i + |r| <= k < |s| ==> s[k] == t[k - i];
    assert AllSpace(s[i + |r|..]);
  }

  /** Strip changes text exactly when it has whitespace at an end; so
      stripping twice is stripping once. */
  lemma StripFixedIff(s: string)
    ensures Strip(s) == s <==> Stripped(s)
    ensures Strip(Strip(s)) == Strip(s)
  {
    StripEnds(s);
    if Stripped(s) {
      assert TrimStart(s) == s;
      assert TrimEnd(s) == s;
    }
    var r := Strip(s);
    assert TrimStart(r) == r;
    assert TrimEnd(r) == r;
  }

  lemma {:induction false} TrimStartKeepsNonSpace(s: string, c: char)
    requires !IsSpace(c)
    ensures c in TrimStart(s) <==> c in s
  {
    if s != [] && IsSpace(s[0]) {
      TrimStartKeepsNonSpace(s[1..], c);
      assert s == [s[0]] + s[1..];
    }
  }

  lemma {:induction false} TrimEndKeepsNonSpace(s: string, c: char)
    requires !IsSpace(c)
    ensures c in TrimEnd(s) <==> c in s
  {
    if s != [] && IsSpace(s[|s| - 1]) {
      TrimEndKeepsNonSpace(s[..|s| - 1], c);
      assert s == s[..|s| - 1] + [s[|s| - 1]];
    }
  }

  /** Strip only ever removes whitespace: a character that is not whitespace
      occurs in the stripped text exactly when it occurs in the original. */
  lemma StripKeepsNonSpace(s: string, c: char)
    requires !IsSpace(c)
    ensures c in Strip(s) <==> c in s
  {
    TrimStartKeepsNonSpace(s, c);
    TrimEndKeepsNonSpace(TrimStart(s), c);
  }

  // ---------------------------------------------------------------------------
  // Prefixes, suffixes, containment

  predicate StartsWith(s: string, prefix: string) {
    |prefix| <= |s| && s[..|prefix|] == prefix
  }

  /** Python's `s.endswith(suffix)`. */
  predicate EndsWith(s: string, suffix: string) {
    |suffix| <= |s| && s[|s| - |suffix|..] == suffix
  }

  /** Python's `needle in s` on strings. */
  predicate Contains(s: string, needle: string) {
    exists i :: 0 <= i <= |s| - |needle| && OccursAt(s, needle, i)
  }

  predicate OccursAt(s: string, needle: string, i: nat)
    requires i + |needle| <= |s|
  {
    s[i..i + |needle|] == needle
  }

  /** Text that lacks one of the needle's characters does not contain it. */
  lemma MissingCharNotContained(s: string, needle: string, c: char)
    requires c in needle && c !in s
    ensures !Contains(s, needle)
  {
    var k :| 0 <= k < |needle| && needle[k] == c;
    forall i | 0 <= i <= |s| - |needle| ensures !OccursAt(s, needle, i) {
      assert s[i..i + |needle|][k] == s[i + k];
    }
  }

  // ---------------------------------------------------------------------------
  // split on one character

  /** Position of the first `d` in `s`. */
  function IndexOf(s: string, d: char): (i: nat)
    requires d in s
    ensures i < |s| && s[i] == d && d !in s[..i]
  {
    if s[0] == d then 0 else 1 + IndexOf(s[1..], d)
  }

  /** Inverse of Split: the parts glued back with `d` between them. */
  function Join(parts: seq<string>, d: char): string
    requires |parts| >= 1
  {
    if |parts| == 1 then parts[0] else parts[0] + [d] + Join(parts[1..], d)
  }

  /** Python's `s.split(d)` for a one-character separator: never empty, no
      part contains the separator, and joining the parts gives `s` back. */
  function Split(s: string, d: char): (parts: seq<string>)
    ensures |parts| >= 1
    ensures forall k :: 0 <= k < |parts| ==> d !in parts[k]
    ensures Join(parts, d) == s
    decreases |s|
  {
    if d !in s then [s]
    else
      var i := IndexOf(s, d);
      var rest := Split(s[i + 1..], d);
      assert s == s[..i] + [d] + s[i + 1..];
      [s[..i]] + rest
  }

  /** The other half of the round trip: parts free of the separator come back
      unchanged from splitting their join. */
  lemma {:induction false} SplitJoin(parts: seq<string>, d: char)
    requires |parts| >= 1
    requires forall k :: 0 <= k < |parts| ==> d !in parts[k]
    ensures Split(Join(parts, d), d) == parts
  {
    if |parts| > 1 {
      var y := Join(parts[1..], d);
      SplitCons(parts[0], y, d);
      SplitJoin(parts[1..], d);
    }
  }

  /** Splitting at a separator preceded by separator-free text. */
  lemma SplitCons(x: string, y: string, d: char)
    requires d !in x
    ensures Split(x + [d] + y, d) == [x] + Split(y, d)
  {
    var s := x + [d] + y;
    assert s[|x|] == d;
    IndexOfAfterFree(x, y, d);
    assert s[..|x|] == x;
    assert s[|x| + 1..] == y;
  }

  lemma IndexOfAfterFree(x: string, y: string, d: char)
    requires d !in x
    ensures IndexOf(x + [d] + y, d) == |x|
  {
    var s := x + [d] + y;
    assert s[|x|] == d;
    assert forall k :: 0 <= k < |x| ==> s[k] == x[k];
  }

  /** Python's `s.split(d, 1)` on a string that contains `d`: the text before
      the first `d` and everything after it. */
  function SplitFirst(s: string, d: char): (r: (string, string))
    requires d in s
    ensures r.0 + [d] + r.1 == s
    ensures d !in r.0
  {
    var i := IndexOf(s, d);
    assert s == s[..i] + [d] + s[i + 1..];
    (s[..i], s[i + 1..])
  }

  /** Splitting at the first separator undoes gluing two parts of which
      the first is separator-free. */
  lemma SplitFirstOfJoin(x: string, y: string, d: char)
    requires d !in x
    ensures d in x + [d] + y
    ensures SplitFirst(x + [d] + y, d) == (x, y)
  {
    var s := x + [d] + y;
    assert s[|x|] == d;
    IndexOfAfterFree(x, y, d);
    assert s[..|x|] == x;
    assert s[|x| + 1..] == y;
  }

  // ---------------------------------------------------------------------------
  // str.replace(pat, '')

  /** Python's `s.replace(pat, '')`: scanning left to right, every
      non-overlapping occurrence of `pat` is dropped. */
  function RemoveAll(s: string, pat: string): (r: string)
    requires pat != []
    ensures |r| <= |s|
    decreases |s|
  {
    if |s| < |pat| then s
    else if s[..|pat|] == pat then RemoveAll(s[|pat|..], pat)
    else [s[0]] + RemoveAll(s[1..], pat)
  }

  /** Text that cannot start an occurrence of `pat` passes through untouched. */
  lemma {:induction false} RemoveAllKeepsPrefix(x: string, y: string, pat: string)
    requires pat != [] && pat[0] !in x
    ensures RemoveAll(x + y, pat) == x + RemoveAll(y, pat)
    decreases |x|
  {
    if x == [] {
      assert x + y == y;
    } else {
      var s := x + y;
      if |s| < |pat| {
        RemoveAllShort(y, pat);
      } else {
        assert s[..|pat|][0] == x[0] != pat[0];
        assert RemoveAll(s, pat) == [s[0]] + RemoveAll(s[1..], pat);
        assert s[1..] == x[1..] + y;
        RemoveAllKeepsPrefix(x[1..], y, pat);
        assert x == [x[0]] + x[1..];
      }
    }
  }

  /** An occurrence found by the left-to-right scan is dropped and the
      scan resumes right after it: text that cannot start an occurrence,
      then the pattern, then the rest, loses exactly that occurrence. */
  lemma RemoveAllDropsOccurrence(x: string, y: string, pat: string)
    requires pat != [] && pat[0] !in x
    ensures RemoveAll(x + pat + y, pat) == x + RemoveAll(y, pat)
  {
    RemoveAllKeepsPrefix(x, pat + y, pat);
    assert x + pat + y == x + (pat + y);
    var s := pat + y;
    assert s[..|pat|] == pat && s[|pat|..] == y;
  }

  lemma RemoveAllShort(s: string, pat: string)
    requires pat != [] && |s| < |pat|
    ensures RemoveAll(s, pat) == s
  {
  }

  lemma RemoveAllOfPattern(pat: string)
    requires pat != []
    ensures RemoveAll(pat, pat) == []
  {
    assert pat[..|pat|] == pat && pat[|pat|..] == [];
  }

  // ---------------------------------------------------------------------------
  // Decimal rendering of integers, str(n)

  predicate IsDigit(c: char) { '0' <= c <= '9' }

  predicate AllDigits(s: string) { forall k :: 0 <= k < |s| ==> IsDigit(s[k]) }

  function DigitChar(d: nat): (c: char)
    requires d < 10
    ensures IsDigit(c) && (c as int) - ('0' as int) == d
  {
    (('0' as int) + d) as char
  }

  /** Python's `str(n)` for a non-negative integer: at least one digit, no
      leading zero unless `n` is zero. */
  function Decimal(n: nat): (r: string)
    ensures |r| >= 1 && AllDigits(r)
    ensures r[0] == '0' ==> n == 0
  {
    if n < 10 then [DigitChar(n)] else Decimal(n / 10) + [DigitChar(n % 10)]
  }

  /** Reads a digit string back as a number. */
  function DecimalValue(s: string): nat
    requires AllDigits(s)
  {
    if s == [] then 0
    else 10 * DecimalValue(s[..|s| - 1]) + ((s[|s| - 1] as int) - ('0' as int))
  }

  /** Rendering then reading gives the number back, so distinct numbers
      render differently. */
  lemma {:induction false} DecimalRoundTrip(n: nat)
    ensures DecimalValue(Decimal(n)) == n
  {
    if n >= 10 {
      var s := Decimal(n);
      assert s[..|s| - 1] == Decimal(n / 10);
      DecimalRoundTrip(n / 10);
    }
  }

  lemma DecimalInjective(a: nat, b: nat)
    ensures Decimal(a) == Decimal(b) <==> a == b
  {
    if Decimal(a) == Decimal(b) {
      DecimalRoundTrip(a);
      DecimalRoundTrip(b);
    }
  }

  /** Python's `str(i)` for any integer. */
  function IntToString(i: int): (r: string)
    ensures i >= 0 ==> r == Decimal(i)
    ensures i < 0 ==> r == "-" + Decimal(-i)
  {
    if i >= 0 then Decimal(i) else "-" + Decimal(-i)
  }

  // ---------------------------------------------------------------------------
  // Code-point order on strings, as Python compares `str` values

  /** `a <= b` for Python strings: lexicographic by code point, a proper
      prefix before the longer string. */
  predicate LexLe(a: string, b: string) {
    a == [] || (b != [] && (a[0] < b[0] || (a[0] == b[0] && LexLe(a[1..], b[1..]))))
  }

  lemma LexReflexive(a: string)
    ensures LexLe(a, a)
  {
  }

  lemma LexTotal(a: string, b: string)
    ensures LexLe(a, b) || LexLe(b, a)
  {
  }

  lemma {:induction false} LexAntisymmetric(a: string, b: string)
    requires LexLe(a, b) && LexLe(b, a)
    ensures a == b
  {
    if a != [] && b != [] {
      LexAntisymmetric(a[1..], b[1..]);
      assert a == [a[0]] + a[1..] && b == [b[0]] + b[1..];
    }
  }

  lemma {:induction false} LexTransitive(a: string, b: string, c: string)
    requires LexLe(a, b) && LexLe(b, c)
    ensures LexLe(a, c)
  {
    if a != [] && b != [] && c != [] && a[0] == b[0] == c[0] {
      LexTransitive(a[1..], b[1..], c[1..]);
    }
  }

  /** Every element is at most every later one. */
  ghost predicate Sorted(s: seq<string>) {
    forall i, j :: 0 <= i < j < |s| ==> LexLe(s[i], s[j])
  }

  /** Places `x` after the last element not greater than it. */
  function InsertSorted(s: seq<string>, x: string): (r: seq<string>)
    ensures multiset(r) == multiset(s) + multiset{x}
    ensures |r| == |s| + 1
  {
    if s == [] || LexLe(s[|s| - 1], x) then s + [x]
    else
      var init := s[..|s| - 1];
      assert s == init + [s[|s| - 1]];
      InsertSorted(init, x) + [s[|s| - 1]]
  }

  /** Python's `sorted(names)`: an insertion sort in code-point order. */
  function SortStrings(s: seq<string>): (r: seq<string>)
    ensures multiset(r) == multiset(s)
  {
    if s == [] then []
    else
      assert s == s[..|s| - 1] + [s[|s| - 1]];
      InsertSorted(SortStrings(s[..|s| - 1]), s[|s| - 1])
  }

  lemma {:induction false} InsertSortedKeepsOrder(s: seq<string>, x: string)
    requires Sorted(s)
    ensures Sorted(InsertSorted(s, x))
    decreases |s|
  {
    var r := InsertSorted(s, x);
    if s == [] || LexLe(s[|s| - 1], x) {
      forall i, j | 0 <= i < j < |r| ensures LexLe(r[i], r[j]) {
        if j == |s| && i < |s| - 1 {
          LexTransitive(s[i], s[|s| - 1], x);
        }
      }
    } else {
      var init := s[..|s| - 1];
      var last := s[|s| - 1];
      InsertSortedKeepsOrder(init, x);
      var q := InsertSorted(init, x);
      assert r == q + [last];
      LexTotal(last, x);
      forall i, j | 0 <= i < j < |r| ensures LexLe(r[i], r[j]) {
        if j == |r| - 1 {
          // every element of q is either x or an element of init
          assert r[i] in multiset(q);
          assert r[i] == x || r[i] in multiset(init);
          if r[i] != x {
            var k :| 0 <= k < |init| && init[k] == r[i];
            assert LexLe(s[k], s[|s| - 1]);
          }
        }
      }
    }
  }

  lemma {:induction false} SortStringsSorted(s: seq<string>)
    ensures Sorted(SortStrings(s))
  {
    if s != [] {
      SortStringsSorted(s[..|s| - 1]);
      InsertSortedKeepsOrder(SortStrings(s[..|s| - 1]), s[|s| - 1]);
    }
  }

  /** Two sorted sequences holding the same strings are the same sequence. */
  lemma {:induction false} SortedUnique(a: seq<string>, b: seq<string>)
    requires Sorted(a) && Sorted(b) && multiset(a) == multiset(b)
    ensures a == b
    decreases |a|
  {
    if a == [] {
      assert |b| == |multiset(b)| == 0;
    } else {
      assert |b| == |multiset(b)| == |multiset(a)| == |a|;
      SortedHeadIsLeast(a, b[0]);
      SortedHeadIsLeast(b, a[0]);
      LexAntisymmetric(a[0], b[0]);
      SplitHead(a);
      SplitHead(b);
      SortedUnique(a[1..], b[1..]);
    }
  }

  lemma SortedHeadIsLeast(s: seq<string>, z: string)
    requires Sorted(s) && z in multiset(s)
    ensures LexLe(s[0], z)
  {
    var i :| 0 <= i < |s| && s[i] == z;
    if i == 0 {
      LexReflexive(z);
    }
  }

  lemma SplitHead(s: seq<string>)
    requires s != []
    ensures multiset(s[1..]) == multiset(s) - multiset{s[0]}
    ensures Sorted(s) ==> Sorted(s[1..])
  {
    assert s == [s[0]] + s[1..];
  }

  /** `sorted` does not depend on the order its input came in. */
  lemma SortStringsIgnoresInputOrder(s: seq<string>, t: seq<string>)
    requires multiset(s) == multiset(t)
    ensures SortStrings(s) == SortStrings(t)
  {
    SortStringsSorted(s);
    SortStringsSorted(t);
    SortedUnique(SortStrings(s), SortStrings(t));
  }
}

=== FILE: wrappers.dfy ===
/** Optional values, used for absent dictionary keys, lines that fail to decode
    and operations that may raise instead of returning; and results of
    scripts that may end with an uncaught exception. */
module Wrappers {

  datatype Option<+T> = None | Some(value: T) {

    /** Returns the value in Some, or `default` when None. */
    function GetOr(default: T): T {
      match this
      case Some(v) => v
      case None => default
    }
  }

  /** What a script step produces, or `Failed` when an exception escapes it. */
  datatype Result<+T> = Ok(value: T) | Failed
}
